=== FILE: README.md ===
# A verified model of a line-oriented scripting language

`src/parser.ts` is the front end and tree-walking interpreter of a small
scripting language. Each source line holds one command and comma-separated
argument expressions. The command reads and replaces a running value, and
commands share one global variable map. This project models every stage
in Dafny, with the same order of operations, branches and errors as the
code:

- `Lines`: parseLines.
- `Lexer`: splitLine and splitArgs.
- `Tokenizer`: tokenizeArg.
- `ExprParser`: parseTokens, parseNode and getPrecedence.
- `Blocks`: buildAst.
- `Eval`: parseArg.
- `Interp`: the command table, execute and parse.
- `Literals`: literals carried through every stage from text to value.

`Base`, `Text` and `Syntax` hold the shared datatypes and ASCII string
operations.

Loops in the source are methods here: `Lexer.SplitArgs`,
`Tokenizer.TokenizeArg`, `ExprParser.ParseTokens`, `Lines.ParseLines`,
`Blocks.BuildAst` and `Interp.Interpreter.Execute`. Each is proved equal to
a recursive specification function, and the properties are lemmas about
those functions. The interpreter is a class. Its variable map and its
output log are fields that `store` and `print` update in place, and
`foreach` overwrites a local copy of the array element by element. Every
`throw` becomes an `Err` that carries the line, and the argument number
where the source reports one. The source's unguarded JavaScript
TypeErrors become `TypeFault`: reading past the output queue, evaluating
an operator without children, or running `foreach` without a body.

The model follows the code as written, including where it departs from
conventional arithmetic or from what the command names suggest:

- **Precedence.** The precedence table gives `*` and `/` the smaller number
  (1), and the popping test at src/parser.ts:223 pops stacked operators
  whose number is *greater*, that is, the looser ones. The output queue is
  built with `unshift`, so the tree is the mirror image of the postfix
  parse. As a result, `5-3` evaluates to -2 and `1+2*3` to 9, not 7
  (`Eval.SubtractionReversed`, `Eval.SumBeforeProduct`).
- **Bitwise operators.** `&`, `|` and `^` are tokenized but match no case
  in parseTokens, so they are dropped from the expression
  (`ExprParser.QueueContents`).
- **Control words.** `elif` and `else` are block openers, so the early
  return for them in buildAst is never taken, and the conditional-chain
  flag has no effect (`Blocks.BuildRange`, `Blocks.CondIrrelevant`). `if`,
  `elif`, `else` and `function` are not in the command table: a program
  that reaches one of these blocks stops with "not found"
  (`Interp.UnknownCommandHalts`, `Interp.ControlWordsUnregistered`).
- **Stray `end`.** An `end` with no block to close ends buildAst at the
  top level, and parse keeps only the statements before it. The lines
  after it are silently never run (`Blocks.StrayEndStops`).
- **`undefined` elements in `foreach`.** The body runs through `execute`,
  whose `value` parameter defaults to `null`, so an `undefined` element is
  seen by the body as `null`. An empty body therefore turns `undefined`
  elements into `null` (`Interp.EmptyBody`).
- **One-argument `store`.** `store $x` writes the running value under the
  key `"name"`, not under `x` (`Interp.StoreOneArgument`). Its argument
  count message names the command `const`, and the model keeps that name.

The `use` command reads a file. Here it reads from a map of paths to
contents that the interpreter is given. The `print` command appends the
printed value to an output log instead of writing to the console.

## Model

| member | source | states |
|---|---|---|
| Text.Trim | src/parser.ts:47 | `trim`: the result neither starts nor ends with whitespace, and it is empty exactly when the line is all whitespace |
| Text.TrimShape | src/parser.ts:47 | a line is its trimmed form with whitespace added on both sides |
| Text.TrimIdempotent | src/parser.ts:47 | trimming an already trimmed line changes nothing |
| Text.ToLower | src/parser.ts:59 | `toLowerCase` keeps the length, leaves no upper-case letter and changes only upper-case letters, each into its lower-case partner |
| Text.SplitOn | src/parser.ts:343 | `split` with a non-empty separator yields at least one piece, the first piece starts the string, and no piece contains the separator, so together with SplitJoin every occurrence of the separator is a cut and nothing else is |
| Text.SplitJoin | src/parser.ts:67-70 | splitting with a separator and joining with the same separator gives the string back, including the empty separator that cuts into characters |
| Text.NatToString | src/parser.ts:354 | a number written by `join` is non-empty, all digits, and reads back as the same number |
| Lexer.SplitLine | src/parser.ts:66-72 | the command holds no space; when the line has a space it is the command, one space and the rest, otherwise the whole line with no arguments |
| Lexer.ParenSpanShape | src/parser.ts:96-106 | a parenthesised span ends at the first `)` with no nesting, and an unterminated one takes the rest of the line |
| Lexer.SplitArgs | src/parser.ts:74-113 | splitArgs returns the trimmed pieces between the commas that lie outside quoted and parenthesised spans: one more piece than such commas, each piece trimmed |
| Lexer.CopyQuoted | src/parser.ts:82-95 | the quoted-span loop copies a backslash together with the next character, so `\"` does not close the span |
| Lexer.QuotedSpanPlain | src/parser.ts:82-95 | without backslashes a quoted span runs up to and including the first quote, and an unterminated one takes the rest of the input |
| Lexer.CopyParenthesised | src/parser.ts:96-106 | the parenthesised-span loop copies up to and including the first `)` |
| Lexer.PiecesCount | src/parser.ts:74-113 | the number of argument strings is one more than the number of splitting commas |
| Lexer.QuotedSpanJoin | src/parser.ts:82-95 | the quoted span and the text after it make up the input, unless the input ends on a backslash inside the span |
| Lexer.PiecesJoin | src/parser.ts:74-113 | joining the untrimmed pieces with commas rebuilds the argument string: nothing is lost or reordered |
| Tokenizer.NameRun | src/parser.ts:160-169 | a variable name is the longest run of `[A-Za-z0-9_]` after `$`, possibly empty |
| Tokenizer.DigitRun | src/parser.ts:176-186 | a number is the longest run of digits |
| Tokenizer.TokenizeArg | src/parser.ts:115-206 | tokenizeArg returns the tokens of the argument, or fails naming the line, the argument and the first character that fits no token |
| Tokenizer.ReadToken | src/parser.ts:123-203 | one pass of the switch on a non-space character reads one whole token (string, variable, number or operator symbol) and resumes just past it, or fails on exactly that character when it fits no case |
| Tokenizer.ReadString | src/parser.ts:124-152 | the string-literal loop reads the literal's contents and stops after its closing quote |
| Tokenizer.LexStringPlain | src/parser.ts:123-152 | without backslashes a string literal's contents run up to the first quote, which is consumed, and an unterminated literal takes the rest of the text |
| Tokenizer.ReadName | src/parser.ts:160-169 | the name loop stops at the first non-name character and leaves it unread |
| Tokenizer.ReadDigits | src/parser.ts:177-186 | the digit loop stops at the first non-digit and leaves it unread |
| Tokenizer.TokenizeSpace | src/parser.ts:120-122 | whitespace yields no token |
| Tokenizer.TokenizeUnexpected | src/parser.ts:200-202 | a character outside strings that is not whitespace, `"`, `$`, a digit or an operator symbol is an error |
| Tokenizer.TokensWellShaped | src/parser.ts:115-206 | numbers are non-empty digit strings, variables are name characters, possibly none, and operators are single characters from `+-/*()\|&^` |
| Tokenizer.TokenizeErrorChar | src/parser.ts:200-202 | tokenizing fails only on a character of the argument that fits no token |
| Tokenizer.TokenizeSucceeds | src/parser.ts:115-206 | an argument without such characters always tokenizes |
| Tokenizer.LexEscaped | src/parser.ts:123-158 | `\"`, `\n` and `\t` read back as a quote, a line feed and a tab: a literal written with them lexes back to its contents |
| Tokenizer.RenderTokenize | src/parser.ts:115-206 | tokens written back as text tokenize to the same tokens |
| ExprParser.ParseNode | src/parser.ts:260-275 | parseNode, when it does not read past the queue, returns an index just past what it consumed |
| ExprParser.ParseNodeReads | src/parser.ts:260-275 | the tree read has two children at every operator and none elsewhere, and its prefix form is exactly the consumed part of the queue |
| ExprParser.ParseNodePrefix | src/parser.ts:260-275 | parseNode reads any well-formed tree back from its prefix form, at any position, and advances by its node count |
| ExprParser.ParseTokens | src/parser.ts:208-258 | parseTokens equals the shunting-yard pass followed by parseNode on the front of the queue |
| ExprParser.Precedence | src/parser.ts:277-286 | getPrecedence: 0 exactly for anything other than the seven operators `* / + - & \| ^`, and never more than 5 |
| ExprParser.PrecedenceOrder | src/parser.ts:277-286 | `*` and `/` share the smallest number, then `+` and `-`, then `&`, `\|` and `^` in that order |
| ExprParser.PopLooserLoop | src/parser.ts:222-227 | the popping loop of `+ - * /` moves stacked operators that bind looser, stopping at `(` or an empty stack |
| ExprParser.PopToParenLoop | src/parser.ts:236-241 | the popping loop of `)` moves operators until a `(` or an empty stack |
| ExprParser.ShuntErrorStays | src/parser.ts:242-243 | once the pass has thrown on a prefix of the tokens, it throws the same error on all of them |
| ExprParser.ShuntFacts | src/parser.ts:211-251 | the main loop throws exactly when some prefix closes more parentheses than it opens, and that error is "( expected" |
| ExprParser.FinishFacts | src/parser.ts:252-256 | the closing loop throws ") expected" exactly when a `(` is left on the stack, and otherwise puts the stack in front of the queue |
| ExprParser.QueueErrors | src/parser.ts:242-256 | "( expected" exactly for an unmatched `)`, ") expected" exactly for an unclosed `(`, and success exactly for balanced parentheses |
| ExprParser.QueueContents | src/parser.ts:211-256 | the queue holds only operands and `+ - * /`, with `& \| ^` dropped; its operands are the argument's operands reversed, and its operators are a permutation of the argument's |
| ExprParser.ReversedPostfix | src/parser.ts:214 | a postfix form built with `unshift` is the prefix form of the mirrored tree |
| ExprParser.MirrorWellFormed | src/parser.ts:260-275 | mirroring keeps trees well formed and keeps their size |
| ExprParser.ReadsMirror | src/parser.ts:214-275 | parseNode reads a reversed postfix queue as the mirror image of the tree |
| ExprParser.ParseOfQueue | src/parser.ts:257 | when the queue is the prefix form of a tree, parseTokens returns that tree and its size |
| ExprParser.OneOperand | src/parser.ts:262 | a lone operand parses to a leaf holding it and consumes one queue entry |
| ExprParser.TwoOperands | src/parser.ts:208-275 | `a op b` parses to `op` with `b` as first child and `a` as second |
| ExprParser.ThreeOperands | src/parser.ts:219-229 | `a o1 b o2 c` groups `a o1 b` first when `o1` binds looser, and `b o2 c` first otherwise |
| ExprParser.ParseLooser | src/parser.ts:223 | a stacked looser operator is popped when a tighter one arrives |
| ExprParser.ParseTighter | src/parser.ts:223 | a stacked operator that binds as tight or tighter stays on the stack |
| ExprParser.EmptyQueue | src/parser.ts:261 | `()` leaves an empty queue, and parseNode reads past its end |
| Eval.Evaluate | src/parser.ts:374-394 | parseArg: its errors are TypeErrors or name the given line and argument; an operator's value is a number; only a variable can yield `null`, `undefined` or an array; a string leaf is its text, a number leaf its decimal value, a variable leaf its binding (`undefined` when unbound), and an operator leaf without children a TypeError |
| Eval.Arith | src/parser.ts:380-389 | an operator outside `+ - * / & \|` is "unknown operator", and only numbers combine |
| Eval.SumsAndProductsEvaluate | src/parser.ts:374-394 | a tree of `+`, `*` and number literals always evaluates to a number |
| Eval.MirrorKeepsValue | src/parser.ts:376-382 | mirroring does not change the value of sums and products |
| Eval.SubtractionReversed | src/parser.ts:214-275 | `x-y` evaluates to y − x |
| Eval.SumBeforeProduct | src/parser.ts:223 | `x+y*z` evaluates to (x + y) · z |
| Eval.ProductBeforeSum | src/parser.ts:223 | `x*y+z` evaluates to x · (y + z) |
| Eval.StringOperand | src/parser.ts:379 | a string operand of an operator is "Cannot perform arithmetic on strings" |
| Literals.StringLiteralRoundTrip | src/parser.ts:390 | a string without backslashes, written as a quoted literal, tokenizes to one string token, parses to a leaf and evaluates back to itself, and parseLines reads that argument as the same leaf |
| Literals.NumberLiteralRoundTrip | src/parser.ts:391 | a natural number written in decimal tokenizes to one number token, parses to a leaf and evaluates back to itself, and parseLines reads that argument as the same leaf |
| Lines.ParseLines | src/parser.ts:44-64 | parseLines equals the line-by-line specification, and stops at the first failing line |
| Lines.ParseOneLine | src/parser.ts:47-61 | one line: skipped when blank or a comment, otherwise a lower-cased command with its argument trees |
| Lines.ArgNodes | src/parser.ts:52-56 | the argument trees, with empty argument strings skipped but still counted in the numbering |
| Lines.ArgNode | src/parser.ts:54-55 | one argument: its tokens, then the tree parseTokens reads |
| Lines.ParseErrorStays | src/parser.ts:44-64 | an error on a line is the error of the whole parse |
| Lines.ArgErrorStays | src/parser.ts:52-56 | an error on an argument is the error of the whole line |
| Lines.ParsedStatements | src/parser.ts:44-64 | one statement per kept line, in order: 1-based, strictly increasing line numbers, each naming a line that is neither blank nor a comment, with a lower-case command without spaces |
| Lines.PrefixParsed | src/parser.ts:48 | a line produces no statement exactly when it is blank or a comment after trimming |
| Lines.StatementOfLine | src/parser.ts:47-61 | a statement carries its own line number and a lower-case command without spaces |
| Lines.LowerKeepsNoSpace | src/parser.ts:59 | lower-casing a space-free command leaves it space-free, with no upper-case letter |
| Lines.ArgTreesShape | src/parser.ts:52-56 | there is one tree per non-empty argument string, and every tree has two children at operators and none at operands |
| Blocks.BuildFrom | src/parser.ts:288-308 | the returned index never passes the end of the lines |
| Blocks.BuildAst | src/parser.ts:288-308 | buildAst equals the recursive specification, with the loop index jumping past the nested block |
| Blocks.BuildRange | src/parser.ts:288-308 | the returned index is in `[index, lines.length]`, and when below the end it is the index of an `end` line |
| Blocks.BuildNested | src/parser.ts:291-306 | a statement has children exactly when its command opens a block, at every depth |
| Blocks.CondIrrelevant | src/parser.ts:298 | the conditional-chain flag never changes the result: the `elif`/`else` return is unreachable |
| Blocks.StrayEndStops | src/parser.ts:299-302 | an `end` with no block to close ends the top level: only the statements before it are returned, and the lines after it are ignored |
| Blocks.BuildPreorder | src/parser.ts:288-308 | listing the tree in preorder gives the consumed lines without the `end` lines: nothing is lost, duplicated or reordered |
| Blocks.BlockPreorder | src/parser.ts:292-297 | the same for a block: its line, its body, then what follows its `end` |
| Interp.LooseEquals | src/parser.ts:360 | `==` as far as modelled: `null` and `undefined` equal each other only, and numbers and strings compare by value within their type |
| Interp.LooseEqualsSymmetric | src/parser.ts:360 | `==` is symmetric |
| Interp.Use | src/parser.ts:320-324 | `use` needs exactly one argument; an argument that fails to evaluate passes its error on; an argument that evaluates to the path `p` gives the contents of file `p`, or the read failure for `p` when there is no such file |
| Interp.Store | src/parser.ts:325-337 | `store` passes the running value through; with one argument it writes key `"name"`, with two the second argument's value under the first's name; on an error the state is unchanged |
| Interp.SplitValues | src/parser.ts:343 | one string value per piece of `split`, and their texts joined with the separator give the string back |
| Interp.SplitCommand | src/parser.ts:338-344 | `split` fails on a non-string running value, on an argument count other than one, with the argument's own error, and on an argument that is not a string; otherwise the result is the running string split at exactly the argument's value, and those pieces joined with that value give the string back |
| Interp.JoinCommand | src/parser.ts:352-355 | `join` fails on a non-array and otherwise yields a string: `""` for the empty array and an element's text for a one-element array |
| Interp.JoinConcatenates | src/parser.ts:352-355 | `join` of two arrays put together is the `join` of the first followed by the `join` of the second, so with JoinCommand the result is the elements' texts concatenated in order |
| Interp.ReplaceCommand | src/parser.ts:356-361 | `replace` needs two arguments, and yields the second argument when the value `==` the first, else the value |
| Interp.Print | src/parser.ts:362-370 | `print` with no argument logs the running value; with one it logs that argument's value, or fails with its error and logs nothing; with more it fails; the running value passes through and the variables are untouched |
| Interp.Exec | src/parser.ts:397-405 | execute's loop: running statements never removes a variable or printed output |
| Interp.Run | src/parser.ts:399-402 | one statement: it never removes state, and only `store`, `print` and `foreach` change it |
| Interp.ForEach | src/parser.ts:345-351 | `foreach`'s loop: the result is an array of the same length, and the state only grows |
| Interp.Interpreter.constructor | src/parser.ts:397 | execution starts with an empty state |
| Interp.Interpreter.Execute | src/parser.ts:397-405 | execute starts from its `value` argument, `null` when it is `undefined`, runs each statement on the previous result and stops at the first error, as `Interp.Exec` specifies, updating the fields in place |
| Interp.Interpreter.RunNode | src/parser.ts:399-403 | command lookup: an unregistered command is "not found", otherwise the command runs |
| Interp.Interpreter.StoreCommand | src/parser.ts:325-337 | `store` updates the variable field as specified |
| Interp.Interpreter.PrintCommand | src/parser.ts:362-370 | `print` appends to the output log as specified |
| Interp.Interpreter.ForEachCommand | src/parser.ts:345-351 | `foreach` overwrites each element with the body's result on it (an `undefined` element passed as `null`), in order, sharing the state |
| Interp.ExecAppend | src/parser.ts:397-405 | running two statement sequences one after the other is running the second on the first's result, and an error in the first ends the run |
| Interp.UnknownCommandHalts | src/parser.ts:401-402 | an unregistered command stops the program with "not found", naming its line and leaving the state unchanged |
| Interp.ControlWordsUnregistered | src/parser.ts:319-371 | `if`, `elif`, `else`, `function` and `end` have no command |
| Interp.StoreThenRead | src/parser.ts:325-337 | after `store $x, e` the variable `x` reads as the value of `e`, and every other variable is unchanged |
| Interp.StoreOneArgument | src/parser.ts:329-330 | `store $x` writes the running value under `"name"`, leaving `x` alone |
| Interp.EmptyBody | src/parser.ts:345-351 | a body without statements turns each `undefined` element into `null` and keeps every other element |
| Interp.ForEachEmptyBlock | src/parser.ts:345-351 | an empty `foreach` block maps `undefined` elements to `null`, so it is the identity on arrays without `undefined` |
| Interp.ForEachRuns | src/parser.ts:347-350 | overwriting the array in place gives the body's results on the elements, in order, as a list built element by element would |
| Interp.BodyRunsElement | src/parser.ts:347-348 | result `i` is the body's result on element `i`, run in the state left by the runs on the elements before it |
| Interp.ForEachElements | src/parser.ts:345-351 | `foreach` over an array: element `i` of the result is the body's result on element `i`, with `undefined` passed as `null`, in the state the earlier runs left; the final state is the state after the last run |
| Interp.SplitCharsThenJoin | src/parser.ts:338-355 | `split ""` followed by `join` gives the string back |
| Interp.Parse | src/parser.ts:407-410 | parse splits the source at newlines, parses the lines, builds the block tree and executes it from `null` in an empty state |

## Left out

- Unicode: `trim`, `toLowerCase`, the whitespace test of tokenizeArg and the name and digit classes are modelled for ASCII only.
- Characters are single code points; `split ""` on text outside the Basic Multilingual Plane, which JavaScript cuts into UTF-16 halves, is not modelled.
- Console output is an output log, and `Deno.readTextFileSync` is a lookup in a map of file contents. Read errors other than a missing file are not modelled.
- Eval.Arith: `/` is modelled only when the quotient is an exact integer, and `&` and `|` (32-bit ToInt32 semantics, unreachable from parsed input since the parser drops them) are `TypeFault(Unsupported)`; JavaScript would give floating-point and 32-bit results.
- Numbers are unbounded integers; JavaScript doubles lose precision beyond 2^53.
- Eval.Evaluate: arithmetic on `null`, `undefined` or arrays (JavaScript coercions) is `TypeFault(Unsupported)`; only string operands give the source's own error.
- Literals.StringLiteralRoundTrip: strings holding a backslash are excluded, because tokenizeArg has no escape for a backslash itself (a backslash before any other character is dropped), so no literal reads back as such a string.
- Interp.LooseEquals: `==` between a number and a string, or involving an array (coercion or reference identity), is `TypeFault(Unsupported)` in `replace`.
- Interp.Use: a non-string path is `TypeFault(Unsupported)` rather than Deno's own error.
- Interp.Interpreter.ForEachCommand: `foreach` overwrites the elements of the array in place, so a variable holding the same array sees the change; the model has value semantics for arrays and does not capture this aliasing.
- Names inherited from `Object.prototype` (such as `constructor`) are neither looked up as commands nor read as variables.
- The text of error messages is not modelled; errors carry the line, the argument number and a kind.
- `parseInt` of a number token is modelled for non-empty digit strings, the only form the tokenizer produces.


=== FILE: base.dfy ===
/** Failure-carrying wrappers and the error values the interpreter raises.
    Every `throw` of the source becomes an `Err` carrying one of these. */
module Base {

  datatype Option<+T> = None | Some(value: T)

  datatype Result<+T, +E> = Ok(value: T) | Err(error: E)

  /** What went wrong; the source's message text is not modelled. */
  datatype ErrorKind =
    | UnexpectedCharacter(c: char)     // tokenizer: "Unexpected character"
    | OpenParenExpected                // parser: "( expected"
    | CloseParenExpected               // parser: ") expected"
    | ArithmeticOnStrings              // evaluator: "Cannot perform arethmetic on strings"
    | UnknownOperator(op: string)      // evaluator: "Unknown operator"
    | CommandNotFound(name: string)    // executor: "Command `name` not found"
    | WrongArgumentCount(name: string) // a command called with the wrong number of arguments
    | NotAVariable                     // `store`: "Argument is not a variable reference"
    | ValueNotString                   // `split` on an accumulator that is not a string
    | ArgumentNotString                // `split` with a separator that is not a string
    | ValueNotArray                    // `foreach` / `join` on an accumulator that is not an array
    | ReadFailed(path: string)         // `use`: the file could not be read

  /** JavaScript TypeErrors the source never guards against. */
  datatype Fault =
    | MissingToken     // parseNode reads past the end of the output queue
    | MissingChildren  // an operator leaf is evaluated, or `foreach` runs without a body
    | Unsupported      // a JavaScript coercion or floating-point result outside this model

  datatype Error =
    | AtArgument(line: nat, argnum: nat, kind: ErrorKind)  // "Error: Line L: Argument A: ..."
    | AtLine(line: nat, kind: ErrorKind)                   // "Error: Line L: ..."
    | TypeFault(fault: Fault)
}

=== FILE: blocks.dfy ===
/** buildAst: nesting the statements that follow a block-opening command
    (`foreach`, `function`, `if`, `elif`, `else`) under it, up to the `end`
    that closes the block. */
module Blocks {
  import opened Syntax

  /** The termination measure of buildAst's loop and recursion. */
  function Remaining(lines: seq<Line>, i: nat): nat
  {
    if i <= |lines| then |lines| + 1 - i else 0
  }

  /** buildAst's loop from position `i` with the statements `nodes` built so
      far: the statements it builds and the index it returns. A block-opening
      command takes the statements the recursive call builds from the next
      line as its children and the loop resumes after the index that call
      returned; `end` returns its own index; running off the end returns the
      number of lines. */
  function BuildFrom(lines: seq<Line>, i: nat, isCond: bool, nodes: seq<AstNode>): (r: (seq<AstNode>, int))
    ensures r.1 <= |lines|
    ensures i <= |lines| ==> i - 1 <= r.1
    decreases Remaining(lines, i)
  {
    if i >= |lines| then (nodes, |lines|)
    else
      var line := lines[i];
      if IsBlockDec(line.command) then
        var (children, ret) := BuildFrom(lines, i + 1, IsCondBlock(line.command), []);
        BuildFrom(lines, ret + 1, isCond, nodes + [Block(line, children)])
      else if (isCond && line.command == "elif") || line.command == "else" then (nodes, i - 1)
      else if line.command == "end" then (nodes, i)
      else BuildFrom(lines, i + 1, isCond, nodes + [Stmt(line)])
  }

  /** buildAst(lines, index, isCond). */
  function Build(lines: seq<Line>, index: nat, isCond: bool): (seq<AstNode>, int)
  {
    BuildFrom(lines, index, isCond, [])
  }

  /** buildAst, with the loop index jumping to the index the recursive call
      returns. */
  method BuildAst(lines: seq<Line>, index: nat, isCond: bool) returns (nodes: seq<AstNode>, ret: int)
    ensures (nodes, ret) == Build(lines, index, isCond)
    decreases Remaining(lines, index)
  {
    nodes := [];
    var i := index;
    while i < |lines|
      invariant index <= i
      invariant BuildFrom(lines, i, isCond, nodes) == Build(lines, index, isCond)
      decreases Remaining(lines, i)
    {
      var line := lines[i];
      if IsBlockDec(line.command) {
        var children, r := BuildAst(lines, i + 1, IsCondBlock(line.command));
        i := r;
        nodes := nodes + [Block(line, children)];
      } else if (isCond && line.command == "elif") || line.command == "else" {
        return nodes, i - 1;
      } else if line.command == "end" {
        return nodes, i;
      } else {
        nodes := nodes + [Stmt(line)];
      }
      i := i + 1;
    }
    return nodes, |lines|;
  }

  // ---------------------------------------------------------------- properties

  /** The statements of a tree in preorder: every statement, then the
      preorder of its children. */
  function Preorder(ns: seq<AstNode>): seq<Line>
  {
    if ns == [] then [] else Flat(ns[0]) + Preorder(ns[1..])
  }

  function Flat(n: AstNode): seq<Line>
  {
    match n
    case Stmt(l) => [l]
    case Block(l, children) => [l] + Preorder(children)
  }

  /** The lines that are not `end`. */
  function NonEnd(ls: seq<Line>): seq<Line>
  {
    if ls == [] then [] else (if ls[0].command == "end" then [] else [ls[0]]) + NonEnd(ls[1..])
  }

  /** `lines[i..j]`, or nothing when `j` is before `i`. */
  function Between(lines: seq<Line>, i: nat, j: int): seq<Line>
    requires j <= |lines|
  {
    if i <= j then lines[i..j] else []
  }

  /** A statement carries children exactly when its command opens a block,
      and so do all its descendants. */
  predicate Nested(n: AstNode)
  {
    match n
    case Stmt(l) => !IsBlockDec(l.command)
    case Block(l, children) => IsBlockDec(l.command) && forall k :: 0 <= k < |children| ==> Nested(children[k])
  }

  /** The index buildAst returns is in `[i, lines.length]`, and when it is not
      the end of the input it is the index of an `end` line. The early return
      for `elif`/`else` never happens, since those commands open a block and
      are caught by the first test. */
  lemma {:induction false} BuildRange(lines: seq<Line>, i: nat, isCond: bool, nodes: seq<AstNode>)
    requires i <= |lines|
    ensures i <= BuildFrom(lines, i, isCond, nodes).1
    ensures var ret := BuildFrom(lines, i, isCond, nodes).1;
      ret < |lines| ==> lines[ret].command == "end"
    decreases Remaining(lines, i)
  {
    if i < |lines| {
      var line := lines[i];
      if IsBlockDec(line.command) {
        BuildRange(lines, i + 1, IsCondBlock(line.command), []);
        var ret := BuildFrom(lines, i + 1, IsCondBlock(line.command), []).1;
        if ret < |lines| {
          BuildRange(lines, ret + 1, isCond, nodes + [Block(line, BuildFrom(lines, i + 1, IsCondBlock(line.command), []).0)]);
        }
      } else if line.command != "end" {
        BuildRange(lines, i + 1, isCond, nodes + [Stmt(line)]);
      }
    }
  }

  predicate AllNested(ns: seq<AstNode>)
  {
    forall k :: 0 <= k < |ns| ==> Nested(ns[k])
  }

  /** Every statement buildAst adds has children exactly when its command
      opens a block. */
  lemma {:induction false} BuildNested(lines: seq<Line>, i: nat, isCond: bool, nodes: seq<AstNode>)
    requires AllNested(nodes)
    ensures AllNested(BuildFrom(lines, i, isCond, nodes).0)
    decreases Remaining(lines, i)
  {
    if i < |lines| {
      var line := lines[i];
      if IsBlockDec(line.command) {
        var inner := BuildFrom(lines, i + 1, IsCondBlock(line.command), []);
        var children, ret := inner.0, inner.1;
        BuildNested(lines, i + 1, IsCondBlock(line.command), []);
        var more := nodes + [Block(line, children)];
        assert AllNested(more) by {
          assert Nested(Block(line, children));
          assert forall k :: 0 <= k < |nodes| ==> more[k] == nodes[k];
        }
        BuildRange(lines, i + 1, IsCondBlock(line.command), []);
        BuildNested(lines, ret + 1, isCond, more);
      } else if line.command != "end" {
        var more := nodes + [Stmt(line)];
        assert forall k :: 0 <= k < |nodes| ==> more[k] == nodes[k];
        BuildNested(lines, i + 1, isCond, more);
      }
    }
  }

  /** The conditional-chain flag changes nothing: the only branch that reads
      it is never taken. */
  lemma {:induction false} CondIrrelevant(lines: seq<Line>, i: nat, nodes: seq<AstNode>)
    ensures BuildFrom(lines, i, true, nodes) == BuildFrom(lines, i, false, nodes)
    decreases Remaining(lines, i)
  {
    if i < |lines| {
      var line := lines[i];
      if IsBlockDec(line.command) {
        var (children, ret) := BuildFrom(lines, i + 1, IsCondBlock(line.command), []);
        BuildRange(lines, i + 1, IsCondBlock(line.command), []);
        CondIrrelevant(lines, ret + 1, nodes + [Block(line, children)]);
      } else if line.command != "end" {
        CondIrrelevant(lines, i + 1, nodes + [Stmt(line)]);
      }
    }
  }

  lemma {:induction false} NonEndAppend(a: seq<Line>, b: seq<Line>)
    ensures NonEnd(a + b) == NonEnd(a) + NonEnd(b)
    decreases |a|
  {
    if a == [] {
      assert a + b == b;
    } else {
      assert (a + b)[1..] == a[1..] + b;
      NonEndAppend(a[1..], b);
    }
  }

  lemma {:induction false} PreorderAppend(a: seq<AstNode>, b: seq<AstNode>)
    ensures Preorder(a + b) == Preorder(a) + Preorder(b)
    decreases |a|
  {
    if a == [] {
      assert a + b == b;
    } else {
      assert (a + b)[1..] == a[1..] + b;
      PreorderAppend(a[1..], b);
    }
  }

  /** Listing the statements buildAst builds in preorder gives back the
      lines it consumed, less the `end` lines: nothing is lost, duplicated or
      reordered. */
  lemma {:induction false} BuildPreorder(lines: seq<Line>, i: nat, isCond: bool, nodes: seq<AstNode>)
    requires i <= |lines| + 1
    ensures var (ns, ret) := BuildFrom(lines, i, isCond, nodes);
      Preorder(ns) == Preorder(nodes) + NonEnd(Between(lines, i, ret))
    decreases Remaining(lines, i)
  {
    if i >= |lines| {
      assert Preorder(nodes) + [] == Preorder(nodes);
    } else {
      var line := lines[i];
      if IsBlockDec(line.command) {
        BlockPreorder(lines, i, isCond, nodes);
      } else if line.command == "end" {
        assert Preorder(nodes) + [] == Preorder(nodes);
      } else {
        var more := nodes + [Stmt(line)];
        var (ns, ret) := BuildFrom(lines, i + 1, isCond, more);
        assert BuildFrom(lines, i, isCond, nodes) == (ns, ret);
        BuildRange(lines, i + 1, isCond, more);
        assert Preorder(ns) == Preorder(more) + NonEnd(Between(lines, i + 1, ret)) by {
          BuildPreorder(lines, i + 1, isCond, more);
        }
        assert Between(lines, i, ret) == [line] + Between(lines, i + 1, ret) by {
          assert lines[i..ret] == [line] + lines[i + 1..ret];
        }
        StmtPreorder(nodes, line, Between(lines, i + 1, ret));
      }
    }
  }

  /** The plain-statement case of BuildPreorder, on the sequences alone. */
  lemma {:induction false} StmtPreorder(nodes: seq<AstNode>, line: Line, rest: seq<Line>)
    requires line.command != "end"
    ensures Preorder(nodes + [Stmt(line)]) + NonEnd(rest) == Preorder(nodes) + NonEnd([line] + rest)
  {
    PreorderAppend(nodes, [Stmt(line)]);
    assert Preorder([Stmt(line)]) == [line];
    NonEndFirst(line, rest);
  }

  /** The block-opening case of BuildPreorder. */
  lemma {:induction false} BlockPreorder(lines: seq<Line>, i: nat, isCond: bool, nodes: seq<AstNode>)
    requires i < |lines| && IsBlockDec(lines[i].command)
    ensures var (ns, ret) := BuildFrom(lines, i, isCond, nodes);
      Preorder(ns) == Preorder(nodes) + NonEnd(Between(lines, i, ret))
    decreases Remaining(lines, i), 0
  {
    var line := lines[i];
    var (children, r) := BuildFrom(lines, i + 1, IsCondBlock(line.command), []);
    var more := nodes + [Block(line, children)];
    var (ns, ret) := BuildFrom(lines, r + 1, isCond, more);
    assert BuildFrom(lines, i, isCond, nodes) == (ns, ret);
    BuildRange(lines, i + 1, IsCondBlock(line.command), []);
    assert Preorder(children) == NonEnd(lines[i + 1..r]) by {
      BuildPreorder(lines, i + 1, IsCondBlock(line.command), []);
    }
    var tail := NonEnd(Between(lines, r + 1, ret));
    assert Preorder(ns) == Preorder(more) + tail by {
      BuildPreorder(lines, r + 1, isCond, more);
    }
    assert NonEnd(Between(lines, i, ret)) == [line] + Preorder(children) + tail by {
      if r < |lines| {
        BuildRange(lines, r + 1, isCond, more);
      }
      BlockSegment(lines, i, r, ret);
    }
    BlockJoin(nodes, line, children, tail);
  }

  /** The block case of BuildPreorder, on the sequences alone. */
  lemma {:induction false} BlockJoin(nodes: seq<AstNode>, line: Line, children: seq<AstNode>, tail: seq<Line>)
    ensures Preorder(nodes + [Block(line, children)]) + tail
         == Preorder(nodes) + ([line] + Preorder(children) + tail)
  {
    PreorderAppend(nodes, [Block(line, children)]);
    assert Preorder([Block(line, children)]) == [line] + Preorder(children);
    assert Preorder(nodes) + ([line] + Preorder(children)) + tail
        == Preorder(nodes) + ([line] + Preorder(children) + tail);
  }

  /** The lines a block consumes, less the `end` lines: its opening line, the
      lines of its body, then what follows its `end`. */
  lemma {:induction false} BlockSegment(lines: seq<Line>, i: nat, r: int, ret: int)
    requires i + 1 <= r <= |lines| && ret <= |lines| && lines[i].command != "end"
    requires r < |lines| ==> lines[r].command == "end" && r + 1 <= ret
    requires r == |lines| ==> ret == |lines|
    ensures NonEnd(Between(lines, i, ret)) == [lines[i]] + NonEnd(lines[i + 1..r]) + NonEnd(Between(lines, r + 1, ret))
  {
    var body := lines[i + 1..r];
    if r < |lines| {
      assert lines[i..ret] == [lines[i]] + body + [lines[r]] + lines[r + 1..ret];
      NonEndBlock(lines[i], body, lines[r], lines[r + 1..ret]);
    } else {
      assert lines[i..ret] == [lines[i]] + body;
      NonEndFirst(lines[i], body);
    }
  }

  /** An opening line, a body, its `end` line and what follows. */
  lemma {:induction false} NonEndBlock(open: Line, body: seq<Line>, end: Line, after: seq<Line>)
    requires open.command != "end" && end.command == "end"
    ensures NonEnd([open] + body + [end] + after) == [open] + NonEnd(body) + NonEnd(after)
  {
    NonEndAppend([open] + body + [end], after);
    NonEndAppend([open] + body, [end]);
    NonEndFirst(open, body);
    assert NonEnd([end]) == [] by {
      assert [end][1..] == [];
    }
    assert [open] + NonEnd(body) + [] == [open] + NonEnd(body);
  }

  lemma {:induction false} NonEndFirst(l: Line, rest: seq<Line>)
    requires l.command != "end"
    ensures NonEnd([l] + rest) == [l] + NonEnd(rest)
  {
    assert ([l] + rest)[1..] == rest;
  }

  /** A line that neither opens a block nor is `end`. */
  predicate Plain(l: Line)
  {
    !IsBlockDec(l.command) && l.command != "end"
  }

  /** Plain lines as statements, one for one. */
  function Stmts(ls: seq<Line>): (r: seq<AstNode>)
    ensures |r| == |ls|
    ensures forall k :: 0 <= k < |ls| ==> r[k] == Stmt(ls[k])
  {
    seq(|ls|, k requires 0 <= k < |ls| => Stmt(ls[k]))
  }

  /** An `end` with no block to close ends buildAst at the top level: the
      statements before it are all it returns, and the lines after it are
      never looked at, so they never run. */
  lemma {:induction false} StrayEndStops(pre: seq<Line>, end: Line, post: seq<Line>)
    requires forall k :: 0 <= k < |pre| ==> Plain(pre[k])
    requires end.command == "end"
    ensures Build(pre + [end] + post, 0, false) == (Stmts(pre), |pre|)
  {
    var lines := pre + [end] + post;
    PlainRun(lines, 0, |pre|, []);
    assert lines[0..|pre|] == pre;
    assert [] + Stmts(pre) == Stmts(pre);
  }

  lemma {:induction false} PlainRun(lines: seq<Line>, i: nat, j: nat, nodes: seq<AstNode>)
    requires i <= j < |lines| && lines[j].command == "end"
    requires forall k :: i <= k < j ==> Plain(lines[k])
    ensures BuildFrom(lines, i, false, nodes) == (nodes + Stmts(lines[i..j]), j)
    decreases j - i
  {
    if i == j {
      assert nodes + Stmts(lines[i..j]) == nodes;
    } else {
      assert Plain(lines[i]);
      PlainRun(lines, i + 1, j, nodes + [Stmt(lines[i])]);
      assert nodes + [Stmt(lines[i])] + Stmts(lines[i + 1..j]) == nodes + Stmts(lines[i..j]);
    }
  }
}

=== FILE: eval.dfy ===
/** parseArg: evaluating an expression tree against the variable map.

    Runtime values are restricted to a tagged union of JavaScript's `null`,
    `undefined`, integers, strings and arrays. Where JavaScript would coerce
    (arithmetic on `null`, `undefined` or arrays, a fractional quotient, the
    32-bit bitwise operators) the model reports `TypeFault(Unsupported)`. */
module Eval {
  import opened Base
  import opened Text
  import opened Syntax
  import opened ExprParser

  datatype Value =
    | Null
    | Undefined
    | Num(n: int)
    | Str(s: string)
    | Arr(elems: seq<Value>)

  /** The variable map (`state`); a name that was never stored reads as
      `undefined`. */
  type Vars = map<string, Value>

  function Lookup(vars: Vars, name: string): (v: Value)
    ensures name in vars ==> v == vars[name]
    ensures name !in vars ==> v == Undefined
  {
    if name in vars then vars[name] else Undefined
  }

  /** The six operators parseArg's inner switch knows. */
  predicate KnownOperator(op: string)
  {
    op in ["+", "-", "*", "/", "&", "|"]
  }

  /** The inner switch of parseArg once neither operand is a string. */
  function Arith(op: string, a: Value, b: Value, line: nat, argnum: nat): (r: Result<Value, Error>)
    ensures !KnownOperator(op) ==> r == Err(AtArgument(line, argnum, UnknownOperator(op)))
    ensures r.Ok? ==> a.Num? && b.Num? && r.value.Num? && op in ["+", "-", "*", "/"]
  {
    if !KnownOperator(op) then Err(AtArgument(line, argnum, UnknownOperator(op)))
    else if !(a.Num? && b.Num?) then Err(TypeFault(Unsupported))
    else if op == "+" then Ok(Num(a.n + b.n))
    else if op == "-" then Ok(Num(a.n - b.n))
    else if op == "*" then Ok(Num(a.n * b.n))
    else if op == "/" && b.n != 0 && a.n % b.n == 0 then Ok(Num(a.n / b.n))
    else Err(TypeFault(Unsupported))
  }

  /** parseArg. An operator node evaluates its first child, then its second,
      rejects string operands and applies the operator; an operator without
      children is the TypeError of reading `children!.first`. A string
      literal is its text, a number literal its decimal value, a variable
      its current value. A non-operator node ignores any children. */
  function Evaluate(n: Node, vars: Vars, line: nat, argnum: nat): (r: Result<Value, Error>)
    ensures r.Err? ==> r.error.TypeFault? || (r.error.AtArgument? && r.error.line == line && r.error.argnum == argnum)
    ensures r.Ok? && n.token.kind == Operator ==> r.value.Num?
    ensures r.Ok? && n.token.kind != Variable ==> r.value.Num? || r.value.Str?
    ensures n.token.kind == Operator && n.Leaf? ==> r == Err(TypeFault(MissingChildren))
    ensures n.token.kind == String ==> r == Ok(Str(n.token.value))
    ensures n.token.kind == Number ==>
      r == if IsNumeral(n.token) then Ok(Num(DigitsValue(n.token.value))) else Err(TypeFault(Unsupported))
    ensures n.token.kind == Variable ==> r == Ok(Lookup(vars, n.token.value))
  {
    if n.token.kind == Operator then
      if n.Leaf? then Err(TypeFault(MissingChildren))
      else
        match Evaluate(n.left, vars, line, argnum)
        case Err(e) => Err(e)
        case Ok(a) =>
          match Evaluate(n.right, vars, line, argnum)
          case Err(e) => Err(e)
          case Ok(b) =>
            if a.Str? || b.Str? then Err(AtArgument(line, argnum, ArithmeticOnStrings))
            else Arith(n.token.value, a, b, line, argnum)
    else if n.token.kind == String then Ok(Str(n.token.value))
    else if n.token.kind == Number then
      if n.token.value != [] && AllDigits(n.token.value) then Ok(Num(DigitsValue(n.token.value)))
      else Err(TypeFault(Unsupported))
    else
      assert n.token.kind == Variable;
      Ok(Lookup(vars, n.token.value))
  }

  // ---------------------------------------------------------------- properties

  /** The tokens the tokenizer can produce for a number literal. */
  predicate IsNumeral(t: Token)
  {
    t.kind == Number && t.value != [] && AllDigits(t.value)
  }

  /** Trees built only from `+`, `*` and number literals. */
  predicate SumsAndProducts(t: Node)
  {
    match t
    case Leaf(tok) => IsNumeral(tok)
    case Branch(tok, l, r) => (IsOp(tok, "+") || IsOp(tok, "*")) && SumsAndProducts(l) && SumsAndProducts(r)
  }

  /** A tree of sums and products of literals always has a number value. */
  lemma {:induction false} SumsAndProductsEvaluate(t: Node, vars: Vars, line: nat, argnum: nat)
    requires SumsAndProducts(t)
    ensures Evaluate(t, vars, line, argnum).Ok? && Evaluate(t, vars, line, argnum).value.Num?
    decreases t
  {
    match t
    case Leaf(_) =>
    case Branch(_, l, r) =>
      SumsAndProductsEvaluate(l, vars, line, argnum);
      SumsAndProductsEvaluate(r, vars, line, argnum);
  }

  /** Swapping the operands of every operator does not change the value of a
      tree of sums and products: mirroring is harmless for `+` and `*`. */
  lemma {:induction false} MirrorKeepsValue(t: Node, vars: Vars, line: nat, argnum: nat)
    requires SumsAndProducts(t)
    ensures SumsAndProducts(Mirror(t))
    ensures Evaluate(Mirror(t), vars, line, argnum) == Evaluate(t, vars, line, argnum)
    decreases t
  {
    match t
    case Leaf(_) =>
    case Branch(tok, l, r) =>
      MirrorKeepsValue(l, vars, line, argnum);
      MirrorKeepsValue(r, vars, line, argnum);
      SumsAndProductsEvaluate(l, vars, line, argnum);
      SumsAndProductsEvaluate(r, vars, line, argnum);
      var a := Evaluate(l, vars, line, argnum).value.n;
      var b := Evaluate(r, vars, line, argnum).value.n;
      EvaluateOperator(tok, l, r, a, b, vars, line, argnum);
      EvaluateOperator(tok, Mirror(r), Mirror(l), b, a, vars, line, argnum);
      SumAndProduct(a, b, line, argnum);
      SumAndProduct(b, a, line, argnum);
  }

  /** An operator node over two number values applies its operator. */
  lemma {:induction false} EvaluateOperator(tok: Token, l: Node, r: Node, a: int, b: int,
                                            vars: Vars, line: nat, argnum: nat)
    requires tok.kind == Operator
    requires Evaluate(l, vars, line, argnum) == Ok(Num(a))
    requires Evaluate(r, vars, line, argnum) == Ok(Num(b))
    ensures Evaluate(Branch(tok, l, r), vars, line, argnum) == Arith(tok.value, Num(a), Num(b), line, argnum)
  {
  }

  lemma {:induction false} SumAndProduct(a: int, b: int, line: nat, argnum: nat)
    ensures Arith("+", Num(a), Num(b), line, argnum) == Ok(Num(a + b))
    ensures Arith("*", Num(a), Num(b), line, argnum) == Ok(Num(a * b))
  {
    assert KnownOperator("+") && KnownOperator("*");
  }

  /** End to end through the parser: `x - y` evaluates to `y - x`, so `5-3`
      is -2. */
  lemma {:induction false} SubtractionReversed(x: Token, minus: Token, y: Token, vars: Vars, line: nat, argnum: nat)
    requires IsNumeral(x) && IsNumeral(y) && IsOp(minus, "-")
    ensures Parse([x, minus, y], line, argnum).Ok?
    ensures Evaluate(Parse([x, minus, y], line, argnum).value.0, vars, line, argnum)
      == Ok(Num(DigitsValue(y.value) - DigitsValue(x.value)))
  {
    TwoOperands(x, minus, y, line, argnum);
  }

  /** End to end through the parser: `x + y * z` evaluates to `(x + y) * z`,
      so `1+2*3` is 9: the stacked `+` is popped when `*` arrives. */
  lemma {:induction false} SumBeforeProduct(x: Token, plus: Token, y: Token, times: Token, z: Token,
                         vars: Vars, line: nat, argnum: nat)
    requires IsNumeral(x) && IsNumeral(y) && IsNumeral(z) && IsOp(plus, "+") && IsOp(times, "*")
    ensures Parse([x, plus, y, times, z], line, argnum).Ok?
    ensures Evaluate(Parse([x, plus, y, times, z], line, argnum).value.0, vars, line, argnum)
      == Ok(Num((DigitsValue(x.value) + DigitsValue(y.value)) * DigitsValue(z.value)))
  {
    assert Precedence(plus.value) > Precedence(times.value);
    ParseLooser(x, plus, y, times, z, line, argnum);
    SumThenProduct(x, plus, y, times, z, vars, line, argnum);
  }

  lemma {:induction false} SumThenProduct(x: Token, plus: Token, y: Token, times: Token, z: Token,
                         vars: Vars, line: nat, argnum: nat)
    requires IsNumeral(x) && IsNumeral(y) && IsNumeral(z) && IsOp(plus, "+") && IsOp(times, "*")
    ensures Evaluate(Branch(times, Leaf(z), Branch(plus, Leaf(y), Leaf(x))), vars, line, argnum)
      == Ok(Num((DigitsValue(x.value) + DigitsValue(y.value)) * DigitsValue(z.value)))
  {
    var a, b, c := DigitsValue(x.value), DigitsValue(y.value), DigitsValue(z.value);
    NumeralLeaf(x, vars, line, argnum);
    NumeralLeaf(y, vars, line, argnum);
    NumeralLeaf(z, vars, line, argnum);
    EvaluateOperator(plus, Leaf(y), Leaf(x), b, a, vars, line, argnum);
    SumAndProduct(b, a, line, argnum);
    EvaluateOperator(times, Leaf(z), Branch(plus, Leaf(y), Leaf(x)), c, b + a, vars, line, argnum);
    SumAndProduct(c, b + a, line, argnum);
    ProductTurned(c, b, a);
  }

  lemma {:induction false} NumeralLeaf(t: Token, vars: Vars, line: nat, argnum: nat)
    requires IsNumeral(t)
    ensures Evaluate(Leaf(t), vars, line, argnum) == Ok(Num(DigitsValue(t.value)))
  {
  }

  lemma {:induction false} ProductTurned(c: int, b: int, a: int)
    ensures c * (b + a) == (a + b) * c
    ensures (c + b) * a == a * (b + c)
  {
  }

  /** End to end through the parser: `x * y + z` evaluates to `x * (y + z)`,
      so `2*3+1` is 8: equal or tighter operators wait on the stack and the
      later one is applied first. */
  lemma {:induction false} ProductBeforeSum(x: Token, times: Token, y: Token, plus: Token, z: Token,
                         vars: Vars, line: nat, argnum: nat)
    requires IsNumeral(x) && IsNumeral(y) && IsNumeral(z) && IsOp(plus, "+") && IsOp(times, "*")
    ensures Parse([x, times, y, plus, z], line, argnum).Ok?
    ensures Evaluate(Parse([x, times, y, plus, z], line, argnum).value.0, vars, line, argnum)
      == Ok(Num(DigitsValue(x.value) * (DigitsValue(y.value) + DigitsValue(z.value))))
  {
    assert Precedence(times.value) <= Precedence(plus.value);
    ParseTighter(x, times, y, plus, z, line, argnum);
    ProductOfSum(x, times, y, plus, z, vars, line, argnum);
  }

  lemma {:induction false} ProductOfSum(x: Token, times: Token, y: Token, plus: Token, z: Token,
                         vars: Vars, line: nat, argnum: nat)
    requires IsNumeral(x) && IsNumeral(y) && IsNumeral(z) && IsOp(plus, "+") && IsOp(times, "*")
    ensures Evaluate(Branch(times, Branch(plus, Leaf(z), Leaf(y)), Leaf(x)), vars, line, argnum)
      == Ok(Num(DigitsValue(x.value) * (DigitsValue(y.value) + DigitsValue(z.value))))
  {
    var a, b, c := DigitsValue(x.value), DigitsValue(y.value), DigitsValue(z.value);
    NumeralLeaf(x, vars, line, argnum);
    NumeralLeaf(y, vars, line, argnum);
    NumeralLeaf(z, vars, line, argnum);
    EvaluateOperator(plus, Leaf(z), Leaf(y), c, b, vars, line, argnum);
    SumAndProduct(c, b, line, argnum);
    EvaluateOperator(times, Branch(plus, Leaf(z), Leaf(y)), Leaf(x), c + b, a, vars, line, argnum);
    SumAndProduct(c + b, a, line, argnum);
    ProductTurned(c, b, a);
  }

  /** A string operand anywhere under an operator is rejected, once both
      operands have evaluated. */
  lemma {:induction false} StringOperand(tok: Token, l: Node, s: Token, vars: Vars, line: nat, argnum: nat)
    requires tok.kind == Operator && s.kind == String
    requires Evaluate(l, vars, line, argnum).Ok?
    ensures Evaluate(Branch(tok, l, Leaf(s)), vars, line, argnum) == Err(AtArgument(line, argnum, ArithmeticOnStrings))
    ensures Evaluate(Branch(tok, Leaf(s), l), vars, line, argnum) == Err(AtArgument(line, argnum, ArithmeticOnStrings))
  {
  }
}

=== FILE: exprparser.dfy ===
/** parseTokens and parseNode: the shunting-yard pass that turns a token
    sequence into an output queue, and the recursive reader that turns the
    queue into an expression tree.

    The pass never appends to the queue: it puts every token at its FRONT
    (`unshift`), so the queue is the postfix form written backwards, and the
    reader takes it as prefix form. The tree therefore comes out with the two
    operands of every operator swapped. The operator test pops the stacked
    operators whose precedence number is strictly GREATER (looser) than the
    incoming one, so equal precedences are never popped. */
module ExprParser {
  import opened Base
  import opened Syntax

  /** getPrecedence: a smaller number binds tighter; unknown operators get 0. */
  function Precedence(op: string): (r: nat)
    ensures r == 0 <==> op !in ["*", "/", "+", "-", "&", "|", "^"]
    ensures r <= 5
  {
    if op == "*" || op == "/" then 1
    else if op == "+" || op == "-" then 2
    else if op == "&" then 3
    else if op == "|" then 4
    else if op == "^" then 5
    else 0
  }

  /** `*` and `/` bind tightest, then `+` and `-`, then `&`, `|` and `^`
      in that order. */
  lemma {:induction false} PrecedenceOrder()
    ensures Precedence("*") == Precedence("/") < Precedence("+") == Precedence("-")
    ensures Precedence("-") < Precedence("&") < Precedence("|") < Precedence("^")
  {
  }

  predicate IsOpen(t: Token) { IsOp(t, "(") }

  predicate IsClose(t: Token) { IsOp(t, ")") }

  function Top(s: seq<Token>): Token
    requires s != []
  {
    s[|s| - 1]
  }

  function Pop(s: seq<Token>): seq<Token>
    requires s != []
  {
    s[..|s| - 1]
  }

  // ---------------------------------------------------------------- the shunting-yard pass

  /** Move operators from the top of `ops` to the front of `queue` while the
      top is not `(` and is looser than `prec`. */
  function PopLooser(ops: seq<Token>, queue: seq<Token>, prec: nat): (seq<Token>, seq<Token>)
    decreases |ops|
  {
    if ops != [] && Top(ops).value != "(" && Precedence(Top(ops).value) > prec then
      PopLooser(Pop(ops), [Top(ops)] + queue, prec)
    else (ops, queue)
  }

  /** Move operators from the top of `ops` to the front of `queue` until the
      top is `(` or the stack is empty. */
  function PopToParen(ops: seq<Token>, queue: seq<Token>): (seq<Token>, seq<Token>)
    decreases |ops|
  {
    if ops != [] && Top(ops).value != "(" then PopToParen(Pop(ops), [Top(ops)] + queue)
    else (ops, queue)
  }

  /** One token of the pass. Operands go to the front of the queue; `+ - * /`
      first pop the looser operators; `(` is stacked; `)` pops down to its `(`
      and drops it, or fails when there is none; the other operator
      characters are ignored. */
  function Step(ops: seq<Token>, queue: seq<Token>, t: Token): Result<(seq<Token>, seq<Token>), ErrorKind>
  {
    if t.kind != Operator then Ok((ops, [t] + queue))
    else if IsArith(t) then
      var (o, q) := PopLooser(ops, queue, Precedence(t.value));
      Ok((o + [t], q))
    else if t.value == "(" then Ok((ops + [t], queue))
    else if t.value == ")" then
      var (o, q) := PopToParen(ops, queue);
      if o == [] || Top(o).value != "(" then Err(OpenParenExpected) else Ok((Pop(o), q))
    else Ok((ops, queue))
  }

  /** The operator stack and the output queue after the main loop. */
  function Shunt(ts: seq<Token>): Result<(seq<Token>, seq<Token>), ErrorKind>
    decreases |ts|
  {
    if ts == [] then Ok(([], []))
    else
      match Shunt(Pop(ts))
      case Err(e) => Err(e)
      case Ok((o, q)) => Step(o, q, Top(ts))
  }

  /** The closing loop: pop every remaining operator to the front of the
      queue, failing on a `(` that was never closed. */
  function Finish(ops: seq<Token>, queue: seq<Token>): Result<seq<Token>, ErrorKind>
    decreases |ops|
  {
    if ops == [] then Ok(queue)
    else if Top(ops).value == "(" then Err(CloseParenExpected)
    else Finish(Pop(ops), [Top(ops)] + queue)
  }

  function OutputQueue(ts: seq<Token>): Result<seq<Token>, ErrorKind>
  {
    match Shunt(ts)
    case Err(e) => Err(e)
    case Ok((o, q)) => Finish(o, q)
  }

  // ---------------------------------------------------------------- parseNode

  /** parseNode: read one tree in prefix order from `queue` at `index`; an
      operator takes the next two trees as its children. `None` is the
      TypeError of reading past the end of the queue. */
  function ParseNode(queue: seq<Token>, index: nat): (r: Option<(Node, nat)>)
    ensures r.Some? ==> index < r.value.1 <= |queue|
    decreases |queue| - index
  {
    if index >= |queue| then None
    else if queue[index].kind != Operator then Some((Leaf(queue[index]), index + 1))
    else
      match ParseNode(queue, index + 1)
      case None => None
      case Some((left, i)) =>
        match ParseNode(queue, i)
        case None => None
        case Some((right, j)) => Some((Branch(queue[index], left, right), j))
  }

  /** The tree parseNode reads is well formed and is exactly the queue
      entries it consumed, in prefix order. */
  lemma {:induction false} ParseNodeReads(queue: seq<Token>, index: nat)
    requires ParseNode(queue, index).Some?
    ensures var (t, j) := ParseNode(queue, index).value;
      WellFormed(t) && Prefix(t) == queue[index..j]
    decreases |queue| - index
  {
    if queue[index].kind == Operator {
      var left, i, right, j := ParseNodeOperator(queue, index);
      ParseNodeReads(queue, index + 1);
      ParseNodeReads(queue, i);
      PrefixJoin(queue, index, left, i, right, j);
    }
  }

  /** parseNode at an operator reads a left child, then a right child. */
  lemma {:induction false} ParseNodeOperator(queue: seq<Token>, index: nat)
    returns (left: Node, i: nat, right: Node, j: nat)
    requires ParseNode(queue, index).Some? && queue[index].kind == Operator
    ensures ParseNode(queue, index + 1) == Some((left, i)) && ParseNode(queue, i) == Some((right, j))
    ensures ParseNode(queue, index) == Some((Branch(queue[index], left, right), j))
  {
    left, i := ParseNode(queue, index + 1).value.0, ParseNode(queue, index + 1).value.1;
    right, j := ParseNode(queue, i).value.0, ParseNode(queue, i).value.1;
  }

  lemma {:induction false} PrefixJoin(queue: seq<Token>, index: nat, left: Node, i: nat, right: Node, j: nat)
    requires index < i <= j <= |queue| && queue[index].kind == Operator
    requires WellFormed(left) && Prefix(left) == queue[index + 1..i]
    requires WellFormed(right) && Prefix(right) == queue[i..j]
    ensures WellFormed(Branch(queue[index], left, right))
    ensures Prefix(Branch(queue[index], left, right)) == queue[index..j]
  {
    assert queue[index..j] == [queue[index]] + queue[index + 1..i] + queue[i..j];
  }

  /** What parseTokens returns: the tree read from the front of the queue
      and the number of queue entries it used. */
  function Parse(ts: seq<Token>, line: nat, argnum: nat): Result<(Node, nat), Error>
  {
    match OutputQueue(ts)
    case Err(e) => Err(AtArgument(line, argnum, e))
    case Ok(q) =>
      match ParseNode(q, 0)
      case None => Err(TypeFault(MissingToken))
      case Some(p) => Ok(p)
  }

  // ---------------------------------------------------------------- parseTokens

  /** parseTokens, with the operator stack and the output queue as local
      sequences (the top of the stack is the last element, the front of the
      queue the first). */
  method ParseTokens(tokens: seq<Token>, line: nat, argnum: nat) returns (r: Result<(Node, nat), Error>)
    ensures r == Parse(tokens, line, argnum)
  {
    var opStack: seq<Token> := [];
    var outputQueue: seq<Token> := [];
    var k := 0;
    while k < |tokens|
      invariant 0 <= k <= |tokens|
      invariant Shunt(tokens[..k]) == Ok((opStack, outputQueue))
    {
      var token := tokens[k];
      assert Pop(tokens[..k + 1]) == tokens[..k] && Top(tokens[..k + 1]) == token;
      if token.kind != Operator {
        outputQueue := [token] + outputQueue;
      } else if IsArith(token) {
        opStack, outputQueue := PopLooserLoop(opStack, outputQueue, Precedence(token.value));
        opStack := opStack + [token];
      } else if token.value == "(" {
        opStack := opStack + [token];
      } else if token.value == ")" {
        opStack, outputQueue := PopToParenLoop(opStack, outputQueue);
        if |opStack| == 0 || opStack[|opStack| - 1].value != "(" {
          ShuntErrorStays(tokens, k + 1);
          return Err(AtArgument(line, argnum, OpenParenExpected));
        }
        opStack := opStack[..|opStack| - 1];
      }
      k := k + 1;
    }
    assert tokens[..k] == tokens;
    ghost var ops0, queue0 := opStack, outputQueue;
    while |opStack| > 0
      invariant Finish(ops0, queue0) == Finish(opStack, outputQueue)
    {
      var token := opStack[|opStack| - 1];
      opStack := opStack[..|opStack| - 1];
      if token.value == "(" {
        return Err(AtArgument(line, argnum, CloseParenExpected));
      }
      outputQueue := [token] + outputQueue;
    }
    var node := ParseNode(outputQueue, 0);
    if node.None? {
      return Err(TypeFault(MissingToken));
    }
    r := Ok(node.value);
  }

  /** The inner loop of an arithmetic operator. */
  method PopLooserLoop(ops: seq<Token>, queue: seq<Token>, prec: nat) returns (o: seq<Token>, q: seq<Token>)
    ensures (o, q) == PopLooser(ops, queue, prec)
  {
    o, q := ops, queue;
    while |o| > 0 && o[|o| - 1].value != "(" && Precedence(o[|o| - 1].value) > prec
      invariant PopLooser(ops, queue, prec) == PopLooser(o, q, prec)
    {
      q := [o[|o| - 1]] + q;
      o := o[..|o| - 1];
    }
  }

  /** The inner loop of `)`. */
  method PopToParenLoop(ops: seq<Token>, queue: seq<Token>) returns (o: seq<Token>, q: seq<Token>)
    ensures (o, q) == PopToParen(ops, queue)
  {
    o, q := ops, queue;
    while |o| > 0 && o[|o| - 1].value != "("
      invariant PopToParen(ops, queue) == PopToParen(o, q)
    {
      q := [o[|o| - 1]] + q;
      o := o[..|o| - 1];
    }
  }

  /** Once the pass has failed on a prefix it fails on the whole sequence,
      with the same error. */
  lemma {:induction false} ShuntErrorStays(ts: seq<Token>, k: nat)
    requires k <= |ts| && Shunt(ts[..k]).Err?
    ensures Shunt(ts) == Shunt(ts[..k])
    decreases |ts| - k
  {
    if k < |ts| {
      assert Pop(ts[..k + 1]) == ts[..k];
      ShuntErrorStays(ts, k + 1);
    } else {
      assert ts[..k] == ts;
    }
  }

  // ---------------------------------------------------------------- what the queue holds

  function Opens(ts: seq<Token>): nat
  {
    if ts == [] then 0 else (if IsOpen(ts[0]) then 1 else 0) + Opens(ts[1..])
  }

  /** The variables, numbers and strings of `ts`, in order. */
  function Operands(ts: seq<Token>): seq<Token>
  {
    if ts == [] then [] else (if IsOperand(ts[0]) then [ts[0]] else []) + Operands(ts[1..])
  }

  /** The `+ - * /` operators of `ts`, in order. */
  function Ariths(ts: seq<Token>): seq<Token>
  {
    if ts == [] then [] else (if IsArith(ts[0]) then [ts[0]] else []) + Ariths(ts[1..])
  }

  function Reversed<T>(s: seq<T>): seq<T>
  {
    if s == [] then [] else Reversed(s[1..]) + [s[0]]
  }

  /** Unclosed `(` minus unmatched `)` so far. */
  function Depth(ts: seq<Token>): int
  {
    if ts == [] then 0
    else Depth(Pop(ts)) + (if IsOpen(Top(ts)) then 1 else if IsClose(Top(ts)) then -1 else 0)
  }

  /** No prefix of `ts` closes more parentheses than it opens. */
  predicate NeverNegative(ts: seq<Token>)
  {
    forall k :: 0 <= k <= |ts| ==> Depth(ts[..k]) >= 0
  }

  /** The operator stack only ever holds `(` and `+ - * /`. */
  predicate StackShape(o: seq<Token>)
  {
    forall k :: 0 <= k < |o| ==> IsOpen(o[k]) || IsArith(o[k])
  }

  /** The output queue only ever holds operands and `+ - * /`. */
  predicate QueueShape(q: seq<Token>)
  {
    forall k :: 0 <= k < |q| ==> IsOperand(q[k]) || IsArith(q[k])
  }

  /** What the pass keeps true after reading `ts`: the stack holds one `(`
      per unclosed parenthesis, the queue holds the operands read so far,
      last first, and every arithmetic operator read is on the stack or in
      the queue. */
  predicate ShuntInv(ts: seq<Token>, o: seq<Token>, q: seq<Token>)
  {
    && StackShape(o) && QueueShape(q)
    && Opens(o) == Depth(ts)
    && Operands(q) == Reversed(Operands(ts))
    && multiset(Ariths(o)) + multiset(Ariths(q)) == multiset(Ariths(ts))
  }

  lemma {:induction false} OpensAppend(a: seq<Token>, b: seq<Token>)
    ensures Opens(a + b) == Opens(a) + Opens(b)
    decreases |a|
  {
    if a != [] {
      assert (a + b)[1..] == a[1..] + b;
      OpensAppend(a[1..], b);
    } else {
      assert a + b == b;
    }
  }

  lemma {:induction false} OperandsAppend(a: seq<Token>, b: seq<Token>)
    ensures Operands(a + b) == Operands(a) + Operands(b)
    decreases |a|
  {
    if a != [] {
      assert (a + b)[1..] == a[1..] + b;
      OperandsAppend(a[1..], b);
    } else {
      assert a + b == b;
    }
  }

  lemma {:induction false} ArithsAppend(a: seq<Token>, b: seq<Token>)
    ensures Ariths(a + b) == Ariths(a) + Ariths(b)
    decreases |a|
  {
    if a != [] {
      assert (a + b)[1..] == a[1..] + b;
      ArithsAppend(a[1..], b);
    } else {
      assert a + b == b;
    }
  }

  lemma {:induction false} ReversedSnoc<T>(s: seq<T>, x: T)
    ensures Reversed(s + [x]) == [x] + Reversed(s)
    decreases |s|
  {
    if s != [] {
      assert (s + [x])[1..] == s[1..] + [x];
      ReversedSnoc(s[1..], x);
    } else {
      assert s + [x] == [x];
    }
  }

  /** Operators only: no operand and no `(`. */
  lemma {:induction false} OperatorsOnly(m: seq<Token>)
    requires forall k :: 0 <= k < |m| ==> IsArith(m[k])
    ensures Operands(m) == [] && Opens(m) == 0 && Ariths(m) == m
    decreases |m|
  {
    if m != [] {
      OperatorsOnly(m[1..]);
      assert m == [m[0]] + m[1..];
    }
  }

  /** PopLooser moves the top `o[j..]` of the stack, none of it `(`, to the
      front of the queue and keeps `o[..j]`. */
  lemma {:induction false} PopLooserCut(o: seq<Token>, q: seq<Token>, prec: nat) returns (j: nat)
    ensures j <= |o| && PopLooser(o, q, prec) == (o[..j], o[j..] + q)
    ensures forall k :: 0 <= k < |o[j..]| ==> o[j..][k].value != "("
    decreases |o|
  {
    if o != [] && Top(o).value != "(" && Precedence(Top(o).value) > prec {
      j := PopLooserCut(Pop(o), [Top(o)] + q, prec);
      CutStep(o, q, j);
      assert PopLooser(o, q, prec) == PopLooser(Pop(o), [Top(o)] + q, prec);
    } else {
      j := |o|;
      assert o[..j] == o && o[j..] + q == q;
    }
  }

  /** PopToParen moves the top `o[j..]` of the stack, none of it `(`, to the
      front of the queue and keeps `o[..j]`, which is empty or has `(` on top. */
  lemma {:induction false} PopToParenCut(o: seq<Token>, q: seq<Token>) returns (j: nat)
    ensures j <= |o| && PopToParen(o, q) == (o[..j], o[j..] + q)
    ensures forall k :: 0 <= k < |o[j..]| ==> o[j..][k].value != "("
    ensures j == 0 || Top(o[..j]).value == "("
    decreases |o|
  {
    if o != [] && Top(o).value != "(" {
      j := PopToParenCut(Pop(o), [Top(o)] + q);
      CutStep(o, q, j);
      assert PopToParen(o, q) == PopToParen(Pop(o), [Top(o)] + q);
      assert j == 0 || Top(o[..j]) == Top(Pop(o)[..j]);
    } else {
      j := |o|;
      assert o[..j] == o && o[j..] + q == q;
    }
  }

  /** One pop of the two loops: cutting the popped stack at `j` is cutting
      the whole stack at `j`, with the old top joining what moves. */
  lemma {:induction false} CutStep(o: seq<Token>, q: seq<Token>, j: nat)
    requires o != [] && Top(o).value != "(" && j <= |Pop(o)|
    requires forall k :: 0 <= k < |Pop(o)[j..]| ==> Pop(o)[j..][k].value != "("
    ensures Pop(o)[..j] == o[..j] && Pop(o)[j..] + ([Top(o)] + q) == o[j..] + q
    ensures forall k :: 0 <= k < |o[j..]| ==> o[j..][k].value != "("
  {
    assert o[j..] == Pop(o)[j..] + [Top(o)];
    forall k | 0 <= k < |o[j..]| ensures o[j..][k].value != "(" {
      if k < |Pop(o)[j..]| {
        assert o[j..][k] == Pop(o)[j..][k];
      }
    }
  }

  /** Moving the top `m` of a well-shaped stack, none of it `(`, to the front
      of the queue keeps the shapes, the open count, the operands and the
      operators. */
  lemma {:induction false} ShiftFacts(o: seq<Token>, m: seq<Token>, q: seq<Token>)
    requires StackShape(o + m) && QueueShape(q)
    requires forall k :: 0 <= k < |m| ==> m[k].value != "("
    ensures StackShape(o) && QueueShape(m + q)
    ensures Opens(o + m) == Opens(o)
    ensures Operands(m + q) == Operands(q)
    ensures multiset(Ariths(o + m)) + multiset(Ariths(q)) == multiset(Ariths(o)) + multiset(Ariths(m + q))
  {
    forall k | 0 <= k < |o| ensures IsOpen(o[k]) || IsArith(o[k]) {
      assert o[k] == (o + m)[k];
    }
    forall k | 0 <= k < |m| ensures IsArith(m[k]) {
      assert m[k] == (o + m)[|o| + k];
    }
    forall k | 0 <= k < |m + q| ensures IsOperand((m + q)[k]) || IsArith((m + q)[k]) {
      if k >= |m| { assert (m + q)[k] == q[k - |m|]; }
    }
    OperatorsOnly(m);
    OpensAppend(o, m);
    OperandsAppend(m, q);
    ArithsAppend(o, m);
    ArithsAppend(m, q);
  }

  lemma {:induction false} PopTop(s: seq<Token>)
    requires s != []
    ensures s == Pop(s) + [Top(s)]
  {
  }

  /** `(`, `)` and the arithmetic operators are different tokens. */
  lemma {:induction false} Distinct(t: Token)
    ensures IsArith(t) ==> !IsOpen(t) && !IsClose(t)
    ensures IsOpen(t) ==> !IsClose(t)
  {
    if IsArith(t) {
      assert t.value[0] in "+-*/";
    }
  }

  lemma {:induction false} Single(t: Token)
    ensures Opens([t]) == if IsOpen(t) then 1 else 0
    ensures Operands([t]) == if IsOperand(t) then [t] else []
    ensures Ariths([t]) == if IsArith(t) then [t] else []
  {
    assert [t][1..] == [];
  }

  lemma {:induction false} DepthSnoc(ts: seq<Token>, t: Token)
    ensures Depth(ts + [t]) == Depth(ts) + (if IsOpen(t) then 1 else if IsClose(t) then -1 else 0)
  {
    assert Pop(ts + [t]) == ts;
  }

  lemma {:induction false} NeverNegativeSnoc(ts: seq<Token>, t: Token)
    ensures NeverNegative(ts + [t]) <==> NeverNegative(ts) && Depth(ts + [t]) >= 0
  {
    var u := ts + [t];
    assert u[..|u|] == u;
    forall k | 0 <= k <= |ts| ensures u[..k] == ts[..k] { }
  }

  lemma {:induction false} ShuntSnoc(ts: seq<Token>, t: Token)
    ensures Shunt(ts + [t]) == match Shunt(ts) case Err(e) => Err(e) case Ok((o, q)) => Step(o, q, t)
  {
    assert Pop(ts + [t]) == ts && Top(ts + [t]) == t;
  }

  /** Step, case by case. */
  lemma {:induction false} StepCases(o: seq<Token>, q: seq<Token>, t: Token)
    ensures t.kind != Operator ==> Step(o, q, t) == Ok((o, [t] + q))
    ensures IsArith(t) ==> var (o1, q1) := PopLooser(o, q, Precedence(t.value)); Step(o, q, t) == Ok((o1 + [t], q1))
    ensures IsOpen(t) ==> Step(o, q, t) == Ok((o + [t], q))
    ensures IsClose(t) ==> var (o1, q1) := PopToParen(o, q);
      Step(o, q, t) == if o1 == [] || Top(o1).value != "(" then Err(OpenParenExpected) else Ok((Pop(o1), q1))
    ensures t.kind == Operator && !IsArith(t) && !IsOpen(t) && !IsClose(t) ==> Step(o, q, t) == Ok((o, q))
  {
  }

  lemma {:induction false} StepOperand(ts: seq<Token>, o: seq<Token>, q: seq<Token>, t: Token)
    requires ShuntInv(ts, o, q) && IsOperand(t)
    ensures ShuntInv(ts + [t], o, [t] + q) && Depth(ts + [t]) == Depth(ts)
  {
    DepthSnoc(ts, t);
    Single(t);
    var q' := [t] + q;
    assert QueueShape(q') by {
      forall k | 0 <= k < |q'| ensures IsOperand(q'[k]) || IsArith(q'[k]) {
        if k > 0 { assert q'[k] == q[k - 1]; }
      }
    }
    assert Operands(q') == Reversed(Operands(ts + [t])) by {
      OperandsAppend(ts, [t]);
      OperandsAppend([t], q);
      ReversedSnoc(Operands(ts), t);
    }
    assert Ariths(ts + [t]) == Ariths(ts) && Ariths(q') == Ariths(q) by {
      ArithsAppend(ts, [t]);
      ArithsAppend([t], q);
      assert Ariths(ts) + [] == Ariths(ts);
      assert [] + Ariths(q) == Ariths(q);
    }
  }

  /** A `+ - * /` pops the stack down to the cut `j` that PopLooser makes and
      is then pushed. */
  lemma {:induction false} StepArith(ts: seq<Token>, o: seq<Token>, q: seq<Token>, t: Token) returns (j: nat)
    requires ShuntInv(ts, o, q) && IsArith(t)
    ensures j <= |o| && PopLooser(o, q, Precedence(t.value)) == (o[..j], o[j..] + q)
    ensures ShuntInv(ts + [t], o[..j] + [t], o[j..] + q) && Depth(ts + [t]) == Depth(ts)
  {
    j := PopLooserCut(o, q, Precedence(t.value));
    PushArithAt(ts, o, j, q, t);
  }

  /** PushArith with the stack cut at `j`. */
  lemma {:induction false} PushArithAt(ts: seq<Token>, o: seq<Token>, j: nat, q: seq<Token>, t: Token)
    requires ShuntInv(ts, o, q) && IsArith(t)
    requires j <= |o| && forall k :: 0 <= k < |o[j..]| ==> o[j..][k].value != "("
    ensures ShuntInv(ts + [t], o[..j] + [t], o[j..] + q) && Depth(ts + [t]) == Depth(ts)
  {
    assert o == o[..j] + o[j..];
    PushArith(ts, o, o[..j], o[j..], q, t);
  }

  /** An arithmetic operator pushed after `m` moved from the stack to the
      queue. */
  lemma {:induction false} PushArith(ts: seq<Token>, o: seq<Token>, o1: seq<Token>, m: seq<Token>, q: seq<Token>, t: Token)
    requires ShuntInv(ts, o, q) && IsArith(t) && o == o1 + m
    requires forall k :: 0 <= k < |m| ==> m[k].value != "("
    ensures ShuntInv(ts + [t], o1 + [t], m + q) && Depth(ts + [t]) == Depth(ts)
  {
    var q1 := m + q;
    assert StackShape(o1 + m);
    ShiftFacts(o1, m, q);
    ArithCounts(ts, o1, t);
    PushShape(o1, t);
    MultisetMove(Ariths(o1), Ariths(q1), Ariths(o), Ariths(q), Ariths(ts), t);
  }

  /** Pushing `(` or a `+ - * /` keeps the stack well shaped. */
  lemma {:induction false} PushShape(o: seq<Token>, t: Token)
    requires StackShape(o) && (IsOpen(t) || IsArith(t))
    ensures StackShape(o + [t])
  {
    var o' := o + [t];
    forall k | 0 <= k < |o'| ensures IsOpen(o'[k]) || IsArith(o'[k]) {
      if k < |o| { assert o'[k] == o[k]; }
    }
  }

  /** What pushing a `+ - * /` onto the stack changes in the counts
      ShuntInv speaks of. */
  lemma {:induction false} ArithCounts(ts: seq<Token>, o: seq<Token>, t: Token)
    requires IsArith(t)
    ensures Depth(ts + [t]) == Depth(ts) && Opens(o + [t]) == Opens(o)
    ensures Operands(ts + [t]) == Operands(ts)
    ensures Ariths(o + [t]) == Ariths(o) + [t] && Ariths(ts + [t]) == Ariths(ts) + [t]
  {
    Distinct(t);
    Single(t);
    DepthSnoc(ts, t);
    OpensAppend(o, [t]);
    OperandsAppend(ts, [t]);
    assert Operands(ts) + [] == Operands(ts);
    ArithsAppend(o, [t]);
    ArithsAppend(ts, [t]);
  }

  /** The multiset bookkeeping of PushArith: the operators moved from the
      stack to the queue, then one more operator read and pushed. */
  lemma {:induction false} MultisetMove(stack: seq<Token>, queue: seq<Token>, before: seq<Token>, q: seq<Token>,
                                        read: seq<Token>, t: Token)
    requires multiset(before) + multiset(q) == multiset(stack) + multiset(queue)
    requires multiset(before) + multiset(q) == multiset(read)
    ensures multiset(stack + [t]) + multiset(queue) == multiset(read + [t])
  {
  }

  lemma {:induction false} StepOpen(ts: seq<Token>, o: seq<Token>, q: seq<Token>, t: Token)
    requires ShuntInv(ts, o, q) && IsOpen(t)
    ensures ShuntInv(ts + [t], o + [t], q) && Depth(ts + [t]) == Depth(ts) + 1
  {
    PushShape(o, t);
    OpenCounts(ts, o, t);
  }

  /** What reading a `(` onto the stack changes in the counts ShuntInv
      speaks of. */
  lemma {:induction false} OpenCounts(ts: seq<Token>, o: seq<Token>, t: Token)
    requires IsOpen(t)
    ensures Depth(ts + [t]) == Depth(ts) + 1 && Opens(o + [t]) == Opens(o) + 1
    ensures Operands(ts + [t]) == Operands(ts)
    ensures Ariths(o + [t]) == Ariths(o) && Ariths(ts + [t]) == Ariths(ts)
  {
    Single(t);
    DepthSnoc(ts, t);
    OpensAppend(o, [t]);
    OperandsAppend(ts, [t]);
    assert Operands(ts) + [] == Operands(ts);
    ArithsAppend(o, [t]);
    ArithsAppend(ts, [t]);
    assert Ariths(o) + [] == Ariths(o);
    assert Ariths(ts) + [] == Ariths(ts);
  }

  /** `)` pops the stack down to the cut `j` that PopToParen makes, and then
      drops the `(` left on top, which is there exactly when the tokens
      read so far leave a parenthesis open. */
  lemma {:induction false} StepClose(ts: seq<Token>, o: seq<Token>, q: seq<Token>, t: Token) returns (j: nat)
    requires ShuntInv(ts, o, q) && Depth(ts) >= 0 && IsClose(t)
    ensures j <= |o| && PopToParen(o, q) == (o[..j], o[j..] + q)
    ensures Depth(ts + [t]) == Depth(ts) - 1
    ensures j == 0 <==> Depth(ts) == 0
    ensures j != 0 ==> Top(o[..j]).value == "(" && ShuntInv(ts + [t], Pop(o[..j]), o[j..] + q)
  {
    j := PopToParenCut(o, q);
    CloseParen(ts, o, j, q, t);
  }

  /** `)` after the top `o[j..]` of the stack, none of it `(`, moved to the
      queue, leaving `o[..j]`, empty or with `(` on top. */
  lemma {:induction false} CloseParen(ts: seq<Token>, o: seq<Token>, j: nat, q: seq<Token>, t: Token)
    requires ShuntInv(ts, o, q) && Depth(ts) >= 0 && IsClose(t)
    requires j <= |o| && forall k :: 0 <= k < |o[j..]| ==> o[j..][k].value != "("
    requires j == 0 || Top(o[..j]).value == "("
    ensures Depth(ts + [t]) == Depth(ts) - 1
    ensures j == 0 <==> Depth(ts) == 0
    ensures j != 0 ==> Top(o[..j]).value == "(" && ShuntInv(ts + [t], Pop(o[..j]), o[j..] + q)
  {
    var o1, m := o[..j], o[j..];
    assert o == o1 + m;
    ShiftFacts(o1, m, q);
    assert ShuntInv(ts, o1, m + q);
    Distinct(t);
    DepthSnoc(ts, t);
    if o1 != [] {
      PopTop(o1);
      OpensAppend(Pop(o1), [Top(o1)]);
      Single(Top(o1));
      ClosePop(ts, o1, m + q, t);
    }
  }

  /** `)` dropping the `(` on top of the stack. */
  lemma {:induction false} ClosePop(ts: seq<Token>, o: seq<Token>, q: seq<Token>, t: Token)
    requires ShuntInv(ts, o, q) && IsClose(t)
    requires StackShape(o) && o != [] && Top(o).value == "("
    ensures ShuntInv(ts + [t], Pop(o), q)
  {
    Distinct(t);
    DepthSnoc(ts, t);
    NeutralCounts(ts, t);
    PopOpen(o);
  }

  /** Reading an operator that is neither `(` nor `+ - * /` leaves the
      operands and the arithmetic operators read so far as they were. */
  lemma {:induction false} NeutralCounts(ts: seq<Token>, t: Token)
    requires t.kind == Operator && !IsArith(t)
    ensures Operands(ts + [t]) == Operands(ts) && Ariths(ts + [t]) == Ariths(ts)
  {
    Single(t);
    OperandsAppend(ts, [t]);
    assert Operands(ts) + [] == Operands(ts);
    ArithsAppend(ts, [t]);
    assert Ariths(ts) + [] == Ariths(ts);
  }

  /** Dropping a `(` from the top of a stack of the right shape. */
  lemma {:induction false} PopOpen(o: seq<Token>)
    requires StackShape(o) && o != [] && Top(o).value == "("
    ensures StackShape(Pop(o)) && Opens(Pop(o)) + 1 == Opens(o) && Ariths(Pop(o)) == Ariths(o)
  {
    var p := Pop(o);
    assert IsOpen(o[|o| - 1]);
    Distinct(Top(o));
    PopTop(o);
    Single(Top(o));
    OpensAppend(p, [Top(o)]);
    ArithsAppend(p, [Top(o)]);
    assert Ariths(p) + [] == Ariths(p);
    forall k | 0 <= k < |p| ensures IsOpen(p[k]) || IsArith(p[k]) {
      assert p[k] == o[k];
    }
  }

  lemma {:induction false} StepOther(ts: seq<Token>, o: seq<Token>, q: seq<Token>, t: Token)
    requires ShuntInv(ts, o, q) && t.kind == Operator && !IsArith(t) && !IsOpen(t) && !IsClose(t)
    ensures ShuntInv(ts + [t], o, q) && Depth(ts + [t]) == Depth(ts)
  {
    DepthSnoc(ts, t);
    NeutralCounts(ts, t);
  }

  /** The main loop fails, always with "( expected", exactly when some
      prefix of the tokens closes a parenthesis it never opened; otherwise
      it leaves the stack and the queue related to the tokens by ShuntInv. */
  lemma {:induction false} ShuntFacts(ts: seq<Token>)
    ensures Shunt(ts).Err? <==> !NeverNegative(ts)
    ensures Shunt(ts).Err? ==> Shunt(ts).error == OpenParenExpected
    ensures Shunt(ts).Ok? ==> ShuntInv(ts, Shunt(ts).value.0, Shunt(ts).value.1)
    decreases |ts|
  {
    if ts == [] {
      assert ts[..0] == [];
    } else {
      var p, t := Pop(ts), Top(ts);
      assert ts == p + [t];
      ShuntFacts(p);
      ShuntSnoc(p, t);
      NeverNegativeSnoc(p, t);
      if Shunt(p).Ok? {
        var (o, q) := Shunt(p).value;
        assert Depth(p) >= 0 by { assert p[..|p|] == p; }
        StepCases(o, q, t);
        if IsOperand(t) {
          StepOperand(p, o, q, t);
        } else if IsArith(t) {
          var j := StepArith(p, o, q, t);
        } else if IsOpen(t) {
          StepOpen(p, o, q, t);
        } else if IsClose(t) {
          var j := StepClose(p, o, q, t);
        } else {
          StepOther(p, o, q, t);
        }
      }
    }
  }

  lemma {:induction false} OpenCounted(o: seq<Token>, k: nat)
    requires k < |o| && IsOpen(o[k])
    ensures Opens(o) > 0
  {
    OpensAppend(o[..k], o[k..]);
    assert o == o[..k] + o[k..];
    assert o[k..][0] == o[k];
  }

  /** The closing loop fails exactly when a `(` is left on the stack, and
      otherwise puts the whole stack, bottom first, in front of the queue. */
  lemma {:induction false} FinishFacts(o: seq<Token>, q: seq<Token>)
    requires StackShape(o)
    ensures Finish(o, q) == if Opens(o) > 0 then Err(CloseParenExpected) else Ok(o + q)
    decreases |o|
  {
    if o == [] {
      assert o + q == q;
    } else if Top(o).value == "(" {
      FinishOpen(o, q);
    } else {
      PopShape(o);
      FinishFacts(Pop(o), [Top(o)] + q);
      FinishStep(o, q);
    }
  }

  lemma {:induction false} FinishOpen(o: seq<Token>, q: seq<Token>)
    requires StackShape(o) && o != [] && Top(o).value == "("
    ensures Finish(o, q) == Err(CloseParenExpected) && Opens(o) > 0
  {
    assert IsOpen(o[|o| - 1]) by { Distinct(o[|o| - 1]); }
    OpenCounted(o, |o| - 1);
  }

  lemma {:induction false} FinishStep(o: seq<Token>, q: seq<Token>)
    requires o != [] && Top(o).value != "("
    ensures Finish(o, q) == Finish(Pop(o), [Top(o)] + q)
    ensures Pop(o) + ([Top(o)] + q) == o + q
  {
    PopTop(o);
  }

  /** Popping something other than `(` keeps the shape and the open count. */
  lemma {:induction false} PopShape(o: seq<Token>)
    requires StackShape(o) && o != [] && Top(o).value != "("
    ensures StackShape(Pop(o)) && Opens(Pop(o)) == Opens(o)
  {
    var p := Pop(o);
    PopTop(o);
    Single(Top(o));
    OpensAppend(p, [Top(o)]);
    forall k | 0 <= k < |p| ensures IsOpen(p[k]) || IsArith(p[k]) {
      assert p[k] == o[k];
    }
  }

  /** parseTokens reports "( expected" exactly when some prefix closes a
      parenthesis it never opened, ") expected" exactly when there is no such
      prefix but a parenthesis stays open, and produces a queue exactly when
      the parentheses balance. */
  lemma {:induction false} QueueErrors(ts: seq<Token>)
    ensures OutputQueue(ts) == Err(OpenParenExpected) <==> !NeverNegative(ts)
    ensures OutputQueue(ts) == Err(CloseParenExpected) <==> NeverNegative(ts) && Depth(ts) > 0
    ensures OutputQueue(ts).Ok? <==> NeverNegative(ts) && Depth(ts) == 0
  {
    ShuntFacts(ts);
    if Shunt(ts).Ok? {
      var (o, q) := Shunt(ts).value;
      FinishFacts(o, q);
      assert Depth(ts) >= 0 by { assert ts[..|ts|] == ts; }
    }
  }

  /** The queue holds only operands and `+ - * /`; its operands are those of
      the tokens in reverse order, and its operators are exactly the
      arithmetic operators of the tokens (`&`, `|` and `^` are dropped). */
  lemma {:induction false} QueueContents(ts: seq<Token>)
    requires OutputQueue(ts).Ok?
    ensures QueueShape(OutputQueue(ts).value)
    ensures Operands(OutputQueue(ts).value) == Reversed(Operands(ts))
    ensures multiset(Ariths(OutputQueue(ts).value)) == multiset(Ariths(ts))
  {
    ShuntFacts(ts);
    var (o, q) := Shunt(ts).value;
    FinishFacts(o, q);
    QueueErrors(ts);
    forall k | 0 <= k < |o| ensures IsArith(o[k]) {
      if !IsArith(o[k]) {
        OpenCounted(o, k);
      }
    }
    OperatorsOnly(o);
    OperandsAppend(o, q);
    ArithsAppend(o, q);
    forall k | 0 <= k < |o + q| ensures IsOperand((o + q)[k]) || IsArith((o + q)[k]) {
      if k >= |o| { assert (o + q)[k] == q[k - |o|]; }
    }
  }

  // ---------------------------------------------------------------- reading trees back

  /** parseNode reads back any well-formed tree from its prefix form, at any
      position and whatever follows it: surplus queue entries are ignored. */
  lemma {:induction false} ParseNodePrefix(pre: seq<Token>, t: Node, rest: seq<Token>)
    requires WellFormed(t)
    ensures ParseNode(pre + Prefix(t) + rest, |pre|) == Some((t, |pre| + NodeCount(t)))
  {
    var s := pre + Prefix(t) + rest;
    assert s[|pre|..|pre| + NodeCount(t)] == Prefix(t);
    ParseNodeAt(s, |pre|, t);
  }

  lemma {:induction false} ParseNodeAt(queue: seq<Token>, i: nat, t: Node)
    requires WellFormed(t)
    requires i + NodeCount(t) <= |queue| && queue[i..i + NodeCount(t)] == Prefix(t)
    ensures ParseNode(queue, i) == Some((t, i + NodeCount(t)))
  {
    ParseNodeSpan(queue, i, i + NodeCount(t), t);
  }

  /** The same, with the end of the tree's prefix form as a parameter. */
  lemma {:induction false} ParseNodeSpan(queue: seq<Token>, i: nat, e: nat, t: Node)
    requires WellFormed(t)
    requires e == i + NodeCount(t) && e <= |queue| && queue[i..e] == Prefix(t)
    ensures ParseNode(queue, i) == Some((t, e))
    decreases t, 1
  {
    match t
    case Leaf(tok) =>
      assert queue[i] == Prefix(t)[0];
      ParseNodeLeaf(queue, i);
    case Branch(tok, l, r) =>
      ParseBranchAt(queue, i, e, tok, l, r);
  }

  lemma {:induction false} ParseBranchAt(queue: seq<Token>, i: nat, e: nat, tok: Token, l: Node, r: Node)
    requires WellFormed(Branch(tok, l, r))
    requires e == i + NodeCount(Branch(tok, l, r)) && e <= |queue|
    requires queue[i..e] == Prefix(Branch(tok, l, r))
    ensures ParseNode(queue, i) == Some((Branch(tok, l, r), e))
    decreases Branch(tok, l, r), 0
  {
    var j := BranchSlices(queue, i, e, tok, l, r);
    ParseNodeSpan(queue, i + 1, j, l);
    ParseNodeSpan(queue, j, e, r);
    ParseNodeBranch(queue, i, l, j, r, e);
  }

  /** Where a branch's prefix form sits in a queue, its operator and the
      prefix forms of its two children sit side by side. */
  lemma {:induction false} BranchSlices(queue: seq<Token>, i: nat, e: nat, tok: Token, l: Node, r: Node)
    returns (j: nat)
    requires e == i + NodeCount(Branch(tok, l, r)) && e <= |queue|
    requires queue[i..e] == Prefix(Branch(tok, l, r))
    ensures j == i + 1 + NodeCount(l) && e == j + NodeCount(r)
    ensures i < |queue| && queue[i] == tok
    ensures queue[i + 1..j] == Prefix(l) && queue[j..e] == Prefix(r)
    ensures WellFormed(Branch(tok, l, r)) ==> tok.kind == Operator && WellFormed(l) && WellFormed(r)
  {
    j := i + 1 + NodeCount(l);
    SliceParts(queue, i, [tok], Prefix(l), Prefix(r));
    assert queue[i] == queue[i..i + 1][0];
  }

  lemma {:induction false} SliceParts<T>(q: seq<T>, i: nat, a: seq<T>, b: seq<T>, c: seq<T>)
    requires i + |a| + |b| + |c| <= |q| && q[i..i + |a| + |b| + |c|] == a + b + c
    ensures q[i..i + |a|] == a
    ensures q[i + |a|..i + |a| + |b|] == b
    ensures q[i + |a| + |b|..i + |a| + |b| + |c|] == c
  {
    var w := a + b + c;
    forall m | 0 <= m < |a| ensures q[i + m] == a[m] { assert q[i + m] == w[m]; }
    forall m | 0 <= m < |b| ensures q[i + |a| + m] == b[m] { assert q[i + |a| + m] == w[|a| + m]; }
    forall m | 0 <= m < |c| ensures q[i + |a| + |b| + m] == c[m] {
      assert q[i + |a| + |b| + m] == w[|a| + |b| + m];
    }
  }

  lemma {:induction false} ParseNodeLeaf(s: seq<Token>, i: nat)
    requires i < |s| && s[i].kind != Operator
    ensures ParseNode(s, i) == Some((Leaf(s[i]), i + 1))
  {
  }

  /** parseNode at an operator, given what it reads for the two children. */
  lemma {:induction false} ParseNodeBranch(s: seq<Token>, i: nat, l: Node, j: nat, r: Node, k: nat)
    requires i < |s| && s[i].kind == Operator
    requires ParseNode(s, i + 1) == Some((l, j)) && ParseNode(s, j) == Some((r, k))
    ensures ParseNode(s, i) == Some((Branch(s[i], l, r), k))
  {
  }

  lemma {:induction false} ReversedAppend<T>(a: seq<T>, b: seq<T>)
    ensures Reversed(a + b) == Reversed(b) + Reversed(a)
    decreases |a|
  {
    if a == [] {
      assert a + b == b;
      assert Reversed(b) + [] == Reversed(b);
    } else {
      assert (a + b)[1..] == a[1..] + b;
      ReversedAppend(a[1..], b);
    }
  }

  /** Writing a tree's postfix form backwards gives the prefix form of its
      mirror image. */
  lemma {:induction false} ReversedPostfix(t: Node)
    ensures Reversed(Postfix(t)) == Prefix(Mirror(t))
    decreases t
  {
    match t
    case Leaf(_) =>
    case Branch(tok, l, r) =>
      ReversedPostfix(l);
      ReversedPostfix(r);
      ReversedTriple(Postfix(l), Postfix(r), tok);
  }

  lemma {:induction false} ReversedTriple<T>(a: seq<T>, b: seq<T>, x: T)
    ensures Reversed(a + b + [x]) == [x] + Reversed(b) + Reversed(a)
  {
    ReversedAppend(a + b, [x]);
    ReversedAppend(a, b);
    assert Reversed([x]) == [x];
  }

  lemma {:induction false} MirrorWellFormed(t: Node)
    ensures WellFormed(Mirror(t)) == WellFormed(t)
    ensures NodeCount(Mirror(t)) == NodeCount(t)
    decreases t
  {
    match t
    case Leaf(_) =>
    case Branch(_, l, r) =>
      MirrorWellFormed(l);
      MirrorWellFormed(r);
  }

  /** The consequence of building the queue with `unshift`: a queue holding
      the postfix form of a tree backwards is read as that tree's mirror
      image, every operator with its two operands swapped. */
  lemma {:induction false} ReadsMirror(t: Node)
    requires WellFormed(t)
    ensures ParseNode(Reversed(Postfix(t)), 0) == Some((Mirror(t), NodeCount(t)))
  {
    ReversedPostfix(t);
    MirrorWellFormed(t);
    assert Reversed(Postfix(t)) == [] + Prefix(Mirror(t)) + [];
    ParseNodePrefix([], Mirror(t), []);
  }

  // ---------------------------------------------------------------- small expressions

  /** The pass on one more token. */
  lemma {:induction false} ShuntOneMore(ts: seq<Token>, t: Token, o: seq<Token>, q: seq<Token>)
    requires Shunt(ts) == Ok((o, q))
    ensures Shunt(ts + [t]) == Step(o, q, t)
  {
    ShuntSnoc(ts, t);
  }

  /** A lone operand is read as a leaf holding it, using the one queue
      entry. */
  lemma {:induction false} OneOperand(t: Token, line: nat, argnum: nat)
    requires IsOperand(t)
    ensures Parse([t], line, argnum) == Ok((Leaf(t), 1))
  {
    ShuntOneMore([], t, [], []);
    StepCases([], [], t);
    assert [] + [t] == [t] && [t] + [] == [t];
    assert Finish([], [t]) == Ok([t]);
    ParseOfQueue([t], Leaf(t), line, argnum);
  }

  /** `a op b` is parsed with its operands swapped: `5 - 3` is the tree of
      `3 - 5`. */
  lemma {:induction false} TwoOperands(a: Token, op: Token, b: Token, line: nat, argnum: nat)
    requires IsOperand(a) && IsOperand(b) && IsArith(op)
    ensures Parse([a, op, b], line, argnum) == Ok((Branch(op, Leaf(b), Leaf(a)), 3))
  {
    Distinct(op);
    ShuntThree(a, op, b);
    assert Pop([op]) == [] && Top([op]) == op;
    assert [op] + [b, a] == [op, b, a];
    assert Finish([op], [b, a]) == Ok([op, b, a]);
    assert OutputQueue([a, op, b]) == Ok([op, b, a]);
    assert Prefix(Branch(op, Leaf(b), Leaf(a))) == [op] + [b] + [a] == [op, b, a];
    ParseOfQueue([a, op, b], Branch(op, Leaf(b), Leaf(a)), line, argnum);
  }

  /** `a o1 b o2 c`: when `o1` binds more loosely than `o2` (`1 + 2 * 3`) it
      is popped when `o2` arrives and ends up applied first, giving the
      mirror image of `(a o1 b) o2 c`; otherwise (`2 * 3 + 1`, `10 - 2 - 3`)
      both wait on the stack and `o2` is applied first, giving the mirror
      image of `a o1 (b o2 c)`. Either way the grouping is the reverse of the
      usual one. */
  lemma {:induction false} ThreeOperands(a: Token, o1: Token, b: Token, o2: Token, c: Token, line: nat, argnum: nat)
    requires IsOperand(a) && IsOperand(b) && IsOperand(c) && IsArith(o1) && IsArith(o2)
    ensures Parse([a, o1, b, o2, c], line, argnum) == Ok((
      if Precedence(o1.value) > Precedence(o2.value)
      then Mirror(Branch(o2, Branch(o1, Leaf(a), Leaf(b)), Leaf(c)))
      else Mirror(Branch(o1, Leaf(a), Branch(o2, Leaf(b), Leaf(c)))), 5))
  {
    if Precedence(o1.value) > Precedence(o2.value) {
      ParseLooser(a, o1, b, o2, c, line, argnum);
      assert Mirror(Branch(o1, Leaf(a), Leaf(b))) == Branch(o1, Leaf(b), Leaf(a));
    } else {
      ParseTighter(a, o1, b, o2, c, line, argnum);
      assert Mirror(Branch(o2, Leaf(b), Leaf(c))) == Branch(o2, Leaf(c), Leaf(b));
    }
  }

  lemma {:induction false} ParseLooser(a: Token, o1: Token, b: Token, o2: Token, c: Token, line: nat, argnum: nat)
    requires IsOperand(a) && IsOperand(b) && IsOperand(c) && IsArith(o1) && IsArith(o2)
    requires Precedence(o1.value) > Precedence(o2.value)
    ensures Parse([a, o1, b, o2, c], line, argnum)
      == Ok((Branch(o2, Leaf(c), Branch(o1, Leaf(b), Leaf(a))), 5))
  {
    var t := Branch(o2, Leaf(c), Branch(o1, Leaf(b), Leaf(a)));
    assert Prefix(t) == [o2, c, o1, b, a] by {
      assert Prefix(Branch(o1, Leaf(b), Leaf(a))) == [o1, b, a];
      assert Prefix(t) == [o2] + [c] + [o1, b, a];
    }
    QueueLooser(a, o1, b, o2, c);
    ParseOfQueue([a, o1, b, o2, c], t, line, argnum);
  }

  lemma {:induction false} ParseTighter(a: Token, o1: Token, b: Token, o2: Token, c: Token, line: nat, argnum: nat)
    requires IsOperand(a) && IsOperand(b) && IsOperand(c) && IsArith(o1) && IsArith(o2)
    requires Precedence(o1.value) <= Precedence(o2.value)
    ensures Parse([a, o1, b, o2, c], line, argnum)
      == Ok((Branch(o1, Branch(o2, Leaf(c), Leaf(b)), Leaf(a)), 5))
  {
    var t := Branch(o1, Branch(o2, Leaf(c), Leaf(b)), Leaf(a));
    assert Prefix(t) == [o1, o2, c, b, a] by {
      assert Prefix(Branch(o2, Leaf(c), Leaf(b))) == [o2, c, b];
      assert Prefix(t) == [o1] + [o2, c, b] + [a];
    }
    QueueTighter(a, o1, b, o2, c);
    ParseOfQueue([a, o1, b, o2, c], t, line, argnum);
  }

  /** Tokens whose output queue is the prefix form of a tree parse as that
      tree. */
  lemma {:induction false} ParseOfQueue(ts: seq<Token>, t: Node, line: nat, argnum: nat)
    requires WellFormed(t) && OutputQueue(ts) == Ok(Prefix(t))
    ensures Parse(ts, line, argnum) == Ok((t, NodeCount(t)))
  {
    ParseNodePrefix([], t, []);
    assert [] + Prefix(t) + [] == Prefix(t);
  }

  /** The pass over `a o1 b`. */
  lemma {:induction false} ShuntThree(a: Token, o1: Token, b: Token)
    requires IsOperand(a) && IsOperand(b) && IsArith(o1)
    ensures Shunt([a, o1, b]) == Ok(([o1], [b, a]))
  {
    ShuntTwo(a, o1);
    ShuntOneMore([a, o1], b, [o1], [a]);
    StepCases([o1], [a], b);
    assert [a, o1] + [b] == [a, o1, b] && [b] + [a] == [b, a];
  }

  /** The pass over `a o1`. */
  lemma {:induction false} ShuntTwo(a: Token, o1: Token)
    requires IsOperand(a) && IsArith(o1)
    ensures Shunt([a, o1]) == Ok(([o1], [a]))
  {
    Distinct(o1);
    ShuntOneMore([], a, [], []);
    StepCases([], [], a);
    assert [] + [a] == [a] && [a] + [] == [a];
    ShuntOneMore([a], o1, [], [a]);
    StepCases([], [a], o1);
    assert [a] + [o1] == [a, o1] && [] + [o1] == [o1];
  }

  lemma {:induction false} QueueLooser(a: Token, o1: Token, b: Token, o2: Token, c: Token)
    requires IsOperand(a) && IsOperand(b) && IsOperand(c) && IsArith(o1) && IsArith(o2)
    requires Precedence(o1.value) > Precedence(o2.value)
    ensures OutputQueue([a, o1, b, o2, c]) == Ok([o2, c, o1, b, a])
  {
    Distinct(o1);
    Distinct(o2);
    ShuntThree(a, o1, b);
    ShuntOneMore([a, o1, b], o2, [o1], [b, a]);
    StepCases([o1], [b, a], o2);
    assert [a, o1, b] + [o2] == [a, o1, b, o2];
    assert Pop([o1]) == [] && Top([o1]) == o1;
    assert [o1] + [b, a] == [o1, b, a];
    assert PopLooser([o1], [b, a], Precedence(o2.value))
        == PopLooser([], [o1, b, a], Precedence(o2.value));
    assert [] + [o2] == [o2];
    ShuntOneMore([a, o1, b, o2], c, [o2], [o1, b, a]);
    StepCases([o2], [o1, b, a], c);
    assert [a, o1, b, o2] + [c] == [a, o1, b, o2, c];
    assert [c] + [o1, b, a] == [c, o1, b, a];
    assert Pop([o2]) == [] && Top([o2]) == o2;
    assert [o2] + [c, o1, b, a] == [o2, c, o1, b, a];
    assert Finish([o2], [c, o1, b, a]) == Finish([], [o2, c, o1, b, a]);
  }

  lemma {:induction false} QueueTighter(a: Token, o1: Token, b: Token, o2: Token, c: Token)
    requires IsOperand(a) && IsOperand(b) && IsOperand(c) && IsArith(o1) && IsArith(o2)
    requires Precedence(o1.value) <= Precedence(o2.value)
    ensures OutputQueue([a, o1, b, o2, c]) == Ok([o1, o2, c, b, a])
  {
    ShuntTighter(a, o1, b, o2, c);
    FinishTwo(o1, o2, [c, b, a]);
    assert [o1, o2] + [c, b, a] == [o1, o2, c, b, a];
  }

  lemma {:induction false} ShuntTighter(a: Token, o1: Token, b: Token, o2: Token, c: Token)
    requires IsOperand(a) && IsOperand(b) && IsOperand(c) && IsArith(o1) && IsArith(o2)
    requires Precedence(o1.value) <= Precedence(o2.value)
    ensures Shunt([a, o1, b, o2, c]) == Ok(([o1, o2], [c, b, a]))
  {
    Distinct(o1);
    Distinct(o2);
    ShuntThree(a, o1, b);
    ShuntOneMore([a, o1, b], o2, [o1], [b, a]);
    StepCases([o1], [b, a], o2);
    assert [a, o1, b] + [o2] == [a, o1, b, o2];
    assert PopLooser([o1], [b, a], Precedence(o2.value)) == ([o1], [b, a]);
    assert [o1] + [o2] == [o1, o2];
    ShuntOneMore([a, o1, b, o2], c, [o1, o2], [b, a]);
    StepCases([o1, o2], [b, a], c);
    assert [a, o1, b, o2] + [c] == [a, o1, b, o2, c];
    assert [c] + [b, a] == [c, b, a];
  }

  /** Two arithmetic operators left on the stack go to the front of the
      queue, the bottom one first. */
  lemma {:induction false} FinishTwo(o1: Token, o2: Token, q: seq<Token>)
    requires IsArith(o1) && IsArith(o2)
    ensures Finish([o1, o2], q) == Ok([o1, o2] + q)
  {
    Distinct(o1);
    Distinct(o2);
    assert Pop([o1, o2]) == [o1] && Top([o1, o2]) == o2;
    assert Pop([o1]) == [] && Top([o1]) == o1;
    assert Finish([o1, o2], q) == Finish([o1], [o2] + q);
    assert Finish([o1], [o2] + q) == Finish([], [o1] + ([o2] + q));
    assert [o1] + ([o2] + q) == [o1, o2] + q;
  }

  /** An argument whose tokens leave nothing in the queue, such as `()`,
      makes parseNode read past the end. */
  lemma {:induction false} EmptyQueue(open: Token, close: Token, line: nat, argnum: nat)
    requires IsOpen(open) && IsClose(close)
    ensures Parse([open, close], line, argnum) == Err(TypeFault(MissingToken))
  {
    Distinct(open);
    Distinct(close);
    ShuntOneMore([], open, [], []);
    StepCases([], [], open);
    assert [] + [open] == [open];
    ShuntOneMore([open], close, [open], []);
    StepCases([open], [], close);
    assert [open] + [close] == [open, close];
    assert Pop([open]) == [];
  }
}

=== FILE: interp.dfy ===
/** The command table, execute and parse.

    Every statement runs one command on the running value and passes the
    command's result on to the next statement. Commands share one state:
    the variable map and, in place of the console, the log of everything
    `print` wrote. `use` reads files from a map given to the interpreter. */
module Interp {
  import opened Base
  import opened Text
  import opened Syntax
  import opened Eval
  import Lines
  import Blocks

  /** The state the commands share: the variables and the printed output. */
  datatype Env = Env(vars: Vars, printed: seq<Value>)

  /** The files `use` can read, by path. */
  type Files = map<string, string>

  /** The commands of the command table. */
  predicate Registered(command: string)
  {
    command in ["use", "store", "split", "foreach", "join", "replace", "print"]
  }

  /** The number of statements in a block tree (the termination measure of
      execute and foreach). */
  function Size(n: AstNode): nat
    decreases n
  {
    match n
    case Stmt(_) => 1
    case Block(_, children) => 1 + SizeAll(children)
  }

  function SizeAll(ns: seq<AstNode>): nat
    decreases ns
  {
    if ns == [] then 0 else Size(ns[0]) + SizeAll(ns[1..])
  }

  // ---------------------------------------------------------------- value helpers

  /** How `Array.prototype.join` writes one element: `null` and `undefined`
      as nothing, numbers in decimal, a nested array as its elements joined
      with commas. */
  function Stringify(v: Value): string
    decreases v
  {
    match v
    case Null => ""
    case Undefined => ""
    case Num(n) => IntToString(n)
    case Str(s) => s
    case Arr(es) => JoinWith(seq(|es|, i requires 0 <= i < |es| => Stringify(es[i])), ",")
  }

  /** JavaScript's `==` where it needs no coercion: `null` and `undefined`
      equal each other and nothing else, numbers and strings compare within
      their own type. A number against a string and anything against an
      array coerce or compare references, which this model leaves out
      (`None`). */
  function LooseEquals(a: Value, b: Value): (r: Option<bool>)
    ensures r.Some? <==> (a.Null? || a.Undefined? || b.Null? || b.Undefined?
                          || (a.Num? && b.Num?) || (a.Str? && b.Str?))
    ensures r == Some(true) ==> (a == b || ((a.Null? || a.Undefined?) && (b.Null? || b.Undefined?)))
    ensures r == Some(false) ==> a != b
    ensures (a.Null? || a.Undefined?) && (b.Null? || b.Undefined?) ==> r == Some(true)
    ensures (a.Num? && b.Num?) || (a.Str? && b.Str?) ==> r == Some(a == b)
  {
    if a.Null? || a.Undefined? || b.Null? || b.Undefined? then
      Some((a.Null? || a.Undefined?) && (b.Null? || b.Undefined?))
    else if a.Num? && b.Num? then Some(a.n == b.n)
    else if a.Str? && b.Str? then Some(a.s == b.s)
    else None
  }

  /** `==` is symmetric wherever the model decides it. */
  lemma {:induction false} LooseEqualsSymmetric(a: Value, b: Value)
    ensures LooseEquals(a, b) == LooseEquals(b, a)
  {
  }

  // ---------------------------------------------------------------- commands

  /** `use`: the file named by the one argument, as text. */
  function Use(args: seq<Node>, line: nat, vars: Vars, files: Files): (r: Result<Value, Error>)
    ensures |args| != 1 ==> r == Err(AtLine(line, WrongArgumentCount("use")))
    ensures |args| == 1 && Evaluate(args[0], vars, line, 0).Err? ==>
      r == Err(Evaluate(args[0], vars, line, 0).error)
    ensures r.Ok? ==>
      (|args| == 1
       && (exists p :: Evaluate(args[0], vars, line, 0) == Ok(Str(p)) && p in files && r.value == Str(files[p])))
    ensures forall p :: |args| == 1 && Evaluate(args[0], vars, line, 0) == Ok(Str(p)) ==>
      r == (if p in files then Ok(Str(files[p])) else Err(AtLine(line, ReadFailed(p))))
  {
    if |args| != 1 then Err(AtLine(line, WrongArgumentCount("use")))
    else
      match Evaluate(args[0], vars, line, 0)
      case Err(e) => Err(e)
      case Ok(Str(p)) => if p in files then Ok(Str(files[p])) else Err(AtLine(line, ReadFailed(p)))
      case Ok(_) => Err(TypeFault(Unsupported))
  }

  /** `store`. With one argument the running value is written under the key
      `"name"`, whatever variable the argument names; with two, the second
      argument's value is written under the first argument's name. Either
      way the running value passes through. The count message names the
      command `const`. */
  function Store(value: Value, args: seq<Node>, line: nat, env: Env): (r: (Result<Value, Error>, Env))
    ensures r.0.Ok? ==> r.0.value == value && r.1.printed == env.printed
    ensures r.0.Ok? ==> 1 <= |args| <= 2 && args[0].token.kind == Variable
    ensures r.0.Err? ==> r.1 == env
    ensures r.0.Ok? && |args| == 1 ==> r.1.vars == env.vars["name" := value]
    ensures r.0.Ok? && |args| == 2 ==>
      (Evaluate(args[1], env.vars, line, 1).Ok?
       && r.1.vars == env.vars[args[0].token.value := Evaluate(args[1], env.vars, line, 1).value])
  {
    if |args| == 0 then (Err(AtLine(line, WrongArgumentCount("const"))), env)
    else if args[0].token.kind != Variable then (Err(AtArgument(line, 1, NotAVariable)), env)
    else if |args| == 1 then (Ok(value), env.(vars := env.vars["name" := value]))
    else if |args| == 2 then
      match Evaluate(args[1], env.vars, line, 1)
      case Err(e) => (Err(e), env)
      case Ok(v) => (Ok(value), env.(vars := env.vars[args[0].token.value := v]))
    else (Err(AtLine(line, WrongArgumentCount("const"))), env)
  }

  /** The pieces of `String.prototype.split`, as an array of strings. */
  function SplitValues(s: string, sep: string): (r: seq<Value>)
    ensures |r| == |Split(s, sep)|
    ensures forall i :: 0 <= i < |r| ==> r[i] == Str(Split(s, sep)[i])
    ensures JoinWith(seq(|r|, i requires 0 <= i < |r| => Stringify(r[i])), sep) == s
  {
    var parts := Split(s, sep);
    var r := seq(|parts|, i requires 0 <= i < |parts| => Str(parts[i]));
    assert seq(|r|, i requires 0 <= i < |r| => Stringify(r[i])) == parts;
    SplitJoin(s, sep);
    r
  }

  /** `split`: the running string cut at the separator its one argument
      evaluates to. */
  function SplitCommand(value: Value, args: seq<Node>, line: nat, vars: Vars): (r: Result<Value, Error>)
    ensures !value.Str? ==> r == Err(AtLine(line, ValueNotString))
    ensures value.Str? && |args| != 1 ==> r == Err(AtLine(line, WrongArgumentCount("split")))
    ensures value.Str? && |args| == 1 && Evaluate(args[0], vars, line, 0).Err? ==>
      r == Err(Evaluate(args[0], vars, line, 0).error)
    ensures value.Str? && |args| == 1 && Evaluate(args[0], vars, line, 0).Ok?
            && !Evaluate(args[0], vars, line, 0).value.Str? ==>
      r == Err(AtArgument(line, 0, ArgumentNotString))
    ensures r.Ok? ==>
      (value.Str? && |args| == 1 && Evaluate(args[0], vars, line, 0).Ok?
       && Evaluate(args[0], vars, line, 0).value.Str?
       && r.value == Arr(SplitValues(value.s, Evaluate(args[0], vars, line, 0).value.s)))
    ensures r.Ok? ==>
      JoinWith(Split(value.s, Evaluate(args[0], vars, line, 0).value.s), Evaluate(args[0], vars, line, 0).value.s)
      == value.s
  {
    if !value.Str? then Err(AtLine(line, ValueNotString))
    else if |args| != 1 then Err(AtLine(line, WrongArgumentCount("split")))
    else
      match Evaluate(args[0], vars, line, 0)
      case Err(e) => Err(e)
      case Ok(Str(sep)) =>
        SplitJoin(value.s, sep);
        Ok(Arr(SplitValues(value.s, sep)))
      case Ok(_) => Err(AtArgument(line, 0, ArgumentNotString))
  }

  /** `join`: the running array's elements written one after another. */
  function JoinCommand(value: Value, line: nat): (r: Result<Value, Error>)
    ensures !value.Arr? ==> r == Err(AtLine(line, ValueNotArray))
    ensures value.Arr? ==> r.Ok? && r.value.Str?
    ensures value == Arr([]) ==> r == Ok(Str(""))
    ensures value.Arr? && |value.elems| == 1 ==> r == Ok(Str(Stringify(value.elems[0])))
  {
    if !value.Arr? then Err(AtLine(line, ValueNotArray))
    else
      var es := value.elems;
      Ok(Str(JoinWith(seq(|es|, i requires 0 <= i < |es| => Stringify(es[i])), "")))
  }

  /** `join` of two arrays put together is the `join` of the first followed by
      the `join` of the second: with the single-element and empty cases of
      JoinCommand, the result is every element's text, in order. */
  lemma {:induction false} JoinConcatenates(a: seq<Value>, b: seq<Value>, line: nat)
    ensures JoinCommand(Arr(a + b), line)
      == Ok(Str(JoinCommand(Arr(a), line).value.s + JoinCommand(Arr(b), line).value.s))
  {
    var ab := a + b;
    var ta := seq(|a|, i requires 0 <= i < |a| => Stringify(a[i]));
    var tb := seq(|b|, i requires 0 <= i < |b| => Stringify(b[i]));
    assert seq(|ab|, i requires 0 <= i < |ab| => Stringify(ab[i])) == ta + tb;
    JoinNothingAppend(ta, tb);
  }

  /** `replace`: the second argument's value if the running value `==` the
      first argument's value, the running value otherwise. */
  function ReplaceCommand(value: Value, args: seq<Node>, line: nat, vars: Vars): (r: Result<Value, Error>)
    ensures |args| != 2 ==> r == Err(AtLine(line, WrongArgumentCount("replace")))
    ensures r.Ok? ==> |args| == 2 && Evaluate(args[0], vars, line, 0).Ok? && Evaluate(args[1], vars, line, 1).Ok?
    ensures r.Ok? ==>
      r.value == (if LooseEquals(value, Evaluate(args[0], vars, line, 0).value) == Some(true)
                  then Evaluate(args[1], vars, line, 1).value else value)
  {
    if |args| != 2 then Err(AtLine(line, WrongArgumentCount("replace")))
    else
      match Evaluate(args[0], vars, line, 0)
      case Err(e) => Err(e)
      case Ok(m) =>
        match Evaluate(args[1], vars, line, 1)
        case Err(e) => Err(e)
        case Ok(substitute) =>
          match LooseEquals(value, m)
          case None => Err(TypeFault(Unsupported))
          case Some(same) => Ok(if same then substitute else value)
  }

  /** `print`: logs the running value, or its one argument's value, and
      passes the running value through. */
  function Print(value: Value, args: seq<Node>, line: nat, env: Env): (r: (Result<Value, Error>, Env))
    ensures r.1.vars == env.vars
    ensures r.0.Ok? ==> r.0.value == value && |r.1.printed| == |env.printed| + 1 && r.1.printed[..|env.printed|] == env.printed
    ensures r.0.Err? ==> r.1 == env
    ensures |args| == 0 ==> r == (Ok(value), env.(printed := env.printed + [value]))
    ensures |args| == 1 && Evaluate(args[0], env.vars, line, 0).Ok? ==>
      r == (Ok(value), env.(printed := env.printed + [Evaluate(args[0], env.vars, line, 0).value]))
    ensures |args| == 1 && Evaluate(args[0], env.vars, line, 0).Err? ==>
      r == (Err(Evaluate(args[0], env.vars, line, 0).error), env)
    ensures |args| > 1 ==> r == (Err(AtLine(line, WrongArgumentCount("print"))), env)
  {
    if |args| == 0 then (Ok(value), env.(printed := env.printed + [value]))
    else if |args| == 1 then
      match Evaluate(args[0], env.vars, line, 0)
      case Err(e) => (Err(e), env)
      case Ok(v) => (Ok(value), env.(printed := env.printed + [v]))
    else (Err(AtLine(line, WrongArgumentCount("print"))), env)
  }

  // ---------------------------------------------------------------- execute

  /** execute's default parameter: a value passed as `undefined` arrives
      as `null`. */
  function Defaulted(v: Value): (d: Value)
    ensures d != Undefined
    ensures v != Undefined ==> d == v
  {
    if v.Undefined? then Null else v
  }

  /** Running statements only ever adds to the printed log and never
      removes a variable. */
  predicate Extends(env: Env, env': Env)
  {
    env.printed <= env'.printed && env.vars.Keys <= env'.vars.Keys
  }

  /** execute's loop: run the statements in order, each on the previous
      one's result; the first error ends the run with the state as it
      stands. Running statements never removes a variable or printed
      output. */
  function Exec(ast: seq<AstNode>, value: Value, env: Env, files: Files): (r: (Result<Value, Error>, Env))
    ensures Extends(env, r.1)
    decreases SizeAll(ast), 2
  {
    if ast == [] then (Ok(value), env)
    else
      var (r, env') := Run(ast[0], value, env, files);
      if r.Err? then (r, env') else Exec(ast[1..], r.value, env', files)
  }

  /** One statement: look its command up and call it. `foreach` gets the
      statement's children as its body. Only `store`, `print` and `foreach`
      touch the state, and none of them removes anything from it. */
  function Run(node: AstNode, value: Value, env: Env, files: Files): (r: (Result<Value, Error>, Env))
    ensures Extends(env, r.1)
    ensures node.stmt.command !in ["store", "print", "foreach"] ==> r.1 == env
    decreases Size(node), 1
  {
    var line := node.stmt;
    var command := line.command;
    if !Registered(command) then (Err(AtLine(line.line, CommandNotFound(command))), env)
    else if command == "use" then (Use(line.args, line.line, env.vars, files), env)
    else if command == "store" then Store(value, line.args, line.line, env)
    else if command == "split" then (SplitCommand(value, line.args, line.line, env.vars), env)
    else if command == "foreach" then
      if !value.Arr? then (Err(AtLine(line.line, ValueNotArray)), env)
      else if node.Stmt? then
        if value.elems == [] then (Ok(value), env) else (Err(TypeFault(MissingChildren)), env)
      else ForEach(node.children, value.elems, 0, env, files)
    else if command == "join" then (JoinCommand(value, line.line), env)
    else if command == "replace" then (ReplaceCommand(value, line.args, line.line, env.vars), env)
    else Print(value, line.args, line.line, env)
  }

  /** `foreach` from element `k` on: each element is replaced by the result
      of running the body on it (an `undefined` element arrives as `null`,
      execute's default), all runs sharing the state. The result is an
      array of the same length. */
  function ForEach(body: seq<AstNode>, elems: seq<Value>, k: nat, env: Env, files: Files): (r: (Result<Value, Error>, Env))
    requires k <= |elems|
    ensures Extends(env, r.1)
    ensures r.0.Ok? ==> r.0.value.Arr? && |r.0.value.elems| == |elems|
    decreases SizeAll(body), 3, |elems| - k
  {
    if k == |elems| then (Ok(Arr(elems)), env)
    else
      var (r, env') := Exec(body, Defaulted(elems[k]), env, files);
      if r.Err? then (r, env') else ForEach(body, elems[k := r.value], k + 1, env', files)
  }

  lemma {:induction false} ElementSize(ast: seq<AstNode>, i: nat)
    requires i < |ast|
    ensures Size(ast[i]) <= SizeAll(ast)
    decreases i
  {
    if i > 0 {
      ElementSize(ast[1..], i - 1);
      assert ast[1..][i - 1] == ast[i];
    }
  }

  /** The interpreter: the variable map and the printed log are fields the
      commands update in place. */
  class Interpreter {
    var vars: Vars
    var printed: seq<Value>
    const files: Files

    function State(): Env
      reads this
    {
      Env(vars, printed)
    }

    /** A fresh state, as `execute` starts with by default. */
    constructor(files: Files)
      ensures State() == Env(map[], []) && this.files == files
    {
      vars := map[];
      printed := [];
      this.files := files;
    }

    /** execute, with `value` defaulting to `null`. */
    method Execute(ast: seq<AstNode>, value: Value) returns (r: Result<Value, Error>)
      modifies this
      ensures (r, State()) == Exec(ast, Defaulted(value), old(State()), files)
      decreases SizeAll(ast), 2
    {
      var v := Defaulted(value);
      var i := 0;
      while i < |ast|
        invariant 0 <= i <= |ast|
        invariant Exec(ast[i..], v, State(), files) == Exec(ast, Defaulted(value), old(State()), files)
      {
        assert ast[i..][0] == ast[i] && ast[i..][1..] == ast[i + 1..];
        ElementSize(ast, i);
        var step := RunNode(ast[i], v);
        if step.Err? {
          return step;
        }
        v := step.value;
        i := i + 1;
      }
      return Ok(v);
    }

    /** One statement: the command table lookup and the command itself. */
    method RunNode(node: AstNode, value: Value) returns (r: Result<Value, Error>)
      modifies this
      ensures (r, State()) == Run(node, value, old(State()), files)
      decreases Size(node), 1
    {
      var line := node.stmt;
      var command := line.command;
      if !Registered(command) {
        return Err(AtLine(line.line, CommandNotFound(command)));
      } else if command == "use" {
        return Use(line.args, line.line, vars, files);
      } else if command == "store" {
        r := StoreCommand(value, line.args, line.line);
      } else if command == "split" {
        return SplitCommand(value, line.args, line.line, vars);
      } else if command == "foreach" {
        r := ForEachCommand(node, value);
      } else if command == "join" {
        return JoinCommand(value, line.line);
      } else if command == "replace" {
        return ReplaceCommand(value, line.args, line.line, vars);
      } else {
        r := PrintCommand(value, line.args, line.line);
      }
    }

    /** `store`, writing the variable map in place. */
    method StoreCommand(value: Value, args: seq<Node>, line: nat) returns (r: Result<Value, Error>)
      modifies this
      ensures (r, State()) == Store(value, args, line, old(State()))
    {
      if |args| == 0 {
        return Err(AtLine(line, WrongArgumentCount("const")));
      }
      var name := args[0];
      if name.token.kind != Variable {
        return Err(AtArgument(line, 1, NotAVariable));
      }
      if |args| == 1 {
        vars := vars["name" := value];
      } else if |args| == 2 {
        var v := Evaluate(args[1], vars, line, 1);
        if v.Err? {
          return Err(v.error);
        }
        vars := vars[name.token.value := v.value];
        return Ok(value);
      } else {
        return Err(AtLine(line, WrongArgumentCount("const")));
      }
      return Ok(value);
    }

    /** `print`, appending to the log. */
    method PrintCommand(value: Value, args: seq<Node>, line: nat) returns (r: Result<Value, Error>)
      modifies this
      ensures (r, State()) == Print(value, args, line, old(State()))
    {
      if |args| == 0 {
        printed := printed + [value];
      } else if |args| == 1 {
        var v := Evaluate(args[0], vars, line, 0);
        if v.Err? {
          return Err(v.error);
        }
        printed := printed + [v.value];
      } else {
        return Err(AtLine(line, WrongArgumentCount("print")));
      }
      return Ok(value);
    }

    /** `foreach`: the body runs on each element in turn and the element is
      overwritten with the result. */
    method ForEachCommand(node: AstNode, value: Value) returns (r: Result<Value, Error>)
      requires node.stmt.command == "foreach"
      modifies this
      ensures (r, State()) == Run(node, value, old(State()), files)
      decreases Size(node), 0
    {
      var line := node.stmt;
      if !value.Arr? {
        return Err(AtLine(line.line, ValueNotArray));
      }
      if node.Stmt? {
        if value.elems == [] {
          return Ok(value);
        }
        return Err(TypeFault(MissingChildren));
      }
      var elems := value.elems;
      var k := 0;
      while k < |elems|
        invariant 0 <= k <= |elems|
        invariant ForEach(node.children, elems, k, State(), files)
          == ForEach(node.children, value.elems, 0, old(State()), files)
      {
        var x := Execute(node.children, elems[k]);
        if x.Err? {
          return x;
        }
        elems := elems[k := x.value];
        k := k + 1;
      }
      return Ok(Arr(elems));
    }
  }

  // ---------------------------------------------------------------- properties

  /** Running `a` then `b` is running `a` and, if it succeeded, running `b`
      on its result in the state it left: a failing statement ends the
      program and nothing after it runs. */
  lemma {:induction false} ExecAppend(a: seq<AstNode>, b: seq<AstNode>, value: Value, env: Env, files: Files)
    ensures Exec(a + b, value, env, files)
      == (if Exec(a, value, env, files).0.Err? then Exec(a, value, env, files)
          else Exec(b, Exec(a, value, env, files).0.value, Exec(a, value, env, files).1, files))
    decreases a
  {
    if a == [] {
      assert a + b == b;
    } else {
      assert (a + b)[0] == a[0] && (a + b)[1..] == a[1..] + b;
      var (r, env') := Run(a[0], value, env, files);
      if r.Ok? {
        ExecAppend(a[1..], b, r.value, env', files);
      }
    }
  }

  /** A statement whose command is not in the table stops the program with
      "not found", leaving the state as it was. */
  lemma {:induction false} UnknownCommandHalts(node: AstNode, rest: seq<AstNode>, value: Value, env: Env, files: Files)
    requires !Registered(node.stmt.command)
    ensures Exec([node] + rest, value, env, files)
      == (Err(AtLine(node.stmt.line, CommandNotFound(node.stmt.command))), env)
  {
    assert ([node] + rest)[0] == node;
  }

  /** The block words other than `foreach`, and `end`, have no command:
      a program that reaches an `if`, `elif`, `else` or `function` block
      stops there with "not found". buildAst never hands an `end` to
      execute (`Blocks.StrayEndStops`). */
  lemma {:induction false} ControlWordsUnregistered(command: string)
    requires (IsBlockDec(command) && command != "foreach") || command == "end"
    ensures !Registered(command)
  {
  }

  /** `store x e` makes `x` read as the value of `e` and changes no other
      variable; the running value passes through. */
  lemma {:induction false} StoreThenRead(x: Token, e: Node, line: nat, value: Value, env: Env, files: Files, w: Value)
    requires x.kind == Variable
    requires Evaluate(e, env.vars, line, 1) == Ok(w)
    ensures Run(Stmt(Line(line, "store", [Leaf(x), e])), value, env, files).0 == Ok(value)
    ensures Evaluate(Leaf(x), Run(Stmt(Line(line, "store", [Leaf(x), e])), value, env, files).1.vars, line, 0) == Ok(w)
    ensures forall y :: y != x.value ==>
      Lookup(Run(Stmt(Line(line, "store", [Leaf(x), e])), value, env, files).1.vars, y) == Lookup(env.vars, y)
  {
  }

  /** `store x` with one argument writes the running value under `"name"`,
      not under `x`. */
  lemma {:induction false} StoreOneArgument(x: Token, line: nat, value: Value, env: Env, files: Files)
    requires x.kind == Variable
    ensures Run(Stmt(Line(line, "store", [Leaf(x)])), value, env, files).0 == Ok(value)
    ensures Lookup(Run(Stmt(Line(line, "store", [Leaf(x)])), value, env, files).1.vars, "name") == value
    ensures x.value != "name" ==>
      Lookup(Run(Stmt(Line(line, "store", [Leaf(x)])), value, env, files).1.vars, x.value) == Lookup(env.vars, x.value)
  {
  }

  /** The elements with `undefined` turned into `null`. */
  function DefaultedAll(es: seq<Value>): (r: seq<Value>)
    ensures |r| == |es|
    ensures forall i :: 0 <= i < |es| ==> r[i] == Defaulted(es[i])
  {
    seq(|es|, i requires 0 <= i < |es| => Defaulted(es[i]))
  }

  /** `foreach` with an empty body turns `undefined` elements into `null`,
      through execute's default, and keeps every other element. */
  lemma {:induction false} EmptyBody(elems: seq<Value>, k: nat, env: Env, files: Files)
    requires k <= |elems|
    ensures ForEach([], elems, k, env, files) == (Ok(Arr(elems[..k] + DefaultedAll(elems[k..]))), env)
    decreases |elems| - k
  {
    if k == |elems| {
      assert elems[..k] + DefaultedAll(elems[k..]) == elems;
    } else {
      var next := elems[k := Defaulted(elems[k])];
      EmptyBody(next, k + 1, env, files);
      assert next[..k + 1] + DefaultedAll(next[k + 1..]) == elems[..k] + DefaultedAll(elems[k..]);
    }
  }

  /** A `foreach` block without statements gives the array back with
      `undefined` elements turned into `null`: the identity on arrays that
      hold no `undefined`. */
  lemma {:induction false} ForEachEmptyBlock(line: Line, elems: seq<Value>, env: Env, files: Files)
    requires line.command == "foreach"
    ensures Run(Block(line, []), Arr(elems), env, files) == (Ok(Arr(DefaultedAll(elems))), env)
    ensures (forall i :: 0 <= i < |elems| ==> elems[i] != Undefined) ==>
      Run(Block(line, []), Arr(elems), env, files) == (Ok(Arr(elems)), env)
  {
    EmptyBody(elems, 0, env, files);
    assert elems[..0] + DefaultedAll(elems[0..]) == DefaultedAll(elems);
    if forall i :: 0 <= i < |elems| ==> elems[i] != Undefined {
      assert DefaultedAll(elems) == elems;
    }
  }

  /** The body run on each element in turn, first to last, threading the
      state: the list of results, built element by element rather than by
      overwriting the array. */
  function BodyRuns(body: seq<AstNode>, es: seq<Value>, env: Env, files: Files): (r: (Result<seq<Value>, Error>, Env))
    ensures r.0.Ok? ==> |r.0.value| == |es|
    decreases |es|
  {
    if es == [] then (Ok([]), env)
    else
      var (x, env') := Exec(body, Defaulted(es[0]), env, files);
      if x.Err? then (Err(x.error), env')
      else
        var (rest, env'') := BodyRuns(body, es[1..], env', files);
        if rest.Err? then (rest, env'') else (Ok([x.value] + rest.value), env'')
  }

  /** Overwriting the array in place from element `k` on gives the elements
      before `k` followed by the body's results on the rest. */
  lemma {:induction false} ForEachRuns(body: seq<AstNode>, elems: seq<Value>, k: nat, env: Env, files: Files)
    requires k <= |elems|
    ensures ForEach(body, elems, k, env, files).1 == BodyRuns(body, elems[k..], env, files).1
    ensures ForEach(body, elems, k, env, files).0
      == match BodyRuns(body, elems[k..], env, files).0
         case Ok(rs) => Ok(Arr(elems[..k] + rs))
         case Err(e) => Err(e)
    decreases |elems| - k
  {
    if k == |elems| {
      assert elems[..k] + [] == elems;
    } else {
      assert elems[k..][0] == elems[k] && elems[k..][1..] == elems[k + 1..];
      var (x, env') := Exec(body, Defaulted(elems[k]), env, files);
      if x.Ok? {
        var next := elems[k := x.value];
        ForEachRuns(body, next, k + 1, env', files);
        assert next[k + 1..] == elems[k + 1..];
        var rest := BodyRuns(body, elems[k + 1..], env', files).0;
        if rest.Ok? {
          assert next[..k + 1] + rest.value == elems[..k] + ([x.value] + rest.value);
        }
      }
    }
  }

  /** Result `i` of the runs is the body's result on element `i`, run in the
      state the runs on the elements before it left. */
  lemma {:induction false} BodyRunsElement(body: seq<AstNode>, es: seq<Value>, env: Env, files: Files, i: nat)
    requires BodyRuns(body, es, env, files).0.Ok? && i < |es|
    ensures Exec(body, Defaulted(es[i]), BodyRuns(body, es[..i], env, files).1, files).0
      == Ok(BodyRuns(body, es, env, files).0.value[i])
    decreases i
  {
    var (x, env') := Exec(body, Defaulted(es[0]), env, files);
    if i == 0 {
      assert es[..0] == [];
    } else {
      BodyRunsElement(body, es[1..], env', files, i - 1);
      BodyRunsShift(body, es, env, files, i);
    }
  }

  /** One step of BodyRunsElement: the runs and the prefix runs both begin
      with the body on element 0. */
  lemma {:induction false} BodyRunsShift(body: seq<AstNode>, es: seq<Value>, env: Env, files: Files, i: nat)
    requires BodyRuns(body, es, env, files).0.Ok? && 0 < i < |es|
    ensures var env' := Exec(body, Defaulted(es[0]), env, files).1;
      && BodyRuns(body, es[1..], env', files).0.Ok?
      && BodyRuns(body, es, env, files).0.value[i] == BodyRuns(body, es[1..], env', files).0.value[i - 1]
      && BodyRuns(body, es[..i], env, files).1 == BodyRuns(body, es[1..][..i - 1], env', files).1
      && es[1..][i - 1] == es[i]
  {
    assert es[..i][0] == es[0] && es[..i][1..] == es[1..][..i - 1];
  }

  /** `foreach` over a whole array: element `i` of the result is the body's
      result on element `i` (`null` for an `undefined` one), run in the
      state the elements before it left; the final state is the state after
      the last run. */
  lemma {:induction false} ForEachElements(body: seq<AstNode>, elems: seq<Value>, env: Env, files: Files)
    requires ForEach(body, elems, 0, env, files).0.Ok?
    ensures ForEach(body, elems, 0, env, files).1 == BodyRuns(body, elems, env, files).1
    ensures forall i :: 0 <= i < |elems| ==>
      Exec(body, Defaulted(elems[i]), BodyRuns(body, elems[..i], env, files).1, files).0
        == Ok(ForEach(body, elems, 0, env, files).0.value.elems[i])
  {
    ForEachRuns(body, elems, 0, env, files);
    assert elems[0..] == elems && elems[..0] == [];
    forall i | 0 <= i < |elems|
      ensures Exec(body, Defaulted(elems[i]), BodyRuns(body, elems[..i], env, files).1, files).0
        == Ok(ForEach(body, elems, 0, env, files).0.value.elems[i])
    {
      BodyRunsElement(body, elems, env, files, i);
    }
  }

  /** `split ""` followed by `join` gives the string back: the empty
      separator cuts the string into its characters and `join` glues them
      together again. */
  lemma {:induction false} SplitCharsThenJoin(s: string, n: nat, m: nat, env: Env, files: Files)
    ensures Exec([Stmt(Line(n, "split", [Leaf(Token("", String))])), Stmt(Line(m, "join", []))], Str(s), env, files)
      == (Ok(Str(s)), env)
  {
    var split := Stmt(Line(n, "split", [Leaf(Token("", String))]));
    var join := Stmt(Line(m, "join", []));
    var pieces := SplitValues(s, "");
    assert Run(split, Str(s), env, files) == (Ok(Arr(pieces)), env);
    var texts := seq(|pieces|, i requires 0 <= i < |pieces| => Stringify(pieces[i]));
    assert texts == Split(s, "");
    CharsJoin(s);
    assert Run(join, Arr(pieces), env, files) == (Ok(Str(s)), env);
    assert [join][1..] == [];
    assert Exec([join], Arr(pieces), env, files) == (Ok(Str(s)), env);
    assert [split, join][1..] == [join];
  }

  // ---------------------------------------------------------------- parse

  /** parse: cut the source at newlines, parse the lines, build the block
      tree and execute it from `null` in an empty state. */
  function Program(src: string, files: Files): (Result<Value, Error>, Env)
  {
    var lines := Split(src, "\n");
    match Lines.ParseUpTo(lines, |lines|)
    case Err(e) => (Err(e), Env(map[], []))
    case Ok(ls) => Exec(Blocks.Build(ls, 0, false).0, Null, Env(map[], []), files)
  }

  /** parse, returning the outcome and what was printed. */
  method Parse(src: string, files: Files) returns (r: Result<Value, Error>, output: seq<Value>)
    ensures r == Program(src, files).0 && output == Program(src, files).1.printed
  {
    var lines := Split(src, "\n");
    var parsed := Lines.ParseLines(lines);
    if parsed.Err? {
      return Err(parsed.error), [];
    }
    var ast, _ := Blocks.BuildAst(parsed.value, 0, false);
    var interpreter := new Interpreter(files);
    r := interpreter.Execute(ast, Null);
    output := interpreter.printed;
  }
}

=== FILE: lexer.dfy ===
/** Cutting a source line into its command and its raw argument strings
    (splitLine and splitArgs). */
module Lexer {
  import opened Text

  /** splitLine: `line.split(" ")`, first part and the rest re-joined with
      spaces. The command is everything before the first space character and
      contains none; the argument string is everything after it. */
  function SplitLine(line: string): (r: (string, string))
    ensures ' ' !in r.0
    ensures if ' ' in line then line == r.0 + " " + r.1 else r == (line, "")
  {
    if line == [] then ("", "")
    else if line[0] == ' ' then ("", line[1..])
    else
      var (command, rest) := SplitLine(line[1..]);
      assert line == [line[0]] + line[1..];
      ([line[0]] + command, rest)
  }

  // ---------------------------------------------------------------- spans

  /** The text of a double-quoted span, copied from just after its opening
      quote up to and including the closing quote, and the text after it. A
      backslash copies itself and the next character, so an escaped quote does
      not close the span; a backslash that ends the input copies itself and
      the text "undefined" (JavaScript reads `args[++i]` past the end). An
      unterminated span takes the rest of the input. */
  function QuotedSpan(t: string): (r: (string, string))
    ensures |r.1| <= |t|
    decreases |t|
  {
    if t == [] then ("", [])
    else if t[0] == '\\' then
      if |t| == 1 then ("\\undefined", [])
      else
        var (span, rest) := QuotedSpan(t[2..]);
        ([t[0], t[1]] + span, rest)
    else if t[0] == '"' then ("\"", t[1..])
    else
      var (span, rest) := QuotedSpan(t[1..]);
      ([t[0]] + span, rest)
  }

  /** Without backslashes, a quoted span runs up to and including the first
      quote; with no quote at all it takes the rest of the input. */
  lemma {:induction false} QuotedSpanPlain(a: string, b: string)
    requires '"' !in a && '\\' !in a
    requires b == [] || b[0] == '"'
    ensures QuotedSpan(a + b) == if b == [] then (a, []) else (a + "\"", b[1..])
    decreases |a|
  {
    if a == [] {
      assert a + b == b && a + "\"" == "\"";
    } else {
      QuotedSpanPlain(a[1..], b);
      assert (a + b)[0] == a[0] && (a + b)[1..] == a[1..] + b;
      assert a == [a[0]] + a[1..];
      assert [a[0]] + (a[1..] + "\"") == a + "\"";
    }
  }

  /** The text of a parenthesised span, from just after `(` up to and
      including the FIRST `)` (no nesting), and the text after it; an
      unterminated span takes the rest of the input. */
  function ParenSpan(t: string): (r: (string, string))
    ensures |r.1| <= |t|
    decreases |t|
  {
    if t == [] then ("", [])
    else if t[0] == ')' then (")", t[1..])
    else
      var (span, rest) := ParenSpan(t[1..]);
      ([t[0]] + span, rest)
  }

  /** A parenthesised span ends at the first `)`: the span and the rest make
      up the input, and the span holds no `)` except as its last character. */
  lemma {:induction false} ParenSpanShape(t: string)
    ensures var (span, rest) := ParenSpan(t);
      && span + rest == t
      && (forall k :: 0 <= k < |span| - 1 ==> span[k] != ')')
      && ((span != [] && span[|span| - 1] == ')') || (span == t && rest == [] && ')' !in t))
    decreases |t|
  {
    if t != [] && t[0] != ')' {
      ParenSpanShape(t[1..]);
      var (span, rest) := ParenSpan(t[1..]);
      assert ParenSpan(t) == ([t[0]] + span, rest);
      assert t == [t[0]] + t[1..];
    }
  }

  // ---------------------------------------------------------------- pieces

  /** Glue `p` onto the front of the first of `ps`. */
  function Onto(p: string, ps: seq<string>): (r: seq<string>)
    requires |ps| >= 1
    ensures |r| == |ps|
  {
    [p + ps[0]] + ps[1..]
  }

  /** The argument strings of splitArgs before trimming: the text between
      the commas that lie outside quoted and parenthesised spans. */
  function Pieces(s: string): (r: seq<string>)
    ensures |r| >= 1
    decreases |s|
  {
    if s == [] then [""]
    else if s[0] == ',' then [""] + Pieces(s[1..])
    else if s[0] == '"' then
      var (span, rest) := QuotedSpan(s[1..]);
      Onto("\"" + span, Pieces(rest))
    else if s[0] == '(' then
      var (span, rest) := ParenSpan(s[1..]);
      Onto("(" + span, Pieces(rest))
    else Onto([s[0]], Pieces(s[1..]))
  }

  function TrimAll(ps: seq<string>): (r: seq<string>)
    ensures |r| == |ps|
  {
    seq(|ps|, k requires 0 <= k < |ps| => Trim(ps[k]))
  }

  // ---------------------------------------------------------------- where a comma splits

  /** Where a left-to-right reader of an argument string stands: outside any
      span, inside a quoted span, just after a backslash inside a quoted span,
      or inside a parenthesised span. */
  datatype Mode = Outside | InQuote | Escaped | InParen

  function Next(m: Mode, c: char): Mode
  {
    match m
    case Outside => if c == '"' then InQuote else if c == '(' then InParen else Outside
    case InQuote => if c == '\\' then Escaped else if c == '"' then Outside else InQuote
    case Escaped => InQuote
    case InParen => if c == ')' then Outside else InParen
  }

  function ModeAfter(s: string, m: Mode): Mode
    decreases |s|
  {
    if s == [] then m else ModeAfter(s[1..], Next(m, s[0]))
  }

  /** The commas of `s` read while outside every span, starting in mode `m`. */
  function SplittingCommas(s: string, m: Mode): nat
    decreases |s|
  {
    if s == [] then 0
    else (if m == Outside && s[0] == ',' then 1 else 0) + SplittingCommas(s[1..], Next(m, s[0]))
  }

  // ---------------------------------------------------------------- splitArgs

  /** splitArgs: cut at every comma outside quoted and parenthesised spans
      and trim each piece. */
  method SplitArgs(args: string) returns (out: seq<string>)
    ensures out == TrimAll(Pieces(args))
    ensures |out| == 1 + SplittingCommas(args, Outside)
    ensures forall k :: 0 <= k < |out| ==> Trim(out[k]) == out[k]
  {
    out := [];
    var curr := "";
    ghost var raw: seq<string> := [];
    var i := 0;
    OntoEmpty(Pieces(args));
    while i < |args|
      invariant 0 <= i <= |args|
      invariant out == TrimAll(raw)
      invariant raw + Onto(curr, Pieces(args[i..])) == Pieces(args)
    {
      var c := args[i];
      if c == ',' {
        PiecesComma(args, i);
        CommaStep(raw, curr, Pieces(args[i + 1..]), Pieces(args));
        TrimAllSnoc(raw, curr);
        out := out + [Trim(curr)];
        raw := raw + [curr];
        curr := "";
        i := i + 1;
      } else if c == '"' {
        var span, j := CopyQuoted(args, i + 1);
        PiecesQuote(args, i, span, j);
        GlueStep(raw, curr, "\"" + span, Pieces(args[j..]), Pieces(args));
        curr := curr + ("\"" + span);
        i := j;
      } else if c == '(' {
        var span, j := CopyParenthesised(args, i + 1);
        PiecesParen(args, i, span, j);
        GlueStep(raw, curr, "(" + span, Pieces(args[j..]), Pieces(args));
        curr := curr + ("(" + span);
        i := j;
      } else {
        PiecesOther(args, i);
        GlueStep(raw, curr, [c], Pieces(args[i + 1..]), Pieces(args));
        curr := curr + [c];
        i := i + 1;
      }
    }
    TrimAllSnoc(raw, curr);
    out := out + [Trim(curr)];
    FinalStep(raw, curr, args, i);
    raw := raw + [curr];
    PiecesCount(args);
    TrimAllTrimmed(raw);
  }

  lemma {:induction false} PiecesComma(args: string, i: nat)
    requires i < |args| && args[i] == ','
    ensures Pieces(args[i..]) == [""] + Pieces(args[i + 1..])
  {
    assert args[i..][1..] == args[i + 1..];
  }

  lemma {:induction false} PiecesQuote(args: string, i: nat, span: string, j: nat)
    requires i < |args| && args[i] == '"' && j <= |args|
    requires span == QuotedSpan(args[i + 1..]).0 && args[j..] == QuotedSpan(args[i + 1..]).1
    ensures Pieces(args[i..]) == Onto("\"" + span, Pieces(args[j..]))
  {
    assert args[i..][1..] == args[i + 1..];
  }

  lemma {:induction false} PiecesParen(args: string, i: nat, span: string, j: nat)
    requires i < |args| && args[i] == '(' && j <= |args|
    requires span == ParenSpan(args[i + 1..]).0 && args[j..] == ParenSpan(args[i + 1..]).1
    ensures Pieces(args[i..]) == Onto("(" + span, Pieces(args[j..]))
  {
    assert args[i..][1..] == args[i + 1..];
  }

  lemma {:induction false} PiecesOther(args: string, i: nat)
    requires i < |args| && args[i] !in ",\"("
    ensures Pieces(args[i..]) == Onto([args[i]], Pieces(args[i + 1..]))
  {
    assert args[i..][1..] == args[i + 1..];
  }

  lemma {:induction false} CommaStep(raw: seq<string>, curr: string, ps: seq<string>, all: seq<string>)
    requires |ps| >= 1
    requires raw + Onto(curr, [""] + ps) == all
    ensures (raw + [curr]) + Onto("", ps) == all
  {
    assert curr + "" == curr;
    assert "" + ps[0] == ps[0];
    assert ([""] + ps)[1..] == ps;
    assert Onto("", ps) == ps;
  }

  lemma {:induction false} GlueStep(raw: seq<string>, curr: string, p: string, ps: seq<string>, all: seq<string>)
    requires |ps| >= 1
    requires raw + Onto(curr, Onto(p, ps)) == all
    ensures raw + Onto(curr + p, ps) == all
  {
    OntoOnto(curr, p, ps);
  }

  lemma {:induction false} FinalStep(raw: seq<string>, curr: string, args: string, i: nat)
    requires i == |args|
    requires raw + Onto(curr, Pieces(args[i..])) == Pieces(args)
    ensures raw + [curr] == Pieces(args)
  {
    assert args[i..] == [];
    assert curr + "" == curr;
    assert Onto(curr, [""]) == [curr];
  }

  lemma {:induction false} TrimAllSnoc(ps: seq<string>, p: string)
    ensures TrimAll(ps + [p]) == TrimAll(ps) + [Trim(p)]
  {
    var a := TrimAll(ps + [p]);
    var b := TrimAll(ps) + [Trim(p)];
    forall k | 0 <= k < |a| ensures a[k] == b[k] {
      if k < |ps| {
        assert (ps + [p])[k] == ps[k];
      }
    }
  }

  /** The inner loop of splitArgs over a quoted span that starts at `i`,
      just after its opening quote. */
  method CopyQuoted(args: string, i: nat) returns (span: string, j: nat)
    requires i <= |args|
    ensures j <= |args|
    ensures span == QuotedSpan(args[i..]).0 && args[j..] == QuotedSpan(args[i..]).1
  {
    span := "";
    j := i;
    assert span + QuotedSpan(args[j..]).0 == QuotedSpan(args[j..]).0;
    while j < |args|
      invariant i <= j <= |args|
      invariant QuotedSpan(args[i..]) == (span + QuotedSpan(args[j..]).0, QuotedSpan(args[j..]).1)
    {
      var next := args[j];
      if next == '\\' {
        if j + 1 < |args| {
          QuotedEscapeAt(args, j);
          ReadOn(QuotedSpan(args[i..]), span, [next, args[j + 1]], QuotedSpan(args[j + 2..]));
          span := span + [next, args[j + 1]];
          j := j + 2;
        } else {
          // the character after the backslash is `undefined`
          QuotedBackslashAtEnd(args, j);
          ghost var read := span;
          span := span + [next] + "undefined";
          j := |args|;
          assert span + QuotedSpan(args[j..]).0 == read + "\\undefined" by {
            assert args[j..] == [];
            assert span == read + "\\undefined";
          }
        }
      } else if next == '"' {
        QuotedCloseAt(args, j);
        span := span + [next];
        j := j + 1;
        return;
      } else {
        QuotedCharAt(args, j);
        ReadOn(QuotedSpan(args[i..]), span, [next], QuotedSpan(args[j + 1..]));
        span := span + [next];
        j := j + 1;
      }
    }
  }

  lemma {:induction false} QuotedEscapeAt(args: string, j: nat)
    requires j + 1 < |args| && args[j] == '\\'
    ensures QuotedSpan(args[j..]) == ([args[j], args[j + 1]] + QuotedSpan(args[j + 2..]).0, QuotedSpan(args[j + 2..]).1)
  {
    assert args[j..][2..] == args[j + 2..];
  }

  lemma {:induction false} QuotedBackslashAtEnd(args: string, j: nat)
    requires j + 1 == |args| && args[j] == '\\'
    ensures QuotedSpan(args[j..]) == ("\\undefined", [])
  {
    assert args[j..] == [args[j]];
  }

  lemma {:induction false} QuotedCloseAt(args: string, j: nat)
    requires j < |args| && args[j] == '"'
    ensures QuotedSpan(args[j..]) == ("\"", args[j + 1..])
  {
    assert args[j..][1..] == args[j + 1..];
  }

  lemma {:induction false} QuotedCharAt(args: string, j: nat)
    requires j < |args| && args[j] != '\\' && args[j] != '"'
    ensures QuotedSpan(args[j..]) == ([args[j]] + QuotedSpan(args[j + 1..]).0, QuotedSpan(args[j + 1..]).1)
  {
    assert args[j..][1..] == args[j + 1..];
  }

  /** The inner loop of splitArgs over a parenthesised span that starts at
      `i`, just after its `(`. */
  method CopyParenthesised(args: string, i: nat) returns (span: string, j: nat)
    requires i <= |args|
    ensures j <= |args|
    ensures span == ParenSpan(args[i..]).0 && args[j..] == ParenSpan(args[i..]).1
  {
    span := "";
    j := i;
    assert span + ParenSpan(args[j..]).0 == ParenSpan(args[j..]).0;
    while j < |args|
      invariant i <= j <= |args|
      invariant ParenSpan(args[i..]) == (span + ParenSpan(args[j..]).0, ParenSpan(args[j..]).1)
    {
      var next := args[j];
      assert args[j..][1..] == args[j + 1..];
      ghost var s0 := span;
      span := span + [next];
      j := j + 1;
      if next == ')' {
        return;
      }
      assert s0 + ([next] + ParenSpan(args[j..]).0) == span + ParenSpan(args[j..]).0;
    }
  }

  lemma {:induction false} OntoEmpty(ps: seq<string>)
    requires |ps| >= 1
    ensures Onto("", ps) == ps
  {
    assert "" + ps[0] == ps[0];
  }

  lemma {:induction false} TrimAllTrimmed(ps: seq<string>)
    ensures forall k :: 0 <= k < |ps| ==> Trim(TrimAll(ps)[k]) == TrimAll(ps)[k]
  {
    forall k | 0 <= k < |ps| ensures Trim(TrimAll(ps)[k]) == TrimAll(ps)[k] {
      TrimIdempotent(ps[k]);
    }
  }

  lemma {:induction false} OntoOnto(a: string, b: string, ps: seq<string>)
    requires |ps| >= 1
    ensures Onto(a, Onto(b, ps)) == Onto(a + b, ps)
  {
    assert a + (b + ps[0]) == a + b + ps[0];
  }

  // ---------------------------------------------------------------- properties

  lemma {:induction false} QuotedSpanCommas(t: string)
    ensures SplittingCommas(t, InQuote) == SplittingCommas(QuotedSpan(t).1, Outside)
    decreases |t|
  {
    if t == [] {
    } else if t[0] == '\\' {
      if |t| > 1 {
        assert t[1..][1..] == t[2..];
        QuotedSpanCommas(t[2..]);
      }
    } else if t[0] != '"' {
      QuotedSpanCommas(t[1..]);
    }
  }

  lemma {:induction false} ParenSpanCommas(t: string)
    ensures SplittingCommas(t, InParen) == SplittingCommas(ParenSpan(t).1, Outside)
    decreases |t|
  {
    if t != [] && t[0] != ')' {
      ParenSpanCommas(t[1..]);
    }
  }

  /** splitArgs returns exactly one more argument than there are commas
      outside quoted and parenthesised spans. */
  lemma {:induction false} PiecesCount(s: string)
    ensures |Pieces(s)| == 1 + SplittingCommas(s, Outside)
    decreases |s|
  {
    if s == [] {
    } else if s[0] == ',' {
      PiecesCount(s[1..]);
    } else if s[0] == '"' {
      QuotedSpanCommas(s[1..]);
      PiecesCount(QuotedSpan(s[1..]).1);
    } else if s[0] == '(' {
      ParenSpanCommas(s[1..]);
      PiecesCount(ParenSpan(s[1..]).1);
    } else {
      PiecesCount(s[1..]);
    }
  }

  lemma {:induction false} QuotedSpanJoin(t: string)
    requires ModeAfter(t, InQuote) != Escaped
    ensures QuotedSpan(t).0 + QuotedSpan(t).1 == t
    decreases |t|
  {
    if t == [] {
    } else if t[0] == '\\' {
      assert ModeAfter(t, InQuote) == ModeAfter(t[1..], Escaped);
      if |t| > 1 {
        var u := t[2..];
        assert t[1..][1..] == u;
        assert ModeAfter(t[1..], Escaped) == ModeAfter(u, InQuote);
        QuotedSpanJoin(u);
        var (span, rest) := QuotedSpan(u);
        assert QuotedSpan(t) == ([t[0], t[1]] + span, rest);
        assert t == [t[0], t[1]] + u;
      }
    } else if t[0] != '"' {
      var u := t[1..];
      assert ModeAfter(t, InQuote) == ModeAfter(u, InQuote);
      QuotedSpanJoin(u);
      var (span, rest) := QuotedSpan(u);
      assert QuotedSpan(t) == ([t[0]] + span, rest);
      assert t == [t[0]] + u;
    } else {
      assert t == [t[0]] + t[1..];
    }
  }

  lemma {:induction false} QuotedSpanMode(t: string)
    ensures var rest := QuotedSpan(t).1;
      rest == [] || ModeAfter(t, InQuote) == ModeAfter(rest, Outside)
    decreases |t|
  {
    if t == [] {
    } else if t[0] == '\\' {
      if |t| > 1 {
        assert t[1..][1..] == t[2..];
        assert ModeAfter(t, InQuote) == ModeAfter(t[2..], InQuote);
        QuotedSpanMode(t[2..]);
      }
    } else if t[0] != '"' {
      QuotedSpanMode(t[1..]);
    }
  }

  lemma {:induction false} ParenSpanMode(t: string)
    ensures var rest := ParenSpan(t).1;
      rest == [] || ModeAfter(t, InParen) == ModeAfter(rest, Outside)
    decreases |t|
  {
    if t != [] && t[0] != ')' {
      ParenSpanMode(t[1..]);
    }
  }

  /** Unless the input ends on a backslash inside a quoted span, the
      untrimmed arguments joined with commas give back the argument string:
      splitArgs only ever cuts at a comma and drops nothing else. */
  lemma {:induction false} PiecesJoin(s: string)
    requires ModeAfter(s, Outside) != Escaped
    ensures JoinWith(Pieces(s), ",") == s
    decreases |s|
  {
    if s == [] {
    } else if s[0] == ',' {
      assert ModeAfter(s, Outside) == ModeAfter(s[1..], Outside);
      PiecesJoin(s[1..]);
      CommaJoin(s);
    } else if s[0] == '"' {
      var rest := QuotedSpan(s[1..]).1;
      assert ModeAfter(s, Outside) == ModeAfter(s[1..], InQuote);
      QuotedSpanMode(s[1..]);
      PiecesJoin(rest);
      QuoteJoin(s);
    } else if s[0] == '(' {
      var rest := ParenSpan(s[1..]).1;
      assert ModeAfter(s, Outside) == ModeAfter(s[1..], InParen);
      ParenSpanMode(s[1..]);
      PiecesJoin(rest);
      ParenJoin(s);
    } else {
      assert ModeAfter(s, Outside) == ModeAfter(s[1..], Outside);
      PiecesJoin(s[1..]);
      OntoJoin([s[0]], "", s[1..]);
      assert s == [s[0]] + s[1..];
    }
  }

  lemma {:induction false} CommaJoin(s: string)
    requires s != [] && s[0] == ','
    requires JoinWith(Pieces(s[1..]), ",") == s[1..]
    ensures JoinWith(Pieces(s), ",") == s
  {
    var ps := Pieces(s[1..]);
    assert Pieces(s) == [""] + ps;
    JoinOntoFirst(",", [""] + ps, ",");
    assert ([""] + ps)[1..] == ps;
    assert s == [','] + s[1..];
  }

  lemma {:induction false} QuoteJoin(s: string)
    requires s != [] && s[0] == '"'
    requires ModeAfter(s[1..], InQuote) != Escaped
    requires JoinWith(Pieces(QuotedSpan(s[1..]).1), ",") == QuotedSpan(s[1..]).1
    ensures JoinWith(Pieces(s), ",") == s
  {
    var (span, rest) := QuotedSpan(s[1..]);
    PiecesOfQuote(s);
    QuotedSpanJoin(s[1..]);
    Reopen(s, span, rest);
    SpanJoin(s, "\"" + span, rest, Pieces(rest));
  }

  lemma {:induction false} PiecesOfQuote(s: string)
    requires s != [] && s[0] == '"'
    ensures Pieces(s) == Onto("\"" + QuotedSpan(s[1..]).0, Pieces(QuotedSpan(s[1..]).1))
  {
  }

  lemma {:induction false} ParenJoin(s: string)
    requires s != [] && s[0] == '('
    requires JoinWith(Pieces(ParenSpan(s[1..]).1), ",") == ParenSpan(s[1..]).1
    ensures JoinWith(Pieces(s), ",") == s
  {
    var (span, rest) := ParenSpan(s[1..]);
    PiecesOfParen(s);
    ParenSpanSplits(s[1..]);
    Reopen(s, span, rest);
    SpanJoin(s, "(" + span, rest, Pieces(rest));
  }

  lemma {:induction false} PiecesOfParen(s: string)
    requires s != [] && s[0] == '('
    ensures Pieces(s) == Onto("(" + ParenSpan(s[1..]).0, Pieces(ParenSpan(s[1..]).1))
  {
  }

  /** Putting back the first character in front of the rest of `s`. */
  lemma {:induction false} Reopen(s: string, span: string, rest: string)
    requires s != [] && span + rest == s[1..]
    ensures [s[0]] + span + rest == s
  {
    assert s == [s[0]] + s[1..];
  }

  lemma {:induction false} SpanJoin(s: string, head: string, rest: string, ps: seq<string>)
    requires |ps| >= 1 && JoinWith(ps, ",") == rest && head + rest == s
    ensures JoinWith(Onto(head, ps), ",") == s
  {
    JoinOntoFirst(head, ps, ",");
  }

  lemma {:induction false} ParenSpanSplits(t: string)
    ensures ParenSpan(t).0 + ParenSpan(t).1 == t
  {
    ParenSpanShape(t);
  }

  lemma {:induction false} OntoJoin(open: string, span: string, rest: string)
    requires JoinWith(Pieces(rest), ",") == rest
    ensures JoinWith(Onto(open + span, Pieces(rest)), ",") == open + span + rest
  {
    JoinOntoFirst(open + span, Pieces(rest), ",");
  }
}

=== FILE: lines.dfy ===
/** parseLines: from the source lines to one parsed `Line` per statement.
    Every line is trimmed; a blank line or one starting with `#` is dropped;
    the rest is cut into a lower-cased command and its argument strings, and
    every non-empty argument string is tokenized and parsed into a tree. */
module Lines {
  import opened Base
  import opened Text
  import opened Syntax
  import opened Lexer
  import opened Tokenizer
  import opened ExprParser

  /** A line that is blank or a comment once trimmed. */
  predicate Skipped(text: string)
  {
    var t := Trim(text);
    t == [] || t[0] == '#'
  }

  /** One argument string: its tokens, then the tree parseTokens reads from
      them (the count of queue entries it used is dropped). */
  function ArgTree(arg: string, line: nat, argnum: nat): Result<Node, Error>
  {
    match Tokenize(arg)
    case Err(c) => Err(AtArgument(line, argnum, UnexpectedCharacter(c)))
    case Ok(ts) =>
      match Parse(ts, line, argnum)
      case Err(e) => Err(e)
      case Ok((n, _)) => Ok(n)
  }

  /** The trees of the first `k` argument strings, the empty ones skipped,
      each numbered by its position among all of them. */
  function ArgTrees(args: seq<string>, line: nat, k: nat): Result<seq<Node>, Error>
    requires k <= |args|
  {
    if k == 0 then Ok([])
    else
      match ArgTrees(args, line, k - 1)
      case Err(e) => Err(e)
      case Ok(ns) =>
        if args[k - 1] == "" then Ok(ns)
        else
          match ArgTree(args[k - 1], line, k - 1)
          case Err(e) => Err(e)
          case Ok(n) => Ok(ns + [n])
  }

  /** The statement of one source line numbered `line`, or nothing for a
      skipped line. */
  function ParseLine(text: string, line: nat): Result<Option<Line>, Error>
  {
    if Skipped(text) then Ok(None)
    else
      var (command, argString) := SplitLine(Trim(text));
      var args := TrimAll(Pieces(argString));
      match ArgTrees(args, line, |args|)
      case Err(e) => Err(e)
      case Ok(nodes) => Ok(Some(Line(line, ToLower(command), nodes)))
  }

  /** The statements of the first `n` source lines, numbered from 1. */
  function ParseUpTo(lines: seq<string>, n: nat): Result<seq<Line>, Error>
    requires n <= |lines|
  {
    if n == 0 then Ok([])
    else
      match ParseUpTo(lines, n - 1)
      case Err(e) => Err(e)
      case Ok(ls) =>
        match ParseLine(lines[n - 1], n)
        case Err(e) => Err(e)
        case Ok(None) => Ok(ls)
        case Ok(Some(l)) => Ok(ls + [l])
  }

  // ---------------------------------------------------------------- the loops

  /** parseLines. */
  method ParseLines(lines: seq<string>) returns (r: Result<seq<Line>, Error>)
    ensures r == ParseUpTo(lines, |lines|)
  {
    var out: seq<Line> := [];
    var line := 0;
    while line < |lines|
      invariant 0 <= line <= |lines|
      invariant ParseUpTo(lines, line) == Ok(out)
    {
      var parsed := ParseOneLine(lines[line], line + 1);
      LineStep(lines, line + 1, out);
      if parsed.Err? {
        return Err(parsed.error);
      }
      if parsed.value.Some? {
        out := out + [parsed.value.value];
      }
      line := line + 1;
    }
    return Ok(out);
  }

  /** The body of parseLines' loop for one line. */
  method ParseOneLine(text: string, line: nat) returns (r: Result<Option<Line>, Error>)
    ensures r == ParseLine(text, line)
  {
    var lineText := Trim(text);
    if lineText == [] || lineText[0] == '#' {
      return Ok(None);
    }
    var (command, argString) := SplitLine(lineText);
    var args := SplitArgs(argString);
    var nodes := ArgNodes(args, line);
    if nodes.Err? {
      return Err(nodes.error);
    }
    return Ok(Some(Line(line, ToLower(command), nodes.value)));
  }

  /** parseLines' `args.forEach`: tokenize and parse every non-empty
      argument string, stopping at the first error. */
  method ArgNodes(args: seq<string>, line: nat) returns (r: Result<seq<Node>, Error>)
    ensures r == ArgTrees(args, line, |args|)
  {
    var nodes: seq<Node> := [];
    for argnum := 0 to |args|
      invariant ArgTrees(args, line, argnum) == Ok(nodes)
    {
      if args[argnum] != "" {
        var node := ArgNode(args[argnum], line, argnum);
        if node.Err? {
          ArgFails(args, line, argnum, nodes, node.error);
          return Err(node.error);
        }
        ArgKept(args, line, argnum, nodes, node.value);
        nodes := nodes + [node.value];
      } else {
        ArgSkipped(args, line, argnum, nodes);
      }
    }
    return Ok(nodes);
  }

  /** The body of the `forEach` for one non-empty argument string. */
  method ArgNode(arg: string, line: nat, argnum: nat) returns (r: Result<Node, Error>)
    ensures r == ArgTree(arg, line, argnum)
  {
    var tokens := TokenizeArg(arg, line, argnum);
    if tokens.Err? {
      return Err(tokens.error);
    }
    var parsed := ParseTokens(tokens.value, line, argnum);
    if parsed.Err? {
      return Err(parsed.error);
    }
    return Ok(parsed.value.0);
  }

  /** One more line of parseLines' loop. */
  lemma {:induction false} LineStep(lines: seq<string>, n: nat, out: seq<Line>)
    requires 0 < n <= |lines| && ParseUpTo(lines, n - 1) == Ok(out)
    ensures var p := ParseLine(lines[n - 1], n);
      && (p.Err? ==> ParseUpTo(lines, |lines|) == Err(p.error))
      && (p == Ok(None) ==> ParseUpTo(lines, n) == Ok(out))
      && (p.Ok? && p.value.Some? ==> ParseUpTo(lines, n) == Ok(out + [p.value.value]))
  {
    if ParseLine(lines[n - 1], n).Err? {
      ParseErrorStays(lines, n, |lines|);
    }
  }

  /** One more argument string of the `forEach`: an empty one is skipped. */
  lemma {:induction false} ArgSkipped(args: seq<string>, line: nat, k: nat, nodes: seq<Node>)
    requires k < |args| && ArgTrees(args, line, k) == Ok(nodes) && args[k] == ""
    ensures ArgTrees(args, line, k + 1) == Ok(nodes)
  {
  }

  /** One more argument string of the `forEach`: its tree is appended. */
  lemma {:induction false} ArgKept(args: seq<string>, line: nat, k: nat, nodes: seq<Node>, n: Node)
    requires k < |args| && ArgTrees(args, line, k) == Ok(nodes) && args[k] != ""
    requires ArgTree(args[k], line, k) == Ok(n)
    ensures ArgTrees(args, line, k + 1) == Ok(nodes + [n])
  {
  }

  /** One more argument string of the `forEach`: its error is the result. */
  lemma {:induction false} ArgFails(args: seq<string>, line: nat, k: nat, nodes: seq<Node>, e: Error)
    requires k < |args| && ArgTrees(args, line, k) == Ok(nodes) && args[k] != ""
    requires ArgTree(args[k], line, k) == Err(e)
    ensures ArgTrees(args, line, |args|) == Err(e)
  {
    ArgFailsHere(args, line, k, nodes, e);
    ArgErrorStays(args, line, k + 1, |args|);
  }

  /** The failing argument string's error is the error of the arguments up
      to and including it. */
  lemma {:induction false} ArgFailsHere(args: seq<string>, line: nat, k: nat, nodes: seq<Node>, e: Error)
    requires k < |args| && ArgTrees(args, line, k) == Ok(nodes) && args[k] != ""
    requires ArgTree(args[k], line, k) == Err(e)
    ensures ArgTrees(args, line, k + 1) == Err(e)
  {
  }

  lemma {:induction false} ParseErrorStays(lines: seq<string>, k: nat, m: nat)
    requires k <= m <= |lines| && ParseUpTo(lines, k).Err?
    ensures ParseUpTo(lines, m) == ParseUpTo(lines, k)
    decreases m
  {
    if m > k {
      ParseErrorStays(lines, k, m - 1);
    }
  }

  lemma {:induction false} ArgErrorStays(args: seq<string>, line: nat, k: nat, m: nat)
    requires k <= m <= |args| && ArgTrees(args, line, k).Err?
    ensures ArgTrees(args, line, m) == ArgTrees(args, line, k)
    decreases m
  {
    if m > k {
      ArgErrorStays(args, line, k, m - 1);
    }
  }

  // ---------------------------------------------------------------- properties

  /** The number of lines among the first `n` that are not skipped. */
  function KeptCount(lines: seq<string>, n: nat): nat
    requires n <= |lines|
  {
    if n == 0 then 0 else KeptCount(lines, n - 1) + (if Skipped(lines[n - 1]) then 0 else 1)
  }

  /** What a parsed statement of the first `n` lines looks like: its 1-based
      number is at most `n` and names a line that is not skipped, and its
      command is lower case without a space. */
  predicate StatementOf(lines: seq<string>, n: nat, l: Line)
    requires n <= |lines|
  {
    1 <= l.line <= n && !Skipped(lines[l.line - 1])
    && ' ' !in l.command
    && (forall c :: c in l.command ==> !IsUpper(c))
  }

  predicate StatementsOf(lines: seq<string>, n: nat, ls: seq<Line>)
    requires n <= |lines|
  {
    forall j :: 0 <= j < |ls| ==> StatementOf(lines, n, ls[j])
  }

  /** Line numbers strictly increase. */
  predicate Increasing(ls: seq<Line>)
  {
    forall i, j :: 0 <= i < j < |ls| ==> ls[i].line < ls[j].line
  }

  /** Statements come out one per kept line, in line order: the line
      numbers strictly increase, each names a kept line, and there are as
      many statements as kept lines, so every kept line gets exactly one. */
  lemma {:induction false} ParsedStatements(lines: seq<string>, n: nat)
    requires n <= |lines| && ParseUpTo(lines, n).Ok?
    ensures StatementsOf(lines, n, ParseUpTo(lines, n).value)
    ensures Increasing(ParseUpTo(lines, n).value)
    ensures |ParseUpTo(lines, n).value| == KeptCount(lines, n)
  {
    if n > 0 {
      var ls, p := UpToStep(lines, n);
      ParsedStatements(lines, n - 1);
      StatementsStep(lines, n, ls, p, ParseUpTo(lines, n).value);
    }
  }

  /** A successful parse of `n` lines as the parse of `n - 1` lines and the
      outcome of line `n`, with what that outcome says about the line. */
  lemma {:induction false} UpToStep(lines: seq<string>, n: nat) returns (ls: seq<Line>, p: Option<Line>)
    requires 0 < n <= |lines| && ParseUpTo(lines, n).Ok?
    ensures ParseUpTo(lines, n - 1) == Ok(ls)
    ensures ParseUpTo(lines, n).value == if p.Some? then ls + [p.value] else ls
    ensures p.None? <==> Skipped(lines[n - 1])
    ensures p.Some? ==> p.value.line == n && ' ' !in p.value.command
                        && forall c :: c in p.value.command ==> !IsUpper(c)
  {
    PrefixParsed(lines, n);
    ls := ParseUpTo(lines, n - 1).value;
    p := ParseLine(lines[n - 1], n).value;
    LineStep(lines, n, ls);
    if p.Some? {
      StatementOfLine(lines[n - 1], n);
    }
  }

  /** The induction step of ParsedStatements, on the statements alone. */
  lemma {:induction false} StatementsStep(lines: seq<string>, n: nat, ls: seq<Line>, p: Option<Line>, all: seq<Line>)
    requires 0 < n <= |lines|
    requires StatementsOf(lines, n - 1, ls) && Increasing(ls) && |ls| == KeptCount(lines, n - 1)
    requires p.None? <==> Skipped(lines[n - 1])
    requires p.Some? ==> p.value.line == n && ' ' !in p.value.command
                         && forall c :: c in p.value.command ==> !IsUpper(c)
    requires all == if p.Some? then ls + [p.value] else ls
    ensures StatementsOf(lines, n, all) && Increasing(all) && |all| == KeptCount(lines, n)
  {
    if p.Some? {
      OneMoreStatement(lines, n, ls, p.value);
    } else {
      StatementsGrow(lines, n, ls);
    }
  }

  /** A successful parse of `n` lines is one of `n - 1` lines followed by a
      successful line, which is kept exactly when it produces a statement. */
  lemma {:induction false} PrefixParsed(lines: seq<string>, n: nat)
    requires 0 < n <= |lines| && ParseUpTo(lines, n).Ok?
    ensures ParseUpTo(lines, n - 1).Ok? && ParseLine(lines[n - 1], n).Ok?
    ensures ParseLine(lines[n - 1], n).value.None? <==> Skipped(lines[n - 1])
  {
  }

  /** The statement a line produces. */
  lemma {:induction false} StatementOfLine(text: string, line: nat)
    requires ParseLine(text, line).Ok? && ParseLine(text, line).value.Some?
    ensures ParseLine(text, line).value.value.line == line && !Skipped(text)
    ensures ' ' !in ParseLine(text, line).value.value.command
    ensures forall c :: c in ParseLine(text, line).value.value.command ==> !IsUpper(c)
  {
    var (command, _) := SplitLine(Trim(text));
    LowerKeepsNoSpace(command);
  }

  lemma {:induction false} StatementsGrow(lines: seq<string>, n: nat, ls: seq<Line>)
    requires 0 < n <= |lines| && StatementsOf(lines, n - 1, ls)
    ensures StatementsOf(lines, n, ls)
  {
    forall j | 0 <= j < |ls| ensures StatementOf(lines, n, ls[j]) {
      assert StatementOf(lines, n - 1, ls[j]);
    }
  }

  lemma {:induction false} OneMoreStatement(lines: seq<string>, n: nat, ls: seq<Line>, l: Line)
    requires 0 < n <= |lines|
    requires StatementsOf(lines, n - 1, ls) && Increasing(ls)
    requires l.line == n && StatementOf(lines, n, l)
    ensures StatementsOf(lines, n, ls + [l])
    ensures Increasing(ls + [l])
  {
    var all := ls + [l];
    StatementsGrow(lines, n, ls);
    forall j | 0 <= j < |all| ensures StatementOf(lines, n, all[j]) {
      if j < |ls| {
        assert all[j] == ls[j];
      }
    }
    forall i, j | 0 <= i < j < |all| ensures all[i].line < all[j].line {
      assert all[i] == ls[i];
      if j < |ls| {
        assert all[j] == ls[j];
      } else {
        assert StatementOf(lines, n - 1, ls[i]);
      }
    }
  }

  lemma {:induction false} LowerKeepsNoSpace(s: string)
    requires ' ' !in s
    ensures ' ' !in ToLower(s)
    ensures forall c :: c in ToLower(s) ==> !IsUpper(c)
  {
    var r := ToLower(s);
    forall k | 0 <= k < |r| ensures r[k] != ' ' {
      assert s[k] != ' ';
    }
  }

  /** The argument trees of a statement: one per non-empty argument string,
      each well formed (operators at the branches, operands at the leaves). */
  lemma {:induction false} ArgTreesShape(args: seq<string>, line: nat, k: nat)
    requires k <= |args| && ArgTrees(args, line, k).Ok?
    ensures |ArgTrees(args, line, k).value| == |set a | 0 <= a < k && args[a] != ""|
    ensures forall j :: 0 <= j < |ArgTrees(args, line, k).value| ==> WellFormed(ArgTrees(args, line, k).value[j])
  {
    if k > 0 {
      ArgTreesShape(args, line, k - 1);
      NonEmptyStep(args, k);
      var ns := ArgTrees(args, line, k - 1).value;
      if args[k - 1] == "" {
        ArgSkipped(args, line, k - 1, ns);
      } else {
        var n := ArgTree(args[k - 1], line, k - 1).value;
        ArgKept(args, line, k - 1, ns, n);
        ArgTreeWellFormed(args[k - 1], line, k - 1);
        assert forall j :: 0 <= j < |ns| ==> (ns + [n])[j] == ns[j];
      }
    }
  }

  /** The positions of the non-empty argument strings among the first `k`. */
  lemma {:induction false} NonEmptyStep(args: seq<string>, k: nat)
    requires 0 < k <= |args|
    ensures |set a | 0 <= a < k && args[a] != ""|
         == |set a | 0 <= a < k - 1 && args[a] != ""| + (if args[k - 1] == "" then 0 else 1)
  {
    var before := set a | 0 <= a < k - 1 && args[a] != "";
    var now := set a | 0 <= a < k && args[a] != "";
    if args[k - 1] == "" {
      assert now == before;
    } else {
      assert now == before + {k - 1};
    }
  }

  /** The tree of one argument string is well formed. */
  lemma {:induction false} ArgTreeWellFormed(arg: string, line: nat, argnum: nat)
    requires ArgTree(arg, line, argnum).Ok?
    ensures WellFormed(ArgTree(arg, line, argnum).value)
  {
    var ts := Tokenize(arg).value;
    var q := OutputQueue(ts).value;
    ParseNodeReads(q, 0);
  }
}

=== FILE: literals.dfy ===
/** Literals written back as argument text: a number or string literal,
    rendered as source text, tokenized, parsed and evaluated, is the value
    it was written from. */
module Literals {
  import opened Base
  import opened Text
  import opened Syntax
  import opened Tokenizer
  import opened ExprParser
  import opened Eval
  import Lines

  /** A string without backslashes, written as a quoted literal (quote, line
      feed and tab escaped), reads back as the string. */
  lemma {:induction false} StringLiteralRoundTrip(s: string, vars: Vars, line: nat, argnum: nat)
    requires '\\' !in s
    ensures var ts := Tokenize(Render([Token(s, String)]));
      && ts == Ok([Token(s, String)])
      && Parse(ts.value, line, argnum) == Ok((Leaf(Token(s, String)), 1))
      && Evaluate(Parse(ts.value, line, argnum).value.0, vars, line, argnum) == Ok(Str(s))
    ensures Lines.ArgTree(Render([Token(s, String)]), line, argnum) == Ok(Leaf(Token(s, String)))
  {
    var t := Token(s, String);
    RenderTokenize([t]);
    OneOperand(t, line, argnum);
  }

  /** A natural number, written in decimal, reads back as the number. */
  lemma {:induction false} NumberLiteralRoundTrip(n: nat, vars: Vars, line: nat, argnum: nat)
    ensures var ts := Tokenize(Render([Token(NatToString(n), Number)]));
      && ts == Ok([Token(NatToString(n), Number)])
      && Parse(ts.value, line, argnum) == Ok((Leaf(Token(NatToString(n), Number)), 1))
      && Evaluate(Parse(ts.value, line, argnum).value.0, vars, line, argnum) == Ok(Num(n))
    ensures Lines.ArgTree(Render([Token(NatToString(n), Number)]), line, argnum)
      == Ok(Leaf(Token(NatToString(n), Number)))
  {
    var t := Token(NatToString(n), Number);
    assert Renderable(t);
    RenderTokenize([t]);
    OneOperand(t, line, argnum);
  }
}

=== FILE: syntax.dfy ===
/** The values the front end produces: tokens, expression trees, parsed
    lines and the block tree the executor walks. */
module Syntax {

  datatype Kind = Variable | Number | Operator | String

  /** A token and its text: a variable name without the `$`, a digit string,
      one operator character, or the decoded contents of a string literal. */
  datatype Token = Token(value: string, kind: Kind)

  /** An expression tree (TreeNode). The source keeps the two children in an
      optional pair; `Branch` is a node that has them. */
  datatype Node =
    | Leaf(token: Token)
    | Branch(token: Token, left: Node, right: Node)

  /** One non-blank, non-comment source line: its 1-based number, its
      lower-cased command and one expression tree per non-empty argument. */
  datatype Line = Line(line: nat, command: string, args: seq<Node>)

  /** A statement of the block tree (AstNode); `Block` is a statement that
      carries `children`. */
  datatype AstNode =
    | Stmt(stmt: Line)
    | Block(stmt: Line, children: seq<AstNode>)

  /** BLOCK_DECS: the commands that open a block. */
  predicate IsBlockDec(command: string)
  {
    command in ["foreach", "function", "if", "elif", "else"]
  }

  /** COND_BLOCKS: the commands that open a conditional chain. */
  predicate IsCondBlock(command: string)
  {
    command in ["if", "elif"]
  }

  predicate IsOperand(t: Token) { t.kind != Operator }

  predicate IsOp(t: Token, op: string) { t.kind == Operator && t.value == op }

  /** The four operators the expression parser places in its output queue. */
  predicate IsArith(t: Token)
  {
    t.kind == Operator && t.value in ["+", "-", "*", "/"]
  }

  /** Operators label branches and everything else labels leaves. */
  predicate WellFormed(n: Node)
  {
    match n
    case Leaf(t) => IsOperand(t)
    case Branch(t, l, r) => t.kind == Operator && WellFormed(l) && WellFormed(r)
  }

  function NodeCount(n: Node): nat
  {
    match n
    case Leaf(_) => 1
    case Branch(_, l, r) => 1 + NodeCount(l) + NodeCount(r)
  }

  /** The tokens of a tree in prefix order (node, left, right). */
  function Prefix(n: Node): (r: seq<Token>)
    ensures |r| == NodeCount(n)
  {
    match n
    case Leaf(t) => [t]
    case Branch(t, l, r) => [t] + Prefix(l) + Prefix(r)
  }

  /** The tokens of a tree in postfix order (left, right, node). */
  function Postfix(n: Node): (r: seq<Token>)
    ensures |r| == NodeCount(n)
  {
    match n
    case Leaf(t) => [t]
    case Branch(t, l, r) => Postfix(l) + Postfix(r) + [t]
  }

  /** The tree with the two children of every branch swapped. */
  function Mirror(n: Node): Node
  {
    match n
    case Leaf(_) => n
    case Branch(t, l, r) => Branch(t, Mirror(r), Mirror(l))
  }
}

=== FILE: text.dfy ===
/** The JavaScript string operations the interpreter relies on, over ASCII:
    character classes, `trim`, `toLowerCase`, `split` and `join` with a string
    separator, and the decimal forms of integers (`parseInt`, `toString`). */
module Text {

  /** Whitespace as `String.prototype.trim` sees it, restricted to ASCII:
      space, tab, line feed, vertical tab, form feed and carriage return. */
  predicate IsSpace(c: char) { c == ' ' || '\t' <= c <= '\r' }

  /** NUMBER_REGEX, `/[0-9]/`. */
  predicate IsDigit(c: char) { '0' <= c <= '9' }

  predicate IsUpper(c: char) { 'A' <= c <= 'Z' }

  /** NAME_REGEX, `/[a-z0-9_]/i`. */
  predicate IsNameChar(c: char) { 'a' <= c <= 'z' || IsUpper(c) || IsDigit(c) || c == '_' }

  /** SYMBOL_REGEX: one of the nine operator characters + - / * ( ) | & ^. */
  predicate IsSymbol(c: char) { c in "+-/*()|&^" }

  predicate AllSpace(s: string) { forall i :: 0 <= i < |s| ==> IsSpace(s[i]) }

  predicate AllDigits(s: string) { forall i :: 0 <= i < |s| ==> IsDigit(s[i]) }

  predicate AllNameChars(s: string) { forall i :: 0 <= i < |s| ==> IsNameChar(s[i]) }

  // ---------------------------------------------------------------- trim

  /** The number of whitespace characters `s` starts with. */
  function LeadingSpace(s: string): (k: nat)
    ensures k <= |s| && AllSpace(s[..k])
    ensures k == |s| || !IsSpace(s[k])
    decreases |s|
  {
    if s != [] && IsSpace(s[0]) then
      var k := 1 + LeadingSpace(s[1..]);
      assert s[..k] == [s[0]] + s[1..][..k - 1];
      k
    else 0
  }

  /** The length of `s` without the whitespace it ends with. */
  function TrailingStart(s: string): (k: nat)
    ensures k <= |s| && AllSpace(s[k..])
    ensures k == 0 || !IsSpace(s[k - 1])
    decreases |s|
  {
    if s != [] && IsSpace(s[|s| - 1]) then
      var k := TrailingStart(s[..|s| - 1]);
      assert s[k..] == s[..|s| - 1][k..] + [s[|s| - 1]];
      k
    else |s|
  }

  /** `String.prototype.trim`: the result neither starts nor ends with
      whitespace and is empty exactly when `s` is all whitespace. */
  function Trim(s: string): (r: string)
    ensures r != [] ==> !IsSpace(r[0]) && !IsSpace(r[|r| - 1])
    ensures r == [] <==> AllSpace(s)
  {
    var i := LeadingSpace(s);
    var t := s[i..];
    var j := TrailingStart(t);
    assert j > 0 ==> t[..j][0] == s[i];
    assert j == 0 ==> s == s[..i] + t[j..];
    t[..j]
  }

  /** `s` is its trimmed form with whitespace before and after it: the
      trimmed form starts where the leading whitespace ends. */
  lemma {:induction false} TrimShape(s: string)
    ensures LeadingSpace(s) + |Trim(s)| <= |s|
    ensures s[LeadingSpace(s)..LeadingSpace(s) + |Trim(s)|] == Trim(s)
    ensures AllSpace(s[..LeadingSpace(s)]) && AllSpace(s[LeadingSpace(s) + |Trim(s)|..])
  {
    var i := LeadingSpace(s);
    var j := TrailingStart(s[i..]);
    assert Trim(s) == s[i..][..j];
    SuffixSlices(s, i, j);
  }

  /** Cutting `s` at `i` and its suffix at `j`: the pieces are slices of `s`,
      and a whitespace piece stays whitespace. */
  lemma {:induction false} SuffixSlices(s: string, i: nat, j: nat)
    requires i <= |s| && j <= |s| - i
    requires AllSpace(s[i..][j..])
    ensures s[i..][..j] == s[i..i + j]
    ensures AllSpace(s[i + j..])
  {
    assert s[i..][j..] == s[i + j..];
  }

  lemma {:induction false} TrimIdempotent(s: string)
    ensures Trim(Trim(s)) == Trim(s)
  {
    var r := Trim(s);
    assert LeadingSpace(r) == 0;
    assert r[0..] == r;
    assert TrailingStart(r) == |r|;
    assert r[..|r|] == r;
  }

  // ---------------------------------------------------------------- case

  function LowerChar(c: char): char
  {
    if IsUpper(c) then (c as int + 32) as char else c
  }

  /** `String.prototype.toLowerCase` over ASCII: no upper-case letter is left,
      and every character either stays or is its upper-case letter's partner. */
  function ToLower(s: string): (r: string)
    ensures |r| == |s|
    ensures forall i :: 0 <= i < |r| ==> !IsUpper(r[i])
    ensures forall i :: 0 <= i < |r| ==>
      r[i] == s[i] || (IsUpper(s[i]) && r[i] as int == s[i] as int + 32)
  {
    seq(|s|, i requires 0 <= i < |s| => LowerChar(s[i]))
  }

  // ---------------------------------------------------------------- split and join

  /** `parts` joined with `sep` between neighbours (`Array.prototype.join`). */
  function JoinWith(parts: seq<string>, sep: string): string
  {
    if |parts| == 0 then ""
    else if |parts| == 1 then parts[0]
    else parts[0] + sep + JoinWith(parts[1..], sep)
  }

  /** `sep` occurs in `s` starting at index `k`. */
  predicate OccursAt(s: string, sep: string, k: int)
  {
    0 <= k && k + |sep| <= |s| && s[k..k + |sep|] == sep
  }

  /** `sep` occurs somewhere in `s`. */
  predicate Contains(s: string, sep: string)
  {
    exists k :: 0 <= k <= |s| && OccursAt(s, sep, k)
  }

  /** Joining with no separator distributes over concatenation of the parts. */
  lemma {:induction false} JoinNothingAppend(x: seq<string>, y: seq<string>)
    ensures JoinWith(x + y, "") == JoinWith(x, "") + JoinWith(y, "")
    decreases |x|
  {
    if |x| == 0 {
      assert x + y == y;
    } else if |y| == 0 {
      assert x + y == x;
    } else {
      assert (x + y)[0] == x[0] && (x + y)[1..] == x[1..] + y;
      JoinNothingAppend(x[1..], y);
      if |x| == 1 {
        assert x[1..] + y == y;
      }
    }
  }

  /** `String.prototype.split` with a non-empty string separator: cut at every
      leftmost, non-overlapping occurrence of `sep`. There is always a piece,
      the first piece is where `s` starts, and no piece holds the separator
      (so, with SplitJoin, every occurrence of `sep` is a cut). */
  function SplitOn(s: string, sep: string): (r: seq<string>)
    requires sep != []
    ensures |r| >= 1
    ensures r[0] <= s
    ensures forall i :: 0 <= i < |r| ==> !Contains(r[i], sep)
    decreases |s|
  {
    if |s| < |sep| then [s]
    else if s[..|sep|] == sep then
      var rest := SplitOn(s[|sep|..], sep);
      assert !Contains("", sep);
      [""] + rest
    else
      var rest := SplitOn(s[1..], sep);
      FirstPieceGrows(s, rest[0], sep);
      [[s[0]] + rest[0]] + rest[1..]
  }

  /** The first piece after a character that does not start the separator:
      putting the character back in front keeps it a separator-free prefix. */
  lemma {:induction false} FirstPieceGrows(s: string, p: string, sep: string)
    requires sep != [] && |s| >= |sep| && s[..|sep|] != sep
    requires p <= s[1..] && !Contains(p, sep)
    ensures [s[0]] + p <= s && !Contains([s[0]] + p, sep)
  {
    var q := [s[0]] + p;
    assert q == s[..|q|];
    forall k | 0 <= k
      ensures !OccursAt(q, sep, k)
    {
      if k == 0 && |sep| <= |q| {
        assert q[..|sep|] == s[..|sep|];
      } else if 1 <= k && k + |sep| <= |q| {
        assert q[k..k + |sep|] == p[k - 1..k - 1 + |sep|];
        assert !OccursAt(p, sep, k - 1);
      }
    }
  }

  /** `String.prototype.split` with a string separator: the empty separator
      cuts the string into its characters. */
  function Split(s: string, sep: string): seq<string>
  {
    if sep == [] then seq(|s|, i requires 0 <= i < |s| => [s[i]]) else SplitOn(s, sep)
  }

  lemma {:induction false} JoinOntoFirst(a: string, parts: seq<string>, sep: string)
    requires |parts| >= 1
    ensures JoinWith([a + parts[0]] + parts[1..], sep) == a + JoinWith(parts, sep)
  {
    var x := [a + parts[0]] + parts[1..];
    if |parts| > 1 {
      assert x[1..] == parts[1..];
      assert (a + parts[0]) + sep + JoinWith(parts[1..], sep)
          == a + (parts[0] + sep + JoinWith(parts[1..], sep));
    }
  }

  lemma {:induction false} SplitOnJoin(s: string, sep: string)
    requires sep != []
    ensures JoinWith(SplitOn(s, sep), sep) == s
    decreases |s|
  {
    if |s| < |sep| {
    } else if s[..|sep|] == sep {
      SplitOnJoin(s[|sep|..], sep);
      SeparatorFirst(s, sep);
    } else {
      SplitOnJoin(s[1..], sep);
      OtherFirst(s, sep);
    }
  }

  /** The step of SplitOnJoin for a string that starts with the separator. */
  lemma {:induction false} SeparatorFirst(s: string, sep: string)
    requires sep != [] && |s| >= |sep| && s[..|sep|] == sep
    requires JoinWith(SplitOn(s[|sep|..], sep), sep) == s[|sep|..]
    ensures JoinWith(SplitOn(s, sep), sep) == s
  {
    var tail := s[|sep|..];
    var rest := SplitOn(tail, sep);
    var pieces := [""] + rest;
    assert SplitOn(s, sep) == pieces;
    assert JoinWith(pieces, sep) == sep + tail by {
      assert pieces[0] == "" && pieces[1..] == rest;
    }
    assert sep + tail == s by {
      assert s == s[..|sep|] + tail;
    }
  }

  /** The step of SplitOnJoin for a string that does not start with it. */
  lemma {:induction false} OtherFirst(s: string, sep: string)
    requires sep != [] && |s| >= |sep| && s[..|sep|] != sep
    requires JoinWith(SplitOn(s[1..], sep), sep) == s[1..]
    ensures JoinWith(SplitOn(s, sep), sep) == s
  {
    var rest := SplitOn(s[1..], sep);
    assert SplitOn(s, sep) == [[s[0]] + rest[0]] + rest[1..];
    JoinOntoFirst([s[0]], rest, sep);
    assert s == [s[0]] + s[1..];
  }

  lemma {:induction false} CharsJoin(s: string)
    ensures JoinWith(Split(s, ""), "") == s
    decreases |s|
  {
    if |s| > 1 {
      CharsJoin(s[1..]);
      assert Split(s, "")[1..] == Split(s[1..], "");
      assert s == [s[0]] + s[1..];
    } else if |s| == 1 {
      assert Split(s, "") == [[s[0]]] && [s[0]] == s;
    }
  }

  /** Splitting with any separator and joining with the same separator gives
      the string back. */
  lemma {:induction false} SplitJoin(s: string, sep: string)
    ensures JoinWith(Split(s, sep), sep) == s
  {
    if sep == [] { CharsJoin(s); } else { SplitOnJoin(s, sep); }
  }

  // ---------------------------------------------------------------- numbers

  function DigitChar(d: nat): char
    requires d < 10
  {
    ('0' as int + d) as char
  }

  function DigitOf(c: char): nat
    requires IsDigit(c)
  {
    c as int - '0' as int
  }

  /** `parseInt` of a string of decimal digits. */
  function DigitsValue(s: string): nat
    requires AllDigits(s)
  {
    if s == [] then 0 else 10 * DigitsValue(s[..|s| - 1]) + DigitOf(s[|s| - 1])
  }

  /** The decimal form of a natural number, as `Number.prototype.toString`
      writes it: non-empty, digits only, read back as the same number. */
  function NatToString(n: nat): (r: string)
    ensures r != [] && AllDigits(r)
    ensures DigitsValue(r) == n
  {
    var last := [DigitChar(n % 10)];
    if n < 10 then last
    else
      var r := NatToString(n / 10) + last;
      assert r[..|r| - 1] == NatToString(n / 10);
      r
  }

  function IntToString(n: int): string
  {
    if n < 0 then "-" + NatToString(-n) else NatToString(n)
  }

  /** Moving one piece of a span's text from the text still to read
      to the text already read. */
  lemma {:induction false} ReadOn(whole: (string, string), read: string, piece: string, next: (string, string))
    requires whole == (read + (piece + next.0), next.1)
    ensures whole == ((read + piece) + next.0, next.1)
  {
    assert read + (piece + next.0) == (read + piece) + next.0;
  }
}

=== FILE: tokenizer.dfy ===
/** tokenizeArg: one argument string to a sequence of tokens. */
module Tokenizer {
  import opened Base
  import opened Text
  import opened Syntax

  /** A character the tokenizer has no case for. */
  predicate Unexpected(c: char)
  {
    !IsSpace(c) && c != '"' && c != '$' && !IsDigit(c) && !IsSymbol(c)
  }

  /** The shape every token of each kind has. String tokens may hold any
      text. */
  predicate WellShaped(t: Token)
  {
    match t.kind
    case Variable => AllNameChars(t.value)
    case Number => t.value != [] && AllDigits(t.value)
    case Operator => |t.value| == 1 && IsSymbol(t.value[0])
    case String => true
  }

  // ---------------------------------------------------------------- runs

  /** The number of name characters `t` starts with. */
  function NameRun(t: string): (k: nat)
    ensures k <= |t| && AllNameChars(t[..k])
    ensures k == |t| || !IsNameChar(t[k])
    decreases |t|
  {
    if t != [] && IsNameChar(t[0]) then
      var k := 1 + NameRun(t[1..]);
      assert t[..k] == [t[0]] + t[1..][..k - 1];
      k
    else 0
  }

  /** The number of decimal digits `t` starts with. */
  function DigitRun(t: string): (k: nat)
    ensures k <= |t| && AllDigits(t[..k])
    ensures k == |t| || !IsDigit(t[k])
    decreases |t|
  {
    if t != [] && IsDigit(t[0]) then
      var k := 1 + DigitRun(t[1..]);
      assert t[..k] == [t[0]] + t[1..][..k - 1];
      k
    else 0
  }

  /** The contents of a string literal read from just after its opening
      quote, and the text after its closing quote. `\"`, `\n` and `\t` stand
      for a quote, a line feed and a tab; any other backslash is dropped and
      the character after it read as usual. An unterminated literal takes the
      rest of the text. */
  function LexString(t: string): (r: (string, string))
    ensures |r.1| < |t| || r.1 == []
    decreases |t|
  {
    if t == [] then ("", [])
    else if t[0] == '\\' then
      if |t| >= 2 && t[1] in "\"nt" then
        var (str, rest) := LexString(t[2..]);
        ([Unescape(t[1])] + str, rest)
      else LexString(t[1..])
    else if t[0] == '"' then ("", t[1..])
    else
      var (str, rest) := LexString(t[1..]);
      ([t[0]] + str, rest)
  }

  /** Without backslashes, a string literal's contents run up to the first
      quote, which is consumed; an unterminated literal takes the rest of
      the text. */
  lemma {:induction false} LexStringPlain(a: string, b: string)
    requires '"' !in a && '\\' !in a
    requires b == [] || b[0] == '"'
    ensures LexString(a + b) == if b == [] then (a, []) else (a, b[1..])
    decreases |a|
  {
    if a == [] {
      assert a + b == b;
    } else {
      LexStringPlain(a[1..], b);
      assert (a + b)[0] == a[0] && (a + b)[1..] == a[1..] + b;
      assert a == [a[0]] + a[1..];
    }
  }

  function Unescape(c: char): char
  {
    if c == 'n' then '\n' else if c == 't' then '\t' else c
  }

  // ---------------------------------------------------------------- the token sequence

  /** Glue `ts` in front of a successful result. */
  function Prepend(ts: seq<Token>, r: Result<seq<Token>, char>): Result<seq<Token>, char>
  {
    match r
    case Ok(rest) => Ok(ts + rest)
    case Err(c) => r
  }

  /** The tokens of `s`, or the first character that fits no token. */
  function Tokenize(s: string): Result<seq<Token>, char>
    decreases |s|
  {
    if s == [] then Ok([])
    else if IsSpace(s[0]) then Tokenize(s[1..])
    else if s[0] == '"' then
      var (str, rest) := LexString(s[1..]);
      Prepend([Token(str, String)], Tokenize(rest))
    else if s[0] == '$' then
      var n := NameRun(s[1..]);
      Prepend([Token(s[1..1 + n], Variable)], Tokenize(s[1 + n..]))
    else if IsDigit(s[0]) then
      var n := DigitRun(s);
      Prepend([Token(s[..n], Number)], Tokenize(s[n..]))
    else if IsSymbol(s[0]) then
      Prepend([Token([s[0]], Operator)], Tokenize(s[1..]))
    else Err(s[0])
  }

  // ---------------------------------------------------------------- tokenizeArg

  /** tokenizeArg: the tokens of `arg`, or an error naming the line, the
      argument and the first character that fits no token. */
  method TokenizeArg(arg: string, line: nat, argnum: nat) returns (r: Result<seq<Token>, Error>)
    ensures Tokenize(arg).Ok? ==> r == Ok(Tokenize(arg).value)
    ensures Tokenize(arg).Err? ==> r == Err(AtArgument(line, argnum, UnexpectedCharacter(Tokenize(arg).error)))
  {
    var tokens: seq<Token> := [];
    var i := 0;
    assert arg[0..] == arg;
    PrependEmpty(Tokenize(arg));
    while i < |arg|
      invariant 0 <= i <= |arg|
      invariant Tokenize(arg) == Prepend(tokens, Tokenize(arg[i..]))
      decreases |arg| - i
    {
      if IsSpace(arg[i]) {
        TokenizeSpace(arg, i);
        i := i + 1;
      } else {
        var t, j := ReadToken(arg, i);
        if t.Err? {
          return Err(AtArgument(line, argnum, UnexpectedCharacter(t.error)));
        }
        TokenStep(Tokenize(arg), tokens, t.value, Tokenize(arg[i..]), Tokenize(arg[j..]));
        tokens := tokens + [t.value];
        i := j;
      }
    }
    assert arg[i..] == [];
    assert tokens + [] == tokens;
    r := Ok(tokens);
  }

  /** The branches of tokenizeArg's loop at a character that is not a
      space: the token read there and the index after it, or the character
      that fits no token. */
  method ReadToken(arg: string, i: nat) returns (r: Result<Token, char>, j: nat)
    requires i < |arg| && !IsSpace(arg[i])
    ensures r.Err? ==> Unexpected(arg[i]) && r.error == arg[i] && Tokenize(arg[i..]) == Err(arg[i])
    ensures r.Ok? ==> i < j <= |arg| && Tokenize(arg[i..]) == Prepend([r.value], Tokenize(arg[j..]))
  {
    var c := arg[i];
    if c == '"' {
      var str;
      str, j := ReadString(arg, i + 1);
      TokenizeString(arg, i, str, j);
      r := Ok(Token(str, String));
    } else if c == '$' {
      j := ReadName(arg, i + 1);
      TokenizeName(arg, i, j);
      r := Ok(Token(arg[i + 1..j], Variable));
    } else if IsDigit(c) {
      j := ReadDigits(arg, i + 1);
      TokenizeNumber(arg, i, j);
      r := Ok(Token(arg[i..j], Number));
    } else if IsSymbol(c) {
      TokenizeSymbol(arg, i);
      j := i + 1;
      r := Ok(Token([c], Operator));
    } else {
      TokenizeUnexpected(arg, i);
      j := i;
      r := Err(c);
    }
  }

  lemma {:induction false} TokenStep(all: Result<seq<Token>, char>, tokens: seq<Token>, t: Token,
                  here: Result<seq<Token>, char>, next: Result<seq<Token>, char>)
    requires all == Prepend(tokens, here)
    requires here == Prepend([t], next)
    ensures all == Prepend(tokens + [t], next)
  {
    PrependPrepend(tokens, [t], next);
  }

  lemma {:induction false} TokenizeSpace(arg: string, i: nat)
    requires i < |arg| && IsSpace(arg[i])
    ensures Tokenize(arg[i..]) == Tokenize(arg[i + 1..])
  {
    assert arg[i..][1..] == arg[i + 1..];
  }

  lemma {:induction false} TokenizeString(arg: string, i: nat, str: string, j: nat)
    requires i < |arg| && arg[i] == '"' && j <= |arg|
    requires str == LexString(arg[i + 1..]).0 && arg[j..] == LexString(arg[i + 1..]).1
    ensures Tokenize(arg[i..]) == Prepend([Token(str, String)], Tokenize(arg[j..]))
  {
    assert arg[i..][1..] == arg[i + 1..];
  }

  lemma {:induction false} TokenizeName(arg: string, i: nat, j: nat)
    requires i < |arg| && arg[i] == '$'
    requires j == i + 1 + NameRun(arg[i + 1..])
    ensures Tokenize(arg[i..]) == Prepend([Token(arg[i + 1..j], Variable)], Tokenize(arg[j..]))
  {
    var t := arg[i..];
    assert t[1..] == arg[i + 1..];
    assert arg[i + 1..j] == t[1..1 + (j - i - 1)];
    assert arg[j..] == t[1 + (j - i - 1)..];
  }

  lemma {:induction false} TokenizeNumber(arg: string, i: nat, j: nat)
    requires i < |arg| && IsDigit(arg[i])
    requires j == i + 1 + DigitRun(arg[i + 1..])
    ensures Tokenize(arg[i..]) == Prepend([Token(arg[i..j], Number)], Tokenize(arg[j..]))
  {
    var t := arg[i..];
    assert t[1..] == arg[i + 1..];
    DigitRunStep(t);
    assert arg[i..j] == t[..j - i];
    assert arg[j..] == t[j - i..];
  }

  lemma {:induction false} TokenizeSymbol(arg: string, i: nat)
    requires i < |arg| && !IsSpace(arg[i]) && arg[i] != '"' && arg[i] != '$' && !IsDigit(arg[i])
    requires IsSymbol(arg[i])
    ensures Tokenize(arg[i..]) == Prepend([Token([arg[i]], Operator)], Tokenize(arg[i + 1..]))
  {
    assert arg[i..][1..] == arg[i + 1..];
  }

  lemma {:induction false} TokenizeUnexpected(arg: string, i: nat)
    requires i < |arg| && Unexpected(arg[i])
    ensures Tokenize(arg[i..]) == Err(arg[i])
  {
  }

  lemma {:induction false} PrependPrepend(a: seq<Token>, b: seq<Token>, r: Result<seq<Token>, char>)
    ensures Prepend(a, Prepend(b, r)) == Prepend(a + b, r)
  {
    if r.Ok? {
      assert a + (b + r.value) == a + b + r.value;
    }
  }

  lemma {:induction false} PrependEmpty(r: Result<seq<Token>, char>)
    ensures Prepend([], r) == r
  {
    if r.Ok? {
      assert [] + r.value == r.value;
    }
  }

  lemma {:induction false} DigitRunStep(t: string)
    requires t != [] && IsDigit(t[0])
    ensures DigitRun(t) == 1 + DigitRun(t[1..])
  {
  }

  /** The inner loop over a string literal starting at `i`, just after its
      opening quote: the literal's contents and where reading goes on. */
  method ReadString(arg: string, i: nat) returns (str: string, j: nat)
    requires i <= |arg|
    ensures j <= |arg|
    ensures str == LexString(arg[i..]).0 && arg[j..] == LexString(arg[i..]).1
  {
    str := "";
    j := i;
    ghost var whole := LexString(arg[i..]);
    assert str + LexString(arg[j..]).0 == LexString(arg[j..]).0;
    while j < |arg|
      invariant i <= j
      invariant Reading(arg, j, whole, str)
      decreases |arg| - j
    {
      var c := arg[j];
      if c == '\\' && j + 1 < |arg| && arg[j + 1] in "\"nt" {
        // the three escapes: a quote, `n` for a line feed, `t` for a tab
        EscapeStep(arg, j, whole, str);
        str := str + [Unescape(arg[j + 1])];
        j := j + 2;
      } else if c == '\\' {
        // any other backslash is skipped
        SkipStep(arg, j, whole, str);
        j := j + 1;
      } else if c == '"' {
        CloseStep(arg, j, whole, str);
        j := j + 1;
        return;
      } else {
        CharStep(arg, j, whole, str);
        str := str + [c];
        j := j + 1;
      }
    }
    EndStep(arg, j, whole, str);
  }

  /** The string loop's invariant: `str` has been read and the rest of the
      literal starts at `j`. */
  ghost predicate Reading(arg: string, j: nat, whole: (string, string), str: string)
  {
    j <= |arg| && whole == (str + LexString(arg[j..]).0, LexString(arg[j..]).1)
  }

  /** The invariant across an escape, a skipped backslash, a plain
      character, the closing quote and the end of the text. */
  lemma {:induction false} EscapeStep(arg: string, j: nat, whole: (string, string), str: string)
    requires j + 1 < |arg| && arg[j] == '\\' && arg[j + 1] in "\"nt"
    requires Reading(arg, j, whole, str)
    ensures Reading(arg, j + 2, whole, str + [Unescape(arg[j + 1])])
  {
    LexEscapeAt(arg, j);
    ReadOn(whole, str, [Unescape(arg[j + 1])], LexString(arg[j + 2..]));
  }

  lemma {:induction false} SkipStep(arg: string, j: nat, whole: (string, string), str: string)
    requires j < |arg| && arg[j] == '\\' && !(j + 1 < |arg| && arg[j + 1] in "\"nt")
    requires Reading(arg, j, whole, str)
    ensures Reading(arg, j + 1, whole, str)
  {
    LexSkipAt(arg, j);
  }

  lemma {:induction false} CharStep(arg: string, j: nat, whole: (string, string), str: string)
    requires j < |arg| && arg[j] != '\\' && arg[j] != '"'
    requires Reading(arg, j, whole, str)
    ensures Reading(arg, j + 1, whole, str + [arg[j]])
  {
    LexCharAt(arg, j);
    ReadOn(whole, str, [arg[j]], LexString(arg[j + 1..]));
  }

  lemma {:induction false} CloseStep(arg: string, j: nat, whole: (string, string), str: string)
    requires j < |arg| && arg[j] == '"'
    requires Reading(arg, j, whole, str)
    ensures whole == (str, arg[j + 1..])
  {
    LexCloseAt(arg, j);
    assert str + "" == str;
  }

  lemma {:induction false} EndStep(arg: string, j: nat, whole: (string, string), str: string)
    requires j >= |arg| && Reading(arg, j, whole, str)
    ensures whole == (str, arg[j..])
  {
    assert arg[j..] == [];
    assert str + "" == str;
  }

  lemma {:induction false} LexEscapeAt(arg: string, j: nat)
    requires j + 1 < |arg| && arg[j] == '\\' && arg[j + 1] in "\"nt"
    ensures LexString(arg[j..]) == ([Unescape(arg[j + 1])] + LexString(arg[j + 2..]).0, LexString(arg[j + 2..]).1)
  {
    assert arg[j..][2..] == arg[j + 2..];
  }

  lemma {:induction false} LexSkipAt(arg: string, j: nat)
    requires j < |arg| && arg[j] == '\\' && !(j + 1 < |arg| && arg[j + 1] in "\"nt")
    ensures LexString(arg[j..]) == LexString(arg[j + 1..])
  {
    assert arg[j..][1..] == arg[j + 1..];
  }

  lemma {:induction false} LexCloseAt(arg: string, j: nat)
    requires j < |arg| && arg[j] == '"'
    ensures LexString(arg[j..]) == ("", arg[j + 1..])
  {
    assert arg[j..][1..] == arg[j + 1..];
  }

  lemma {:induction false} LexCharAt(arg: string, j: nat)
    requires j < |arg| && arg[j] != '\\' && arg[j] != '"'
    ensures LexString(arg[j..]) == ([arg[j]] + LexString(arg[j + 1..]).0, LexString(arg[j + 1..]).1)
  {
    assert arg[j..][1..] == arg[j + 1..];
  }

  /** The inner loop over a variable name starting at `i`, just after `$`:
      the position of the first character that is not a name character. */
  method ReadName(arg: string, i: nat) returns (j: nat)
    requires i <= |arg|
    ensures j == i + NameRun(arg[i..])
  {
    j := i;
    while j < |arg| && IsNameChar(arg[j])
      invariant i <= j <= |arg|
      invariant NameRun(arg[i..]) == (j - i) + NameRun(arg[j..])
      decreases |arg| - j
    {
      assert arg[j..][1..] == arg[j + 1..];
      j := j + 1;
    }
  }

  /** The inner loop over a number whose first digit is just before `i`: the
      position of the first character that is not a digit. */
  method ReadDigits(arg: string, i: nat) returns (j: nat)
    requires i <= |arg|
    ensures j == i + DigitRun(arg[i..])
  {
    j := i;
    while j < |arg| && IsDigit(arg[j])
      invariant i <= j <= |arg|
      invariant DigitRun(arg[i..]) == (j - i) + DigitRun(arg[j..])
      decreases |arg| - j
    {
      assert arg[j..][1..] == arg[j + 1..];
      j := j + 1;
    }
  }

  // ---------------------------------------------------------------- properties

  /** Every token tokenizeArg returns has the shape of its kind: a name, a
      non-empty digit string or one operator character. */
  lemma {:induction false} TokensWellShaped(s: string)
    requires Tokenize(s).Ok?
    ensures forall k :: 0 <= k < |Tokenize(s).value| ==> WellShaped(Tokenize(s).value[k])
    decreases |s|
  {
    if s == [] {
    } else if IsSpace(s[0]) {
      TokensWellShaped(s[1..]);
    } else if s[0] == '"' {
      TokensWellShaped(LexString(s[1..]).1);
    } else if s[0] == '$' {
      var n := NameRun(s[1..]);
      assert s[1..1 + n] == s[1..][..n];
      TokensWellShaped(s[1 + n..]);
    } else if IsDigit(s[0]) {
      TokensWellShaped(s[DigitRun(s)..]);
    } else if IsSymbol(s[0]) {
      TokensWellShaped(s[1..]);
    }
  }

  /** tokenizeArg fails only on a character of the argument that fits no
      token. */
  lemma {:induction false} TokenizeErrorChar(s: string)
    requires Tokenize(s).Err?
    ensures Unexpected(Tokenize(s).error) && Tokenize(s).error in s
    decreases |s|
  {
    if IsSpace(s[0]) {
      TokenizeErrorChar(s[1..]);
    } else if s[0] == '"' {
      var rest := LexString(s[1..]).1;
      TokenizeErrorChar(rest);
      LexStringSuffix(s[1..]);
      SuffixIn(s, rest, Tokenize(rest).error);
    } else if s[0] == '$' {
      var n := NameRun(s[1..]);
      var rest := s[1 + n..];
      assert Tokenize(s) == Prepend([Token(s[1..1 + n], Variable)], Tokenize(rest));
      TokenizeErrorChar(rest);
      SuffixIn(s, rest, Tokenize(s).error);
    } else if IsDigit(s[0]) {
      TokenizeErrorChar(s[DigitRun(s)..]);
      SuffixIn(s, s[DigitRun(s)..], Tokenize(s).error);
    } else if IsSymbol(s[0]) {
      TokenizeErrorChar(s[1..]);
      SuffixIn(s, s[1..], Tokenize(s).error);
    }
  }

  /** An argument with no unexpected character anywhere is always
      tokenized. */
  lemma {:induction false} TokenizeSucceeds(s: string)
    requires forall k :: 0 <= k < |s| ==> !Unexpected(s[k])
    ensures Tokenize(s).Ok?
    decreases |s|
  {
    if s != [] {
      var next :=
        if IsSpace(s[0]) || IsSymbol(s[0]) then s[1..]
        else if s[0] == '"' then LexString(s[1..]).1
        else if s[0] == '$' then s[1 + NameRun(s[1..])..]
        else s[DigitRun(s)..];
      LexStringSuffix(s[1..]);
      assert s[|s| - |next|..] == next;
      forall k | 0 <= k < |next| ensures !Unexpected(next[k]) {
        assert next[k] == s[|s| - |next| + k];
      }
      TokenizeSucceeds(next);
    }
  }

  lemma {:induction false} LexStringSuffix(t: string)
    ensures LexString(t).1 == t[|t| - |LexString(t).1|..]
    decreases |t|
  {
    if t == [] {
    } else if t[0] == '\\' {
      if |t| >= 2 && t[1] in "\"nt" {
        LexStringSuffix(t[2..]);
      } else {
        LexStringSuffix(t[1..]);
      }
    } else if t[0] != '"' {
      LexStringSuffix(t[1..]);
    }
  }

  lemma {:induction false} SuffixIn(s: string, rest: string, c: char)
    requires |rest| <= |s| && rest == s[|s| - |rest|..] && c in rest
    ensures c in s
  {
    var k :| 0 <= k < |rest| && rest[k] == c;
    assert s[|s| - |rest| + k] == c;
  }

  // ---------------------------------------------------------------- writing tokens back

  /** A string literal's contents written with the three escapes. */
  function Escape(v: string): (r: string)
    ensures |r| >= |v|
  {
    if v == [] then ""
    else
      (if v[0] == '"' then "\\\"" else if v[0] == '\n' then "\\n" else if v[0] == '\t' then "\\t" else [v[0]])
      + Escape(v[1..])
  }

  function RenderToken(t: Token): string
  {
    match t.kind
    case Variable => "$" + t.value
    case Number => t.value
    case Operator => t.value
    case String => "\"" + Escape(t.value) + "\""
  }

  /** Tokens written as argument text, each followed by a space. */
  function Render(ts: seq<Token>): string
  {
    if ts == [] then "" else RenderToken(ts[0]) + " " + Render(ts[1..])
  }

  /** A token that can be written back: well shaped, and, for a string, free
      of backslashes, which have no escape of their own. */
  predicate Renderable(t: Token)
  {
    WellShaped(t) && (t.kind == String ==> '\\' !in t.value)
  }

  lemma {:induction false} LexEscaped(v: string, rest: string)
    requires '\\' !in v
    ensures LexString(Escape(v) + "\"" + rest) == (v, rest)
    decreases |v|
  {
    if v == [] {
      assert Escape(v) + "\"" + rest == "\"" + rest;
    } else {
      LexEscaped(v[1..], rest);
      var q := "\"" + rest;
      assert Escape(v) + "\"" + rest == Escape(v) + q;
      assert Escape(v[1..]) + "\"" + rest == Escape(v[1..]) + q;
      if v[0] in "\"\n\t" {
        LexEscapedFirst(v, q);
      } else {
        LexPlainFirst(v, q);
      }
      assert v == [v[0]] + v[1..];
    }
  }

  /** An escaped first character of a literal's contents is read back. */
  lemma {:induction false} LexEscapedFirst(v: string, tail: string)
    requires v != [] && v[0] in "\"\n\t"
    ensures LexString(Escape(v) + tail) == ([v[0]] + LexString(Escape(v[1..]) + tail).0, LexString(Escape(v[1..]) + tail).1)
  {
    var t := Escape(v) + tail;
    var after := Escape(v[1..]) + tail;
    assert t[2..] == after && t[0] == '\\' && t[1] in "\"nt" && Unescape(t[1]) == v[0] by {
      assert t == [t[0], t[1]] + after;
    }
    LexEscapeAt(t, 0);
    assert t[0..] == t;
  }

  /** A plain first character of a literal's contents is read back. */
  lemma {:induction false} LexPlainFirst(v: string, tail: string)
    requires v != [] && v[0] !in "\"\n\t" && v[0] != '\\'
    ensures LexString(Escape(v) + tail) == ([v[0]] + LexString(Escape(v[1..]) + tail).0, LexString(Escape(v[1..]) + tail).1)
  {
    var t := Escape(v) + tail;
    var after := Escape(v[1..]) + tail;
    assert t[1..] == after && t[0] == v[0] by {
      assert t == [v[0]] + after;
    }
    LexCharAt(t, 0);
    assert t[0..] == t;
  }

  lemma {:induction false} NameRunOf(v: string, rest: string)
    requires AllNameChars(v)
    requires rest == [] || !IsNameChar(rest[0])
    ensures NameRun(v + rest) == |v|
    decreases |v|
  {
    if v != [] {
      assert (v + rest)[1..] == v[1..] + rest;
      NameRunOf(v[1..], rest);
    }
  }

  lemma {:induction false} DigitRunOf(v: string, rest: string)
    requires AllDigits(v)
    requires rest == [] || !IsDigit(rest[0])
    ensures DigitRun(v + rest) == |v|
    decreases |v|
  {
    if v != [] {
      assert (v + rest)[1..] == v[1..] + rest;
      DigitRunOf(v[1..], rest);
    }
  }

  /** Tokenizing written-back tokens gives the same tokens. */
  lemma {:induction false} RenderTokenize(ts: seq<Token>)
    requires forall k :: 0 <= k < |ts| ==> Renderable(ts[k])
    ensures Tokenize(Render(ts)) == Ok(ts)
    decreases |ts|
  {
    if ts != [] {
      RenderTokenize(ts[1..]);
      RenderOne(ts[0], ts[1..]);
      assert [ts[0]] + ts[1..] == ts;
    }
  }

  lemma {:induction false} RenderOne(t: Token, rest: seq<Token>)
    requires Renderable(t) && Tokenize(Render(rest)) == Ok(rest)
    ensures Tokenize(Render([t] + rest)) == Ok([t] + rest)
  {
    var after := " " + Render(rest);
    RenderCons(t, rest);
    SpaceFirst(Render(rest));
    TokenizeRenderToken(t, after);
  }

  lemma {:induction false} RenderCons(t: Token, rest: seq<Token>)
    ensures Render([t] + rest) == RenderToken(t) + (" " + Render(rest))
  {
    assert ([t] + rest)[0] == t && ([t] + rest)[1..] == rest;
  }

  lemma {:induction false} SpaceFirst(s: string)
    ensures Tokenize(" " + s) == Tokenize(s)
  {
    assert (" " + s)[1..] == s;
  }

  lemma {:induction false} TokenizeRenderToken(t: Token, after: string)
    requires Renderable(t)
    requires after != [] && after[0] == ' ' && Tokenize(after).Ok?
    ensures Tokenize(RenderToken(t) + after) == Ok([t] + Tokenize(after).value)
  {
    match t.kind
    case Variable => TokenizeRenderedName(t.value, after);
    case Number => TokenizeRenderedNumber(t.value, after);
    case Operator => TokenizeRenderedOperator(t.value, after);
    case String => TokenizeRenderedString(t.value, after);
  }

  lemma {:induction false} TokenizeRenderedName(v: string, after: string)
    requires AllNameChars(v)
    requires after != [] && after[0] == ' ' && Tokenize(after).Ok?
    ensures Tokenize("$" + v + after) == Ok([Token(v, Variable)] + Tokenize(after).value)
  {
    var s := "$" + v + after;
    assert s[1..] == v + after;
    NameRunOf(v, after);
    assert s[1..1 + |v|] == v;
    assert s[1 + |v|..] == after;
  }

  lemma {:induction false} TokenizeRenderedNumber(v: string, after: string)
    requires v != [] && AllDigits(v)
    requires after != [] && after[0] == ' ' && Tokenize(after).Ok?
    ensures Tokenize(v + after) == Ok([Token(v, Number)] + Tokenize(after).value)
  {
    var s := v + after;
    DigitRunOf(v, after);
    assert s[..|v|] == v;
    assert s[|v|..] == after;
  }

  lemma {:induction false} TokenizeRenderedOperator(v: string, after: string)
    requires |v| == 1 && IsSymbol(v[0])
    requires after != [] && after[0] == ' ' && Tokenize(after).Ok?
    ensures Tokenize(v + after) == Ok([Token(v, Operator)] + Tokenize(after).value)
  {
    var s := v + after;
    assert s[0] == v[0];
    assert s[1..] == after;
    assert [s[0]] == v;
  }

  lemma {:induction false} TokenizeRenderedString(v: string, after: string)
    requires '\\' !in v
    requires after != [] && after[0] == ' ' && Tokenize(after).Ok?
    ensures Tokenize("\"" + Escape(v) + "\"" + after) == Ok([Token(v, String)] + Tokenize(after).value)
  {
    var s := "\"" + Escape(v) + "\"" + after;
    assert s[1..] == Escape(v) + "\"" + after;
    LexEscaped(v, after);
  }
}
